=== FILE: README.md ===
# Universal Authentication Backend — a Dafny model of its core

This project models the core of an Express/Prisma authentication service.
It covers:

- **Registration and login.** Login has a brute-force lockout: ten failed attempts inside a
  thirty-minute window lock the email.
- **Refresh tokens.** Only their hash is stored, and each token works once: using it revokes it
  and mints a replacement.
- **Logout and password reset.** A password-reset token is single-use, and a reset ends every
  session of the user.
- **Social sign-in.** The callback takes one of three branches: a linked identity, a known
  email, or a new user.
- **Role-based access control.** Roles carry permissions. The `admin` role holds every
  permission in the service check. The request guards compare names literally.
- **User administration.**
- **The bearer-token gate.**
- **The request schemas.**
- **The error taxonomy**, with HTTP status codes.
- **The idempotent database seed.**

The database is an immutable `Store` value: one sequence per table. Every operation is a pure
function from a store to a `Step`, which holds the store after the operation and either a
result or an application error.

The service writes some rows before it throws. A refused login records the attempt. A rotation
revokes the old token first. So the store of a failed step is not always the input store, and
the contracts say exactly when it is.

These are inputs or function parameters:

- **Hashing and signing.** SHA-256 of a token (`sha`) and the password digest. The Argon2id hash
  (RFC 9106) of the submitted password is the `digest` input, and its verification is the
  `verifyPw` input.
- **The JWT library's verdict.** It is an input (`JwtOutcome`).
- **Randomness and fresh identifiers.** The random bytes behind a token and every new record id
  are inputs.
- **The clock.** `now` is in milliseconds.

A database constraint failure is an `Internal` error. This covers a unique key already taken, a
dangling foreign key, and a record missing for update or delete. The source's error handler
turns such exceptions into HTTP 500.

| module | file | models |
|---|---|---|
| `Common`, `Text`, `Decimal` | common.dfy, text.dfy, decimal.dfy | sequence helpers, JavaScript lower-casing/trimming/UTF-16 length, `parseInt` |
| `Errors` | errors.dfy | the `AppError` hierarchy: status, code, message |
| `Crypto`, `Config` | crypto.dfy, config.dfy | `parseDuration`, `calculateExpiration`, token generation, `compareTokens`; configuration defaults |
| `Store` | store.dfy | the tables, key lookups, the relations a Prisma `include` loads, inserts, updates and cascading deletes |
| `Tokens` | tokens.dfy | the token service |
| `Auth` | auth.dfy | the auth service |
| `OAuth` | oauth.dfy | the social sign-in service |
| `Rbac`, `RbacGuards` | rbac.dfy, rbac_guards.dfy | the RBAC service and the RBAC middleware |
| `GuardWiring` | guard_wiring.dfy | `authenticate` followed by a guard, as the routes mount them |
| `Users` | users.dfy | the user service |
| `AuthGate` | auth_gate.dfy | the authentication middleware |
| `AuthSchemas`, `UserSchemas`, `CommonSchemas` | auth_schemas.dfy, user_schemas.dfy, common_schemas.dfy | the request schemas |
| `Seed` | seed.dfy | the database seed |
| `FreshInstall` | fresh_install.dfy | the seed run on an empty database, and what the resulting store grants |

### Behaviour worth noting

- **`revokeToken` on a revoked token.** The method revokes every record with the presented
  hash, including one already revoked. Such a record gets a new `revokedAt` stamp.
- **Rotation and concurrency.** Rotation finds the token and then updates it, in two steps. It
  is not guarded against two concurrent uses. The model is sequential, so it says nothing about
  that race.
- **Inactive user at `authenticate`.** `authenticate` refuses an inactive user with a plain 401
  `Unauthorized("Account is inactive")`. The `AccountInactive` error class (a 403) is used only
  by login.
- **`resetPassword` revokes everything.** It revokes all of the user's refresh tokens,
  re-stamping any already revoked. It also marks the reset token used.
- **`lastLoginAt` after login.** The user that login returns carries the `lastLoginAt` from
  before the login, because the record is read before the update.
- **Social sign-in ignores `isActive`.** The social user it creates is verified but has no
  `emailVerifiedAt`.
- **Administrative user creation.** It ignores the `isActive` and `isVerified` inputs. Assigning
  a role twice is not checked by the service, so the second assignment hits the composite key
  and is an `Internal` error.
- **`PATCH /users/me` passes the raw body.** `updateMe` hands `req.body` to the user service's
  `update` (src/controllers/user.controller.ts:30), and `validate` discards the parsed result. The
  service copies `isActive` and `isVerified` from that body (src/services/user.service.ts:69-79),
  so a signed-in user can mark their own account verified or inactive. `Users.Update` models
  the service, so it applies whatever fields it is given.

## Model

| member | source | states |
|---|---|---|
| Errors.CodeIdentifiesKind | src/utils/errors.ts:21-126 | the machine-readable code determines the error class: two errors with equal codes are of the same class |
| Errors.InvalidCredentialsIsUniform | src/utils/errors.ts:93-98 | every bad-credential refusal is the same 401 with the same code and message, whatever the cause |
| Errors.NotFoundMessageInjective | src/utils/errors.ts:57-64 | the not-found message names the resource unambiguously |
| Errors.LockedMessageInjective | src/utils/errors.ts:114-119 | the lockout message determines the minutes it reports |
| Crypto.ParseDurationLanguage | src/utils/crypto.ts:30-50 | a duration is accepted exactly when it is one or more decimal digits followed by one of `s`, `m`, `h`, `d`, `w` |
| Crypto.ParseDurationRoundTrip | src/utils/crypto.ts:30-50 | rendering a count and a unit and parsing it back gives the count times the unit's milliseconds |
| Crypto.ParseDurationLeadingZero | src/utils/crypto.ts:30-50 | a leading zero does not change an accepted duration |
| Crypto.ParseDurationScales | src/utils/crypto.ts:30-50 | an accepted duration is its digit value times the value of one unit |
| Crypto.ParseDurationExamples | src/utils/crypto.ts:30-50 | the configured defaults parse to their lifetimes; signs, decimals, upper-case units, blanks and missing parts are refused |
| Crypto.CalculateExpiration | src/utils/crypto.ts:55-58 | an expiry exists exactly for an accepted duration, never lies before now, and lies after now exactly when the duration is positive |
| Crypto.HexEncode | src/utils/crypto.ts:6-8 | the encoding is lower-case hex, two characters per byte |
| Crypto.HexRoundTrip | src/utils/crypto.ts:6-8 | decoding the hex text of any bytes gives those bytes back |
| Crypto.HexDecodeExact | src/utils/crypto.ts:6-8 | the only text that decodes to given bytes is their lower-case hex |
| Crypto.GenerateSecureToken | src/utils/crypto.ts:6-8 | the token is twice as long as the random input, lower-case hex, and determines the random bytes |
| Crypto.CompareTokens | src/utils/crypto.ts:21-24 | the comparison throws exactly when the byte lengths differ, and succeeds exactly when the token's hash equals the stored hash |
| Config.ConfiguredLifetimes | src/config/index.ts:55-56 | the configured access and refresh durations, and the reset lifetime, parse to the lifetimes the model uses |
| Tokens.AccessExpiresIn | src/services/token.service.ts:38 | `expiresIn` is the access duration in whole seconds |
| Tokens.AccessClaims | src/services/token.service.ts:50-70 | the access claims carry the subject, email, roles and permissions given, the configured issuer, and expire `expiresIn` seconds after issue |
| Tokens.RefreshExpiresAt | src/services/token.service.ts:78 | a refresh token expires one refresh lifetime after it is minted |
| Tokens.GenerateRefreshToken | src/services/token.service.ts:75-91 | a new record stores only the hash of the returned token, unrevoked, for the user and device; it fails exactly when that hash is taken, changing nothing |
| Tokens.GenerateTokenPair | src/services/token.service.ts:24-45 | the pair is the access claims for the user and one newly stored refresh token; it is issued exactly when the user exists and the new token's hash is not yet stored |
| Tokens.VerifyAccessToken | src/services/token.service.ts:96-109 | a verified token yields its claims; an expired one is `TokenExpired`; anything else is `Unauthorized("Invalid token")`; every refusal is a 401 |
| Tokens.Revoked | src/services/token.service.ts:160-166 | a revoked record keeps its user, hash and expiry and is stamped with the revocation time |
| Tokens.RefreshTokens | src/services/token.service.ts:115-182 | an unknown hash is refused unchanged; a revoked token is refused without writing; an expired one is refused; otherwise the old record is revoked and a new pair is issued with the user's current roles and de-duplicated permissions; the rotation succeeds exactly when the token is known, unrevoked and unexpired, its user exists, and the new token's hash is not yet stored |
| Tokens.RotationIsOneTime | src/services/token.service.ts:148-166 | after a successful rotation the same plaintext is refused as revoked, at any later time |
| Tokens.RotationMintsActiveToken | src/services/token.service.ts:159-181 | a successful rotation appends an active record expiring one refresh lifetime later |
| Tokens.RevokeToken | src/services/token.service.ts:187-197 | exactly the records with the presented hash are revoked at now; all others are unchanged |
| Tokens.RevokedTokenCannotRotate | src/services/token.service.ts:187-197 | after revocation, presenting the token is refused as revoked or unknown |
| Tokens.RevokeAllUserTokens | src/services/token.service.ts:202-215 | exactly the user's active records are revoked at now; all others are unchanged |
| Tokens.RevokeAllLeavesNoActiveToken | src/services/token.service.ts:202-215 | afterwards the user has no active refresh token, and repeating the bulk revocation changes nothing |
| Tokens.CleanupExpiredTokens | src/services/token.service.ts:220-231 | exactly the records expired before now are deleted, and the returned count is their number |
| Tokens.CleanupIdempotent | src/services/token.service.ts:220-231 | a second sweep at the same instant deletes nothing |
| Auth.SanitizeUser | src/services/auth.service.ts:315-330 | the client view copies the public fields, keeps the roles, and lists each permission once, in first-occurrence order, without losing any |
| Auth.SanitizeUserStable | src/services/auth.service.ts:315-330 | sanitizing again with the already de-duplicated permissions gives the same view |
| Auth.DefaultRoleIds | src/services/auth.service.ts:36-39 | a new user gets the role named `user` exactly when that role exists, and no other role |
| Auth.Register | src/services/auth.service.ts:20-92 | a registered email is a conflict, leaving the store unchanged; otherwise the user is created active and unverified with the digest, gets the default role and a token pair, and the response carries the loaded roles and permissions; the returned refresh token is the hex of the random bytes, and the store gains exactly the user, the default assignments and one refresh record holding that token's hash for the new user, with nothing else written; on a consistent store registration succeeds exactly when the email is free, the new id is unused and the new token's hash is not yet stored |
| Auth.RegisterGrantsDefaultRole | src/services/auth.service.ts:36-74 | a newly registered user holds exactly the `user` role if it exists, and no role otherwise |
| Auth.DefaultRoleOnly | src/services/auth.service.ts:46-74 | appending a new user's default assignment loads exactly the default role's name for that user |
| Auth.LockoutMinutes | src/services/auth.service.ts:288 | the minutes reported are the lockout window rounded up to whole minutes |
| Auth.CheckAccountLockout | src/services/auth.service.ts:275-291 | an email is locked exactly when the window holds at least the maximum number of failures; the refusal is `AccountLocked(30)`, a 401 |
| Auth.RecordLoginAttempt | src/services/auth.service.ts:296-310 | exactly one attempt is appended, with the email, outcome and reason; the address defaults to `unknown` |
| Auth.RecordedAttemptCounts | src/services/auth.service.ts:276-286 | recording a failure inside the window raises the email's failure count by one; anything else leaves it unchanged |
| Auth.Decide | src/services/auth.service.ts:97-144 | login is locked exactly at the failure threshold; an accepted login names an active user with a non-empty password hash that verifies; a refusal is `InvalidCredentials` or `AccountInactive`; an unlocked email is refused for the first failing check with that check's own recorded reason: no such user ("User not found"), an inactive account ("Account inactive", `AccountInactive`), no password hash ("Account has no password (social login)") or a wrong password ("Invalid password"), and accepted exactly when all pass |
| Auth.InactiveAccountRefused | src/services/auth.service.ts:128-131 | an unlocked login for an existing inactive account is refused with the 403 `AccountInactive` whatever the password, recording exactly one failed attempt with reason "Account inactive" and writing nothing else |
| Auth.DecideAcceptsExactly | src/services/auth.service.ts:104-144 | with unique emails, login accepts exactly the good credentials of an unlocked email; an unknown email, a missing hash and a wrong password are refused identically |
| Auth.Login | src/services/auth.service.ts:97-176 | a locked email is refused with no write; a refusal records one failed attempt carrying the refusal's reason and raises its error; success records a success, sets `lastLoginAt` and issues a token pair with the user's roles and de-duplicated permissions, the refresh token being the hex of the random bytes and the only other write one refresh record holding its hash; a refusal writes no refresh record and no account; good credentials of an unlocked email succeed exactly when the new token's hash is not yet stored |
| Auth.LoginCountsFailures | src/services/auth.service.ts:123-144 | each refused, unlocked login raises the email's failure count by exactly one |
| Auth.TenthFailureLocks | src/services/auth.service.ts:275-291 | after the tenth failure inside the window the next login is refused as locked, even with correct credentials |
| Auth.LoginThenRotate | src/services/token.service.ts:115-182 | the refresh token a login returns rotates from any device until one refresh lifetime after the login, and the new pair is for the same user |
| Auth.Logout | src/services/auth.service.ts:181-184 | the records with the presented token's hash are revoked; the others are unchanged |
| Auth.LogoutAll | src/services/auth.service.ts:189-192 | every refresh record of the user ends up revoked; other users' records and already revoked ones are unchanged |
| Auth.ResetExpiresAt | src/services/auth.service.ts:211 | a reset token expires one hour after it is requested |
| Auth.ForgotPassword | src/services/auth.service.ts:197-225 | an unknown email succeeds silently with no write; a known one stores exactly one unused reset token by its hash, expiring in an hour, and succeeds exactly when that hash is not yet stored |
| Auth.RevokeEvery | src/services/auth.service.ts:263-266 | every refresh record of the user is revoked at now; the rest are unchanged |
| Auth.ResetPassword | src/services/auth.service.ts:230-270 | an unknown token is `NotFound`; a used one is refused; an expired one is refused; otherwise the password digest is replaced, the token marked used and every session of the user revoked; the reset succeeds exactly when the token is known, unused and unexpired and its user exists |
| Auth.ForgotThenReset | src/services/auth.service.ts:197-270 | on a consistent store, a reset requested for a known email and completed with the issued token within the hour succeeds: that user's digest is replaced, no other user changes, and the stored token is marked used |
| Auth.ResetTokenIsSingleUse | src/services/auth.service.ts:241-261 | a reset token that succeeded once is refused as already used when presented again |
| Auth.ResetEndsAllSessions | src/services/auth.service.ts:263-266 | after a reset, every refresh token the user held is refused at rotation |
| OAuth.SocialUser | src/services/oauth.service.ts:124-140 | the user the third branch creates is active, verified and has no password hash, with the profile's email and names |
| OAuth.Issue | src/services/oauth.service.ts:165-184 | the response's user is the sanitized user; the token carries its roles and de-duplicated permissions; the refresh token is the hex of the random bytes and the only write is one refresh record holding its hash for that user; tokens are issued exactly when the user exists and the new token's hash is not yet stored |
| OAuth.CreateSocialUser | src/services/oauth.service.ts:118-160 | the new user, its default role and the linked account are written together or not at all; on a consistent store they are written exactly when the id, the email and the provider identity are all unused |
| OAuth.HandleOAuthCallback | src/services/oauth.service.ts:12-185 | a linked identity signs its user in with no user, assignment or account written; a known email gets exactly one account linked; otherwise a new verified user with the default role and one account is created; on success exactly one refresh record is added, holding the hash of the returned token (the hex of the random bytes) for the signed-in user, and a failure adds none; permissions and reset tokens are never touched; on a consistent store the callback succeeds exactly when the new token's hash is not yet stored and, in the third branch, the new id is unused |
| OAuth.CallbackLinks | src/services/oauth.service.ts:33-162 | after a successful callback the identity is linked to the user it signed in |
| OAuth.SecondCallbackSignsIn | src/services/oauth.service.ts:63-66 | signing in again with the same identity names the same user and writes no user, assignment or account |
| OAuth.InactiveUserStillSignsIn | src/services/oauth.service.ts:63-66 | a deactivated user whose identity is linked still receives tokens |
| Rbac.RoleNamesExactly | src/services/auth.service.ts:158 | the role names loaded with a user are exactly the names of the roles assigned to them |
| Rbac.RolePermissionNamesExactly | src/services/rbac.service.ts:22-26 | the permission names loaded with a role are exactly those the role is granted |
| Rbac.PermissionNamesExactly | src/services/auth.service.ts:159-161 | the permission names loaded with a user are exactly those granted to some role assigned to them |
| Rbac.HasPermission | src/services/rbac.service.ts:14-46 | the check holds exactly when the user exists and either holds a role named `admin` or is loaded with the permission asked for or the `*:*` wildcard |
| Rbac.HasPermissionExactly | src/services/rbac.service.ts:14-46 | on a consistent store, a user has a permission exactly when they exist and either hold `admin` or some assigned role grants it or the `*:*` wildcard |
| Rbac.HasAnyPermission | src/services/rbac.service.ts:51-58 | true exactly when some listed permission is held; false for an empty list |
| Rbac.HasRole | src/services/rbac.service.ts:63-71 | true exactly when some assignment of the user points at a role of that name |
| Rbac.HasRoleExactly | src/services/rbac.service.ts:63-71 | the role check agrees with the role names loaded with the user |
| Rbac.PermissionsOfRoleMember | src/services/rbac.service.ts:85-105 | a permission is listed with a role exactly when a grant of the role points at it |
| Rbac.GetRoleById | src/services/rbac.service.ts:85-105 | an unknown id is `NotFound("Role")`; otherwise the role with exactly its granted permissions |
| Rbac.CreateRole | src/services/rbac.service.ts:110-134 | a taken name is a conflict with no write; otherwise a non-system role is added with exactly the given permissions granted; on a consistent store creation succeeds exactly when the name is free, the id unused, and the given permission ids distinct and existing |
| Rbac.CreatedRoleIsDeletable | src/services/rbac.service.ts:110-183 | a role just created is found by its id, is not a system role, and can be deleted |
| Rbac.Updated | src/services/rbac.service.ts:153-156 | an update keeps the id and system flag and replaces only the fields given |
| Rbac.UpdateRoleAsWritten | src/services/rbac.service.ts:139-160 | the service as written: unknown id is `NotFound`; a system role is protected only from a non-empty different name; any other update succeeds exactly when the resulting name is no other role's, writing only the updated record, and otherwise fails on the unique name |
| Rbac.UpdateKeepingNameSucceedsAsWritten | src/services/rbac.service.ts:139-160 | as written too, on a consistent store an update that keeps the role's name always succeeds, system role or not |
| Rbac.SystemRoleRenamedToEmpty | src/services/rbac.service.ts:149 | as written, the system role `admin` can be renamed to the empty string |
| Rbac.UpdateRole | src/services/rbac.service.ts:139-160 | unknown id is `NotFound`; renaming a system role to any different name is a conflict with no write; otherwise only the given fields change, and the update succeeds exactly when no other role already has the resulting name |
| Rbac.UpdateKeepingNameSucceeds | src/services/rbac.service.ts:139-160 | on a consistent store an update that keeps the role's name always succeeds, system role or not |
| Rbac.SystemRoleNamesStable | src/services/rbac.service.ts:149-151 | no update changes a system role's name or flag, or the number of roles |
| Rbac.DeleteRole | src/services/rbac.service.ts:165-183 | an unknown id is `NotFound`; a system role is a conflict; any other role is always deleted, with its assignments and grants, and every other role stays |
| Rbac.SystemRolesSurviveDelete | src/services/rbac.service.ts:174-176 | system roles survive every deletion |
| Rbac.AssignPermissionToRole | src/services/rbac.service.ts:197-214 | a pair already granted is a conflict; otherwise exactly that grant is appended; the grant succeeds exactly when the role and the permission exist and the pair is new |
| Rbac.RemovePermissionFromRole | src/services/rbac.service.ts:219-227 | succeeds exactly when the grant exists, removing it and only it; a missing grant is a database error |
| Rbac.AssignThenRemove | src/services/rbac.service.ts:197-227 | granting a permission and removing it again restores the store |
| RbacGuards.Join | src/middleware/rbac.middleware.ts:26 | joining no names gives the empty text; otherwise the text starts with the first name followed by the separator when more follow, and its length is the names' total length plus one separator between each pair |
| RbacGuards.RequirePermission | src/middleware/rbac.middleware.ts:11-34 | no principal is refused as unauthenticated; an `admin` is always allowed; otherwise allowed exactly when some named permission is literally held, and refused with a 403 naming them all |
| RbacGuards.RequireRole | src/middleware/rbac.middleware.ts:42-60 | no principal is refused; otherwise allowed exactly when some named role is held, with no administrator bypass |
| RbacGuards.RequireSelfOrAdmin | src/middleware/rbac.middleware.ts:74-94 | allowed exactly for an `admin` or the user named by the route parameter; otherwise `Forbidden("Access denied")` |
| RbacGuards.RequirePermissionMonotone | src/middleware/rbac.middleware.ts:11-34 | holding more permissions never turns an allowed request into a refusal |
| GuardWiring.DecideOnRecord | src/middleware/rbac.middleware.ts:14-19 | on the record `authenticate` attaches, every guard fails: with a 500 because `roles` is undefined, except `requireRole()` with no roles, which is refused |
| GuardWiring.GuardsRefuseAuthenticatedRequests | src/middleware/auth.middleware.ts:43-51 | as mounted, no request that `authenticate` accepts passes any guard |
| GuardWiring.Guarded | src/middleware/rbac.middleware.ts:11-94 | as intended, an authenticated request passes a permission guard exactly when the user holds `admin` or a named permission, a role guard exactly when it holds a named role, and the self-or-admin guard exactly when it holds `admin` or is the named user; unauthenticated requests keep `authenticate`'s error |
| GuardWiring.GuardedAgreesWithService | src/middleware/rbac.middleware.ts:11-34 | as intended, passing a permission guard means the service's `hasPermission` allows some listed permission |
| GuardWiring.AdminListingUsers | src/routes/user.routes.ts:45 | an active administrator with a valid token asking for `GET /users` gets a 500 as written and passes as intended |
| RbacGuards.WildcardOnlyInService | src/middleware/rbac.middleware.ts:19-27 | a non-admin whose only grant is `*:*` passes the service check for any permission but is refused by the guard, which compares names literally |
| Users.GetById | src/services/user.service.ts:6-21 | an unknown id is `NotFound("User")`; otherwise the user with exactly its assigned roles |
| Users.InsertByAge | src/services/user.service.ts:36 | inserting keeps the multiset of users plus the new one, and keeps the newest-first order |
| Users.NewestFirst | src/services/user.service.ts:36 | the listing is a permutation of the users, newest first |
| Users.NewestFirstPairwise | src/services/user.service.ts:36 | adjacent order implies that every earlier user is at least as new as every later one |
| Users.Window | src/services/user.service.ts:24-28 | `skip`/`take` yields the elements from `skip` on, at most `take` of them |
| Users.GetAll | src/services/user.service.ts:23-42 | the page holds at most `limit` users, in newest-first order, each with its roles, and the total counts every user |
| Users.DivModParts | src/services/user.service.ts:24 | a position splits into the offset of its page and its place on the page |
| Users.EveryUserOnItsPage | src/services/user.service.ts:23-42 | every user is listed, at position `i mod limit` of page `i div limit + 1` |
| Users.PagesCoverEveryUser | src/services/user.service.ts:23-42 | for any limit, every user appears on some page |
| Users.NewestFirstUnique | src/services/user.service.ts:36 | when no two records share a creation time, two newest-first orderings of the same records are equal |
| Users.ListingIndependentOfTies | src/services/user.service.ts:36 | when no two users share a creation time, any newest-first listing a database may return is the model's listing |
| Users.Create | src/services/user.service.ts:44-67 | a registered email is a conflict; otherwise the user is written with exactly the given roles; on a consistent store creation succeeds exactly when the email is free, the id unused, and the given role ids distinct and existing |
| Users.CreateThenGet | src/services/user.service.ts:44-67 | a created user can be looked up, with exactly the roles given |
| Users.Update | src/services/user.service.ts:69-80 | an unknown id is a database error; otherwise only the names and the two flags given change |
| Users.UpdateIsIdempotent | src/services/user.service.ts:69-80 | an update never touches credentials, roles or tokens, and applying it twice equals applying it once |
| Users.Delete | src/services/user.service.ts:82-86 | an unknown id is a database error; otherwise the user goes with every row that references it |
| Users.DeleteRemovesEverything | src/services/user.service.ts:82-86 | after a deletion the user is gone and holds no roles, tokens, reset tokens or linked accounts |
| Users.AssignRole | src/services/user.service.ts:88-95 | succeeds exactly when the user and role exist and the pair is new, appending that pair only |
| Users.RemoveRole | src/services/user.service.ts:97-103 | succeeds exactly when the pair exists, removing it only |
| Users.AssignThenRemoveRole | src/services/user.service.ts:88-103 | assigning a role and removing it again restores the store |
| AuthGate.ExtractBearerToken | src/middleware/auth.middleware.ts:20-26 | a token is extracted exactly when the header starts with `Bearer `, and the header is that prefix followed by the token |
| AuthGate.BearerRoundTrip | src/middleware/auth.middleware.ts:20-26 | prefixing a token and extracting it gives the token back |
| AuthGate.LowerCaseSchemeRefused | src/middleware/auth.middleware.ts:22 | the prefix is matched case-sensitively: `bearer` is refused |
| AuthGate.Authenticate | src/middleware/auth.middleware.ts:32-58 | a missing or empty token is refused; success requires a verified token naming an existing, active user; an inactive user is a 401, not a 403 |
| AuthGate.OptionalAuth | src/middleware/auth.middleware.ts:64-80 | never fails; the request is authenticated exactly when `authenticate` would succeed, and anonymous otherwise |
| AuthSchemas.PasswordIssues | src/schemas/auth.schema.ts:8-15 | each failed check of the password policy is reported, in declaration order; the password is accepted exactly when there is none |
| AuthSchemas.Failed | src/schemas/auth.schema.ts:8-15 | an issue is reported exactly when its check failed, in the order the checks are declared |
| AuthSchemas.NormaliseEmail | src/schemas/auth.schema.ts:20 | a normalised address holds no upper-case letter |
| AuthSchemas.NormaliseEmailIdempotent | src/schemas/auth.schema.ts:20 | normalising a normalised address changes nothing |
| AuthSchemas.EmailSchema | src/schemas/auth.schema.ts:20 | the address is accepted exactly when the raw input passes the syntax check, and is then normalised |
| AuthSchemas.ParseProvider | src/schemas/auth.schema.ts:85-92 | only `google` and `github` are accepted |
| AuthSchemas.LoginAcceptsMoreThanRegister | src/schemas/auth.schema.ts:25-42 | any registration body passes login; a one-letter password passes login but not registration |
| AuthSchemas.PasswordPolicyExamples | src/schemas/auth.schema.ts:8-15 | a password of all four classes and length nine passes; one without a special character fails |
| UserSchemas.AdminPasswordIsWeaker | src/schemas/user.schema.ts:19-22 | every policy-conforming password passes the administrator's rule, but not conversely |
| UserSchemas.NameFieldBounds | src/schemas/user.schema.ts:16-29 | a given name is accepted exactly when it is 1 to 100 long; an absent one is accepted |
| CommonSchemas.NumberOrDefault | src/schemas/common.schema.ts:17-26 | an absent or empty value gives the default; anything else is `parseInt` of it |
| CommonSchemas.PageParam | src/schemas/common.schema.ts:17-21 | an accepted page is at least 1, and 1 when absent; non-numeric text is refused; text that `parseInt` reads is accepted exactly when its value is at least 1 |
| CommonSchemas.LimitParam | src/schemas/common.schema.ts:22-26 | an accepted limit lies in 1..100, and 10 when absent; text that `parseInt` reads is accepted exactly when its value lies in 1..100 |
| CommonSchemas.SortOrderParam | src/schemas/common.schema.ts:28 | the sort order is `asc` by default, otherwise exactly `asc` or `desc` |
| CommonSchemas.PaginationQuery | src/schemas/common.schema.ts:15-30 | the query is accepted exactly when every field is, and then respects every bound |
| CommonSchemas.PageParamRoundTrip | src/schemas/common.schema.ts:17-21 | every rendered positive page number is read back |
| CommonSchemas.ZeroPageRefused | src/schemas/common.schema.ts:17-21 | zero is refused, while an empty value is defaulted |
| CommonSchemas.LimitParamBound | src/schemas/common.schema.ts:22-26 | a limit is accepted exactly when it lies in 1..100 |
| CommonSchemas.NonNumericRefused | src/schemas/common.schema.ts:17-26 | non-numeric text is refused as a page and as a limit |
| Seed.UpsertPermissions | prisma/seed.ts:13-38 | the permission upserts leave every listed permission present, change a store that has them all not at all, and only add rows |
| Seed.Grants | prisma/seed.ts:54-61 | the grant upserts give the role every listed permission that exists, change a store that already grants them all not at all, touch only the grants, and add no grant outside the role's spec when every listed name is in it |
| Seed.SeedRole | prisma/seed.ts:44-110 | a role already seeded is left as it is; otherwise the role exists afterwards with its permissions granted; any role it adds is a system role, and it adds no grant outside the role's spec |
| Seed.SeedRoles | prisma/seed.ts:44-110 | the three roles are seeded and the returned id is the `admin` role |
| Seed.SeedAdmin | prisma/seed.ts:114-135 | the administrator exists afterwards and holds the `admin` role |
| Seed.RunSeed | prisma/seed.ts:9-144 | the seed only adds rows, keeps a consistent store consistent, adds only system roles, adds exactly the administrator when its email is free, and adds only grants the role specs list; when it succeeds is stated by `Seed.SeedSucceeds` |
| Seed.UpsertPermissionsSucceeds | prisma/seed.ts:32-38 | the permission upserts succeed when every id they may insert is unused and the ids are pairwise different |
| Seed.GrantSucceeds | prisma/seed.ts:55-62 | a grant upsert never fails: it is skipped when the permission is missing and otherwise links two existing rows |
| Seed.SeedRoleSucceeds | prisma/seed.ts:44-62 | a role upsert with its grants succeeds unless the name is free and the id taken, and a new role is appended as a system role |
| Seed.SeedAdminSucceeds | prisma/seed.ts:116-135 | the administrator upsert and its `admin` link succeed unless the e-mail is free and the id taken |
| Seed.SeedSucceeds | prisma/seed.ts:9-144 | the seed succeeds on a store with no roles when the permission ids are fresh and pairwise different, the role ids pairwise different, and the administrator's id free unless its e-mail is on record |
| Seed.SeedEstablishes | prisma/seed.ts:9-144 | a successful seed leaves every permission, the three roles with their grants, and the administrator with the `admin` role in place |
| Seed.SeedIdempotent | prisma/seed.ts:9-144 | seeding a seeded store changes nothing |
| Seed.SeedTwice | prisma/seed.ts:9-144 | seeding twice equals seeding once |
| FreshInstall.SeedFromEmpty | prisma/seed.ts:9-144 | seeding the empty database succeeds whenever the generated permission ids, and the three role ids, are pairwise different, and leaves a consistent store whose only user is the administrator, active and verified, whose roles are all system roles, whose grants are exactly those the seed lists, and with everything the seed writes in place |
| FreshInstall.SeedFromEmptyByName | prisma/seed.ts:9-144 | with every name used as its own id, seeding the empty database succeeds |
| FreshInstall.SystemRolesFixed | src/services/rbac.service.ts:139-183 | on a freshly seeded database no role can be deleted, and a rename succeeds only to the role's current name |
| FreshInstall.AdminHasEveryPermission | src/services/rbac.service.ts:34-38 | on a freshly seeded database the administrator passes the permission check for any permission name |
| FreshInstall.SystemRoleGrantsExactly | prisma/seed.ts:54-110 | on a freshly seeded database each of the three system roles is granted exactly the permissions the seed lists for it |
| FreshInstall.RegisteredUserPermissions | src/services/auth.service.ts:36-74 | a user who registers on a freshly seeded database passes the permission check exactly for `profile:read` and `profile:update`: not `user:read`, not the wildcard |
| Text.LowerTrimCommute | src/schemas/auth.schema.ts:20 | lower-casing and trimming commute |
| Text.Utf16LengthAstral | src/schemas/auth.schema.ts:8-15 | a character above the Basic Multilingual Plane is one element of a Dafny string but counts as two UTF-16 code units, as JavaScript's `length` does |
| Text.Utf16LengthBmp | src/schemas/auth.schema.ts:8-15 | for text within the Basic Multilingual Plane the JavaScript length is the number of characters |
| Decimal.ParseIntRoundTrip | src/schemas/common.schema.ts:19 | `parseInt` reads back every rendered natural number |

## Left out

- **HTTP plumbing.** Routes, controllers, the Express application, the error handler's
  response shape, logging, Swagger and the rate limiters are not modelled. The `validate`
  middleware is modelled only through the schema predicates. It passes the parsed body on
  without the schema's transforms, so the services see the raw email.
- **Cryptography and the JWT library.** SHA-256, HMAC signing and Argon2id are parameters. The
  model states the service's logic around them, not their security.
- **`jwt.verify`'s own checks.** Issuer and signature checking are folded into the `JwtOutcome`
  input.
- **The provider code exchange.** In the source it returns placeholder profiles keyed by the
  clock, so the profile is an input. `getAllRoles` and `getAllPermissions` are plain reads and
  are not modelled.
- **Concurrency.** Each operation is one atomic step. Interleavings of two requests, such as two
  simultaneous rotations of one token, are not modelled. The source's multi-statement
  transactions are all-or-nothing steps.
- **The database schema.** It is not part of this model. Its unique keys, cascades and defaults
  are assumptions stated in `Store.Valid`: unique email, role name, permission name and token
  hash; unique composite keys; cascading deletes of a user's rows and of a role's grants and
  assignments.
- **Text.** Lower-casing is ASCII only; the source uses JavaScript's full Unicode tables. A
  Dafny string is a sequence of Unicode scalar values, while a JavaScript string is a sequence of
  UTF-16 code units. The schemas' length bounds use `Text.Utf16Length`, which counts two units for
  a character above U+FFFF, as JavaScript's `length` does. A JavaScript string holding a lone
  surrogate has no Dafny counterpart.
- **Time.** Dates are milliseconds. `updatedAt` columns are not tracked, so the client view of
  a user has no `updatedAt`.
- **Configuration.** Environment overrides of the configuration are not modelled; the defaults
  are constants.
- **The seed's administrator password.** It is the `digest` input, so the model does not know it
  is `Admin@123456`.
- Users.GetAll: requires `page >= 1` and `limit >= 1`. The controller passes `parseInt(...) || 1`
  and `|| 10` without the pagination schema, so a negative page can reach the service, and the
  model does not cover that case.
- Users.Offset: requires `page >= 1` and `limit >= 1`, for the same reason.
- OAuth.HandleOAuthCallback: the three branches are stated per branch. A linked identity whose
  user row is missing is a database error, which cascading deletes rule out.
- CommonSchemas.NumberOrDefault: `parseInt` returns a JavaScript number, a double. Digits worth
  more than about 1.8e308 read as `Infinity`, and integers above 2^53 are rounded to the nearest
  double. The model's result is the exact, unbounded integer.
- CommonSchemas.PageParam: for the same reason, a page worth more than about 1.8e308 (such as `1`
  followed by 309 zeros) is `Infinity` in the source and is refused by `.int()`. A page above
  2^53, such as `9007199254740993`, is accepted rounded. The model accepts the exact value. `CommonSchemas.LimitParam` is unaffected, because its
  bound of 100 refuses both.
- CommonSchemas.PaginationQuery: inherits the `page` gap of `CommonSchemas.PageParam`.
- CommonSchemas.PageParamRoundTrip: holds for the exact integers of the model. In the source it
  holds only up to 2^53; above that the rendered number reads back rounded.
- Decimal.ParseIntRoundTrip: states the round trip for unbounded integers. `parseInt` returns a
  double, so it reads back exactly only up to 2^53, and text past about 1.8e308 gives `Infinity`.
- RbacGuards.RequirePermission: decides over a principal that carries role and permission names.
  The routes mount it after `authenticate`, which attaches a record with no such fields, so in
  the source it never decides; `GuardWiring` models that and is listed under "## Findings".
- RbacGuards.RequireRole: the same as `RbacGuards.RequirePermission`.
- RbacGuards.RequireSelfOrAdmin: the same as `RbacGuards.RequirePermission`.
- Seed.SeedSucceeds: the ids the database generates are inputs, so that they are fresh and
  pairwise different is a premise rather than a property of the database's id generator.
- Tokens.RefreshTokens: the contract does not state the concurrent double-use the source allows.
- Users.NewestFirst: records with equal `createdAt` are listed in store order. The query's
  `orderBy: { createdAt: 'desc' }` leaves ties to the database, which may order them differently
  on each query.
- Users.EveryUserOnItsPage: the page positions hold for the model's tie-break. For the database
  they hold when no two users share a creation time: then Users.ListingIndependentOfTies shows every
  newest-first listing is the model's. With ties, two page queries may list a tied user twice
  or not at all.

## Findings

| source | as written | input that shows it | evidently intended | confidence | as-written member | corrected member |
|---|---|---|---|---|---|---|
| src/services/rbac.service.ts:149 | a system role is protected only from a truthy new name, so `name && name !== existing.name` lets the empty string through | `PATCH /roles/<admin id>` with body `{ "name": "" }` renames the system role `admin` to `""`; holders of that role then lose the administrator bypass of the permission check and of the guards | a system role may not be renamed to any different name | not executed | Rbac.UpdateRoleAsWritten, Rbac.SystemRoleRenamedToEmpty | Rbac.UpdateRole, Rbac.SystemRoleNamesStable |
| src/middleware/rbac.middleware.ts:19 | `authenticate` attaches the `getById` record (src/middleware/auth.middleware.ts:43-51), which has `userRoles` but no `roles` or `permissions`; the guards call `req.user.roles.includes`, which throws, and the error handler answers a 500 | `GET /users` with a valid access token of an active `admin` user | the guards read the user's role and permission names, so an administrator passes and other users are checked against their grants | not executed | GuardWiring.GuardedAsWritten, GuardWiring.GuardsRefuseAuthenticatedRequests, GuardWiring.AdminListingUsers | GuardWiring.Guarded, GuardWiring.GuardedAgreesWithService |

=== FILE: auth.dfy ===
/** The auth orchestrator: registration, login with brute-force lockout,
    logout, password-reset request and completion. The password digest
    (Argon2id, RFC 9106) is an input: `digest` is what hashing the submitted
    password yields and `verifyPw(hash, password)` is the library's
    verification, which never throws. */
module Auth {
  import opened Common
  import opened Errors
  import opened Store
  import Crypto
  import Config
  import Tokens

  /** The user as returned to clients: no password hash, role names and
      de-duplicated permission names. */
  datatype SafeUser = SafeUser(
    id: Id,
    email: string,
    firstName: Option<string>,
    lastName: Option<string>,
    isActive: bool,
    isVerified: bool,
    emailVerifiedAt: Option<Time>,
    lastLoginAt: Option<Time>,
    createdAt: Time,
    roles: seq<string>,
    permissions: seq<string>)

  datatype AuthResponse = AuthResponse(user: SafeUser, tokens: Tokens.TokenPair)

  /** `sanitizeUser`: copies the public fields, keeps the roles as given and
      de-duplicates the permissions keeping first occurrences in order. */
  function SanitizeUser(u: User, roles: seq<string>, perms: seq<string>): (r: SafeUser)
    ensures r.id == u.id && r.email == u.email
    ensures r.firstName == u.firstName && r.lastName == u.lastName
    ensures r.isActive == u.isActive && r.isVerified == u.isVerified
    ensures r.emailVerifiedAt == u.emailVerifiedAt && r.lastLoginAt == u.lastLoginAt
    ensures r.createdAt == u.createdAt
    ensures r.roles == roles
    ensures Distinct(r.permissions)
    ensures forall i :: 0 <= i < |r.permissions| ==> r.permissions[i] in perms
    ensures forall i :: 0 <= i < |perms| ==> perms[i] in r.permissions
    ensures forall i, j :: 0 <= i < j < |r.permissions| ==>
      FirstIndex(perms, r.permissions[i]) < FirstIndex(perms, r.permissions[j])
  {
    DedupOrder(perms);
    SafeUser(u.id, u.email, u.firstName, u.lastName, u.isActive, u.isVerified,
      u.emailVerifiedAt, u.lastLoginAt, u.createdAt, roles, Dedup(perms))
  }

  /** Sanitizing is stable: feeding a sanitized user's permissions back in
      changes nothing. */
  lemma SanitizeUserStable(u: User, roles: seq<string>, perms: seq<string>)
    ensures SanitizeUser(u, roles, SanitizeUser(u, roles, perms).permissions) == SanitizeUser(u, roles, perms)
  {
    DedupIdempotent(perms);
  }

  // ---------------------------------------------------------------------
  // Registration

  /** The assignment a new user gets: the role named `user`, if it exists. */
  function DefaultRoleIds(s: Store): (ids: seq<Id>)
    ensures |ids| <= 1
    ensures |ids| == 1 <==> RoleIndexByName(s.roles, DefaultRole).Some?
    ensures |ids| == 1 ==> ids[0] == s.roles[RoleIndexByName(s.roles, DefaultRole).value].id
  {
    match RoleIndexByName(s.roles, DefaultRole)
    case None => []
    case Some(k) => [s.roles[k].id]
  }

  /** The record `register` creates: active, unverified, with a password. */
  function NewUser(id: Id, email: string, digest: string, firstName: Option<string>, lastName: Option<string>, now: Time): User {
    User(id, email, Some(digest), firstName, lastName, true, false, None, None, now)
  }

  /** `register`: refuses a registered email; otherwise creates the user
      together with the default-role assignment (one statement, so all or
      nothing), then issues tokens whose permissions are NOT de-duplicated. */
  function Register(
    s: Store, sha: string -> string, random: seq<Crypto.Byte>, newId: Id, digest: string,
    email: string, firstName: Option<string>, lastName: Option<string>,
    device: Tokens.DeviceInfo, now: Time
  ): (st: Step<AuthResponse>)
    requires |random| == Config.RefreshTokenBytes
    ensures EmailTaken(s, email) ==> st == Step(s, Err(Conflict("Email already registered")))
    ensures st.out.Ok? ==>
      var u := NewUser(newId, email, digest, firstName, lastName, now);
      && !EmailTaken(s, email)
      && st.store.users == s.users + [u]
      && st.store.userRoles == s.userRoles + Assignments(newId, DefaultRoleIds(s))
      && st.store.attempts == s.attempts && st.store.resetTokens == s.resetTokens
      && st.store.roles == s.roles && st.store.rolePermissions == s.rolePermissions
      && st.store.permissions == s.permissions
      && st.out.value.tokens.access.sub == newId
      && st.out.value.tokens.access.roles == RoleNamesOf(st.store, newId)
      && st.out.value.tokens.access.permissions == PermissionNamesOf(st.store, newId)
      && st.out.value.user == SanitizeUser(u, RoleNamesOf(st.store, newId), PermissionNamesOf(st.store, newId))
    // The refresh half of the pair is the hex of `random`, stored only as its hash; nothing else is written.
    ensures st.out.Ok? ==>
      && Crypto.HexDecode(st.out.value.tokens.refreshToken) == Some(random)
      && st.store == s.(
           users := s.users + [NewUser(newId, email, digest, firstName, lastName, now)],
           userRoles := s.userRoles + Assignments(newId, DefaultRoleIds(s)),
           refreshTokens := s.refreshTokens + [Tokens.NewRefreshRecord(newId, sha(st.out.value.tokens.refreshToken), device, now)])
    ensures st.out.Err? && !EmailTaken(s, email) ==> st.out.error.Internal?
    ensures Valid(s) ==> (st.out.Ok? <==>
      && !EmailTaken(s, email)
      && newId !in UserIds(s.users)
      && sha(Crypto.GenerateSecureToken(random)) !in Keys(s.refreshTokens, RefreshHashOf))
    ensures Valid(s) ==> Valid(st.store)
  {
    if EmailTaken(s, email) then Step(s, Err(Conflict("Email already registered")))
    else
      var u := NewUser(newId, email, digest, firstName, lastName, now);
      match InsertUser(s, u)
      case Err(e) => Step(s, Err(e))
      case Ok(s1) =>
        assert Valid(s) ==> Assignable(s1, newId, DefaultRoleIds(s)) by {
          if Valid(s) {
            KeysMember(s1.users, |s.users|, UserIdOf);
            DefaultRoleAssignable(s, s1, newId);
          }
        }
        match InsertUserRoles(s1, newId, DefaultRoleIds(s))
        case Err(e) => Step(s, Err(e))
        case Ok(s2) =>
          KeysMember(s2.users, |s.users|, UserIdOf);
          var roles := RoleNamesOf(s2, newId);
          var perms := PermissionNamesOf(s2, newId);
          var t := Tokens.GenerateTokenPair(s2, sha, random, newId, email, roles, perms, device, now);
          ResolutionFrame(s2, t.store, newId);
          match t.out
          case Err(e) => Step(t.store, Err(e))
          case Ok(pair) => Step(t.store, Ok(AuthResponse(SanitizeUser(u, roles, perms), pair)))
  }

  /** A user id not on record can be given the default role. */
  lemma DefaultRoleAssignable(s: Store, s1: Store, newId: Id)
    requires Valid(s) && newId !in UserIds(s.users)
    requires s1.roles == s.roles && s1.userRoles == s.userRoles && newId in UserIds(s1.users)
    ensures Assignable(s1, newId, DefaultRoleIds(s))
  {
    var ids := DefaultRoleIds(s);
    FreshUserAssignable(s, s1, newId, ids);
    if |ids| == 1 {
      KeysMember(s.roles, RoleIndexByName(s.roles, DefaultRole).value, RoleIdOf);
    }
  }

  /** A freshly registered user holds exactly the `user` role when it
      exists, and no role otherwise. */
  lemma RegisterGrantsDefaultRole(
    s: Store, sha: string -> string, random: seq<Crypto.Byte>, newId: Id, digest: string,
    email: string, firstName: Option<string>, lastName: Option<string>,
    device: Tokens.DeviceInfo, now: Time)
    requires Valid(s) && |random| == Config.RefreshTokenBytes
    requires Register(s, sha, random, newId, digest, email, firstName, lastName, device, now).out.Ok?
    ensures
      var st := Register(s, sha, random, newId, digest, email, firstName, lastName, device, now);
      RoleNamesOf(st.store, newId) ==
        (if RoleIndexByName(s.roles, DefaultRole).Some? then [DefaultRole] else [])
  {
    var st := Register(s, sha, random, newId, digest, email, firstName, lastName, device, now);
    assert newId !in UserIds(s.users);
    DefaultRoleOnly(s, st.store, newId);
  }

  /** Appending the default-role assignments of a user who had none gives
      that user exactly the `user` role, when it exists. */
  lemma DefaultRoleOnly(s: Store, t: Store, newId: Id)
    requires Valid(s) && newId !in UserIds(s.users)
    requires t.roles == s.roles
    requires t.userRoles == s.userRoles + Assignments(newId, DefaultRoleIds(s))
    ensures RoleNamesOf(t, newId) == (if RoleIndexByName(s.roles, DefaultRole).Some? then [DefaultRole] else [])
  {
    var ids := DefaultRoleIds(s);
    var added := Assignments(newId, ids);
    RolesViaAppend(s.userRoles, added, s.roles, newId);
    UnknownUserHasNoRoles(s, newId);
    if |ids| == 1 {
      var k := RoleIndexByName(s.roles, DefaultRole).value;
      FindRoleUnique(s.roles, k);
      assert added == [UserRole(newId, s.roles[k].id)];
      assert RolesVia(added[1..], s.roles, newId) == [];
      assert RolesVia(added, s.roles, newId) == [s.roles[k]];
    } else {
      assert added == [];
    }
  }

  // ---------------------------------------------------------------------
  // Lockout

  /** Failed attempts for `email` inside the lockout window ending at `now`. */
  function IsRecentFailure(email: string, now: Time): LoginAttempt -> bool {
    (a: LoginAttempt) => a.email == email && !a.isSuccessful && a.attemptedAt >= now - Config.LockoutDurationMs
  }

  function FailedAttempts(s: Store, email: string, now: Time): nat {
    Count(s.attempts, IsRecentFailure(email, now))
  }

  /** The minutes reported by a lockout: the window rounded up to whole
      minutes. */
  function LockoutMinutes(): (m: nat)
    ensures (m - 1) * 60000 < Config.LockoutDurationMs <= m * 60000
  {
    (Config.LockoutDurationMs + 59999) / 60000
  }

  /** `checkAccountLockout`: locked once the window holds the maximum number
      of failures. */
  function CheckAccountLockout(s: Store, email: string, now: Time): (r: Result<()>)
    ensures r.Err? <==> FailedAttempts(s, email, now) >= Config.MaxLoginAttempts
    ensures r.Err? ==> r.error == AccountLocked(30) && r.error.StatusCode() == 401
  {
    if FailedAttempts(s, email, now) >= Config.MaxLoginAttempts then Err(AccountLocked(LockoutMinutes()))
    else Ok(())
  }

  /** `recordLoginAttempt`: one entry appended, the address defaulting to
      `unknown`. */
  function RecordLoginAttempt(
    s: Store, email: string, ip: Option<string>, ok: bool, reason: Option<string>, now: Time
  ): (r: Store)
    ensures |r.attempts| == |s.attempts| + 1
    ensures r == s.(attempts := s.attempts + [r.attempts[|s.attempts|]])
    ensures var a := r.attempts[|s.attempts|];
      && a.email == email && a.isSuccessful == ok && a.failureReason == reason && a.attemptedAt == now
      && a.ipAddress == (if ip.Some? then ip.value else "unknown")
    ensures Valid(s) ==> Valid(r)
  {
    AppendAttempt(s, LoginAttempt(email, if ip.Some? then ip.value else "unknown", ok, reason, now))
  }

  /** Appending a failure inside the window raises the count by one; a
      success leaves every count unchanged. */
  lemma RecordedAttemptCounts(
    s: Store, email: string, ip: Option<string>, ok: bool, reason: Option<string>, now: Time, at: Time)
    ensures FailedAttempts(RecordLoginAttempt(s, email, ip, ok, reason, now), email, at) ==
      FailedAttempts(s, email, at) + (if !ok && now >= at - Config.LockoutDurationMs then 1 else 0)
  {
    var r := RecordLoginAttempt(s, email, ip, ok, reason, now);
    var a := r.attempts[|s.attempts|];
    assert r.attempts == s.attempts + [a];
    FilterAppend(s.attempts, [a], IsRecentFailure(email, at));
    assert Filter([a], IsRecentFailure(email, at)) ==
      (if IsRecentFailure(email, at)(a) then [a] else []) + Filter([a][1..], IsRecentFailure(email, at));
  }

  // ---------------------------------------------------------------------
  // Login

  /** `!user.passwordHash`: a missing or empty hash means no password. */
  predicate HasPassword(u: User) {
    u.passwordHash.Some? && u.passwordHash.value != ""
  }

  /** What login decides before it writes anything. */
  datatype Verdict = Locked | Refused(reason: string, error: AppError) | Accepted(index: nat)

  function Decide(s: Store, verifyPw: (string, string) -> bool, email: string, password: string, now: Time): (v: Verdict)
    ensures v.Locked? <==> FailedAttempts(s, email, now) >= Config.MaxLoginAttempts
    ensures v.Accepted? ==> v.index < |s.users|
    ensures v.Accepted? ==>
      var u := s.users[v.index];
      u.email == email && u.isActive && HasPassword(u) && verifyPw(u.passwordHash.value, password)
    ensures v.Refused? ==> v.error == InvalidCredentials || v.error == AccountInactive
    ensures v.Refused? && v.error == AccountInactive ==>
      UserIndexByEmail(s.users, email).Some? && !s.users[UserIndexByEmail(s.users, email).value].isActive
    // An unlocked email is refused for the first failing check, each cause
    // with its own recorded reason: no user, inactive, no password, wrong password.
    ensures FailedAttempts(s, email, now) < Config.MaxLoginAttempts && UserIndexByEmail(s.users, email).None? ==>
      v == Refused("User not found", InvalidCredentials)
    ensures FailedAttempts(s, email, now) < Config.MaxLoginAttempts && UserIndexByEmail(s.users, email).Some? ==>
      var u := s.users[UserIndexByEmail(s.users, email).value];
      && (!u.isActive ==> v == Refused("Account inactive", AccountInactive))
      && (u.isActive && !HasPassword(u) ==> v == Refused("Account has no password (social login)", InvalidCredentials))
      && (u.isActive && HasPassword(u) && !verifyPw(u.passwordHash.value, password) ==>
            v == Refused("Invalid password", InvalidCredentials))
      && (u.isActive && HasPassword(u) && verifyPw(u.passwordHash.value, password) ==>
            v == Accepted(UserIndexByEmail(s.users, email).value))
  {
    if CheckAccountLockout(s, email, now).Err? then Locked
    else match UserIndexByEmail(s.users, email)
      case None => Refused("User not found", InvalidCredentials)
      case Some(k) =>
        var u := s.users[k];
        if !u.isActive then Refused("Account inactive", AccountInactive)
        else if !HasPassword(u) then Refused("Account has no password (social login)", InvalidCredentials)
        else if !verifyPw(u.passwordHash.value, password) then Refused("Invalid password", InvalidCredentials)
        else Accepted(k)
  }

  /** The credentials are good: a user with this email is active, has a
      password, and the password verifies against it. */
  predicate CredentialsGood(s: Store, verifyPw: (string, string) -> bool, email: string, password: string) {
    exists k :: 0 <= k < |s.users| && s.users[k].email == email && s.users[k].isActive
      && HasPassword(s.users[k]) && verifyPw(s.users[k].passwordHash.value, password)
  }

  /** With unique emails, login accepts exactly the good credentials of an
      unlocked email, and refuses every unknown email, missing password or
      wrong password with the same error. */
  lemma DecideAcceptsExactly(s: Store, verifyPw: (string, string) -> bool, email: string, password: string, now: Time)
    requires UsersValid(s.users)
    ensures Decide(s, verifyPw, email, password, now).Accepted? <==>
      FailedAttempts(s, email, now) < Config.MaxLoginAttempts && CredentialsGood(s, verifyPw, email, password)
    ensures var v := Decide(s, verifyPw, email, password, now);
      v.Refused? && v.error != AccountInactive ==> v.error == InvalidCredentials
  {
    if CredentialsGood(s, verifyPw, email, password) {
      var k :| 0 <= k < |s.users| && s.users[k].email == email && s.users[k].isActive
        && HasPassword(s.users[k]) && verifyPw(s.users[k].passwordHash.value, password);
      var j := UserIndexByEmail(s.users, email).value;
      assert EmailOf(s.users[j]) == EmailOf(s.users[k]);
    }
  }

  /** The attempt a refused login leaves behind. */
  function FailedAttempt(email: string, device: Tokens.DeviceInfo, reason: string, now: Time): LoginAttempt {
    LoginAttempt(email, if device.ipAddress.Some? then device.ipAddress.value else "unknown", false, Some(reason), now)
  }

  /** `login`: a locked email is refused before anything is read or written;
      every other refusal appends one failed attempt and issues nothing; an
      accepted login appends one successful attempt, stamps `lastLoginAt`
      and issues tokens with de-duplicated permissions. The returned user
      is the record as read before the stamp. */
  function Login(
    s: Store, sha: string -> string, random: seq<Crypto.Byte>, verifyPw: (string, string) -> bool,
    email: string, password: string, device: Tokens.DeviceInfo, now: Time
  ): (st: Step<AuthResponse>)
    requires |random| == Config.RefreshTokenBytes
    ensures var v := Decide(s, verifyPw, email, password, now);
      && (v.Locked? ==> st == Step(s, Err(AccountLocked(LockoutMinutes()))))
      && (v.Refused? ==> st == Step(AppendAttempt(s, FailedAttempt(email, device, v.reason, now)), Err(v.error)))
      && (v.Accepted? ==>
            var u := s.users[v.index];
            && st.store.attempts == s.attempts + [LoginAttempt(email, FailedAttempt(email, device, "", now).ipAddress, true, None, now)]
            && st.store.users == s.users[v.index := u.(lastLoginAt := Some(now))]
            && st.store.userRoles == s.userRoles && st.store.roles == s.roles
            && st.store.rolePermissions == s.rolePermissions && st.store.permissions == s.permissions
            && st.store.resetTokens == s.resetTokens
            && (st.out.Err? ==> st.out.error.Internal?)
            && (st.out.Ok? ==>
                  && st.out.value.user == SanitizeUser(u, RoleNamesOf(s, u.id), PermissionNamesOf(s, u.id))
                  && st.out.value.tokens.access.sub == u.id
                  && st.out.value.tokens.access.roles == RoleNamesOf(s, u.id)
                  && st.out.value.tokens.access.permissions == Dedup(PermissionNamesOf(s, u.id))
                  && Crypto.HexDecode(st.out.value.tokens.refreshToken) == Some(random)
                  && st.store == s.(
                       attempts := st.store.attempts, users := st.store.users,
                       refreshTokens := s.refreshTokens + [Tokens.NewRefreshRecord(u.id, sha(st.out.value.tokens.refreshToken), device, now)]))
            && (st.out.Err? ==> st.store.refreshTokens == s.refreshTokens && st.store.accounts == s.accounts)
            && (st.out.Ok? <==> sha(Crypto.GenerateSecureToken(random)) !in Keys(s.refreshTokens, RefreshHashOf)))
    ensures st.out.Ok? ==> Decide(s, verifyPw, email, password, now).Accepted?
    ensures Valid(s) ==> Valid(st.store)
  {
    match Decide(s, verifyPw, email, password, now)
    case Locked => Step(s, Err(AccountLocked(LockoutMinutes())))
    case Refused(reason, e) => Step(AppendAttempt(s, FailedAttempt(email, device, reason, now)), Err(e))
    case Accepted(k) =>
      var u := s.users[k];
      var roles := RoleNamesOf(s, u.id);
      var perms := PermissionNamesOf(s, u.id);
      var s1 := RecordLoginAttempt(s, email, device.ipAddress, true, None, now);
      var s2 := SetUser(s1, k, u.(lastLoginAt := Some(now)));
      KeysMember(s2.users, k, UserIdOf);
      var t := Tokens.GenerateTokenPair(s2, sha, random, u.id, u.email, roles, Dedup(perms), device, now);
      match t.out
      case Err(e) => Step(t.store, Err(e))
      case Ok(pair) => Step(t.store, Ok(AuthResponse(SanitizeUser(u, roles, perms), pair)))
  }

  /** Each refused login at `now` raises the email's failure count by
      exactly one and issues no refresh token; a successful login leaves the
      count unchanged, so successes never lift a lockout. */
  lemma LoginCountsFailures(
    s: Store, sha: string -> string, random: seq<Crypto.Byte>, verifyPw: (string, string) -> bool,
    email: string, password: string, device: Tokens.DeviceInfo, now: Time, at: Time)
    requires |random| == Config.RefreshTokenBytes
    ensures var v := Decide(s, verifyPw, email, password, now);
      var st := Login(s, sha, random, verifyPw, email, password, device, now);
      && (v.Refused? ==>
            && FailedAttempts(st.store, email, now) == FailedAttempts(s, email, now) + 1
            && st.store.refreshTokens == s.refreshTokens)
      && (!v.Refused? ==> FailedAttempts(st.store, email, at) == FailedAttempts(s, email, at))
  {
    var v := Decide(s, verifyPw, email, password, now);
    if v.Refused? {
      RecordedAttemptCounts(s, email, device.ipAddress, false, Some(v.reason), now, now);
    } else if v.Accepted? {
      RecordedAttemptCounts(s, email, device.ipAddress, true, None, now, at);
      var st := Login(s, sha, random, verifyPw, email, password, device, now);
      var s1 := RecordLoginAttempt(s, email, device.ipAddress, true, None, now);
      assert st.store.attempts == s1.attempts;
    }
  }

  /** An unlocked login for an inactive account is refused with
      `AccountInactive`, whatever the password, and records exactly one
      failed attempt with the reason "Account inactive"; nothing else is
      written. */
  lemma InactiveAccountRefused(
    s: Store, sha: string -> string, random: seq<Crypto.Byte>, verifyPw: (string, string) -> bool,
    email: string, password: string, device: Tokens.DeviceInfo, now: Time)
    requires |random| == Config.RefreshTokenBytes
    requires FailedAttempts(s, email, now) < Config.MaxLoginAttempts
    requires UserIndexByEmail(s.users, email).Some? && !s.users[UserIndexByEmail(s.users, email).value].isActive
    ensures var st := Login(s, sha, random, verifyPw, email, password, device, now);
      && st.out == Err(AccountInactive)
      && st.out.error.StatusCode() == 403
      && st.store == s.(attempts := s.attempts + [LoginAttempt(email, FailedAttempt(email, device, "", now).ipAddress,
           false, Some("Account inactive"), now)])
  {
  }

  /** The tenth failure inside the window locks the email: the next login
      at the same instant is refused as locked whatever the password. */
  lemma TenthFailureLocks(
    s: Store, sha: string -> string, random: seq<Crypto.Byte>, verifyPw: (string, string) -> bool,
    email: string, password: string, device: Tokens.DeviceInfo, now: Time,
    random': seq<Crypto.Byte>, password': string, device': Tokens.DeviceInfo)
    requires |random| == Config.RefreshTokenBytes && |random'| == Config.RefreshTokenBytes
    requires FailedAttempts(s, email, now) == Config.MaxLoginAttempts - 1
    requires Decide(s, verifyPw, email, password, now).Refused?
    ensures var s1 := Login(s, sha, random, verifyPw, email, password, device, now).store;
      Login(s1, sha, random', verifyPw, email, password', device', now)
        == Step(s1, Err(AccountLocked(30)))
  {
    LoginCountsFailures(s, sha, random, verifyPw, email, password, device, now, now);
  }

  /** The refresh token a login returns rotates, from any device, until
      one refresh lifetime after the login, and the new pair is for the
      same user. */
  lemma LoginThenRotate(
    s: Store, sha: string -> string, random: seq<Crypto.Byte>, verifyPw: (string, string) -> bool,
    email: string, password: string, device: Tokens.DeviceInfo, now: Time,
    random': seq<Crypto.Byte>, device': Tokens.DeviceInfo, now': Time)
    requires |random| == Config.RefreshTokenBytes && |random'| == Config.RefreshTokenBytes
    requires Login(s, sha, random, verifyPw, email, password, device, now).out.Ok?
    requires now' <= now + Config.RefreshLifetimeMs
    requires sha(Crypto.GenerateSecureToken(random')) !in
      Keys(Login(s, sha, random, verifyPw, email, password, device, now).store.refreshTokens, RefreshHashOf)
    ensures var l := Login(s, sha, random, verifyPw, email, password, device, now);
      var r := Tokens.RefreshTokens(l.store, sha, random', l.out.value.tokens.refreshToken, device', now');
      r.out.Ok? && r.out.value.access.sub == l.out.value.tokens.access.sub
  {
    var l := Login(s, sha, random, verifyPw, email, password, device, now);
    var tok := l.out.value.tokens.refreshToken;
    var k := Decide(s, verifyPw, email, password, now).index;
    var u := s.users[k];
    Crypto.HexDecodeExact(tok, random);
    RefreshIndexFreshAppend(s.refreshTokens, Tokens.NewRefreshRecord(u.id, sha(tok), device, now));
    assert l.store.users[k].id == u.id;
    KeysMember(l.store.users, k, UserIdOf);
  }

  // ---------------------------------------------------------------------
  // Logout

  /** `logout`: revokes the presented refresh token, if on record. */
  function Logout(s: Store, sha: string -> string, refreshToken: string, now: Time): (r: Store)
    ensures r == s.(refreshTokens := r.refreshTokens) && |r.refreshTokens| == |s.refreshTokens|
    ensures forall i :: 0 <= i < |r.refreshTokens| && r.refreshTokens[i].tokenHash == sha(refreshToken) ==>
      r.refreshTokens[i].isRevoked && r.refreshTokens[i].revokedAt == Some(now)
    ensures forall i :: 0 <= i < |r.refreshTokens| && s.refreshTokens[i].tokenHash != sha(refreshToken) ==>
      r.refreshTokens[i] == s.refreshTokens[i]
    ensures Valid(s) ==> Valid(r)
  {
    Tokens.RevokeToken(s, sha, refreshToken, now)
  }

  /** `logoutAll`: revokes every active refresh token of the user. */
  function LogoutAll(s: Store, uid: Id, now: Time): (r: Store)
    ensures r == s.(refreshTokens := r.refreshTokens) && |r.refreshTokens| == |s.refreshTokens|
    ensures forall i :: 0 <= i < |r.refreshTokens| && s.refreshTokens[i].userId == uid ==> r.refreshTokens[i].isRevoked
    ensures forall i :: 0 <= i < |r.refreshTokens| && (s.refreshTokens[i].userId != uid || s.refreshTokens[i].isRevoked) ==>
      r.refreshTokens[i] == s.refreshTokens[i]
    ensures Valid(s) ==> Valid(r)
  {
    Tokens.RevokeAllUserTokens(s, uid, now)
  }

  // ---------------------------------------------------------------------
  // Password reset

  /** Expiry of a reset token requested at `now`. */
  function ResetExpiresAt(now: Time): (t: Time)
    ensures Crypto.CalculateExpiration(now, Config.ResetExpiration) == Some(t)
    ensures t == now + Config.ResetLifetimeMs
  {
    Config.ConfiguredLifetimes();
    Crypto.CalculateExpiration(now, Config.ResetExpiration).value
  }

  /** `forgotPassword`: an unknown email succeeds silently with no change; a
      known one gets one unused reset token of which only the hash is
      stored. */
  function ForgotPassword(s: Store, sha: string -> string, random: seq<Crypto.Byte>, email: string, now: Time): (st: Step<()>)
    requires |random| == Config.ResetTokenBytes
    ensures UserIndexByEmail(s.users, email).None? ==> st == Step(s, Ok(()))
    ensures UserIndexByEmail(s.users, email).Some? && st.out.Ok? ==>
      var u := s.users[UserIndexByEmail(s.users, email).value];
      var token := Crypto.GenerateSecureToken(random);
      && |token| == 2 * Config.ResetTokenBytes
      && st.store == s.(resetTokens := s.resetTokens + [ResetToken(u.id, sha(token), ResetExpiresAt(now), false)])
    ensures st.out.Err? ==> st.store == s && st.out.error.Internal?
    ensures UserIndexByEmail(s.users, email).Some? ==>
      (st.out.Ok? <==> sha(Crypto.GenerateSecureToken(random)) !in Keys(s.resetTokens, ResetHashOf))
    ensures Valid(s) ==> Valid(st.store)
  {
    match UserIndexByEmail(s.users, email)
    case None => Step(s, Ok(()))
    case Some(k) =>
      var token := Crypto.GenerateSecureToken(random);
      KeysMember(s.users, k, UserIdOf);
      match InsertResetToken(s, ResetToken(s.users[k].id, sha(token), ResetExpiresAt(now), false))
      case Err(e) => Step(s, Err(e))
      case Ok(s1) => Step(s1, Ok(()))
  }

  /** The refresh tokens after a reset for `uid`: all of the user's records
      revoked at `now`, including already revoked ones. */
  function RevokeEvery(ts: seq<RefreshToken>, uid: Id, now: Time): (r: seq<RefreshToken>)
    ensures |r| == |ts|
    ensures forall i :: 0 <= i < |ts| ==>
      r[i] == (if ts[i].userId == uid then Tokens.Revoked(ts[i], now) else ts[i])
  {
    seq(|ts|, i requires 0 <= i < |ts| => if ts[i].userId == uid then Tokens.Revoked(ts[i], now) else ts[i])
  }

  /** `resetPassword`: refuses an unknown, then a used, then an expired
      token, changing nothing; otherwise one transaction sets the new
      password, marks the token used and revokes all the user's refresh
      tokens. */
  function ResetPassword(s: Store, sha: string -> string, token: string, digest: string, now: Time): (st: Step<()>)
    ensures ResetIndex(s.resetTokens, sha(token)).None? ==> st == Step(s, Err(NotFound("Reset token")))
    ensures ResetIndex(s.resetTokens, sha(token)).Some? ==>
      var k := ResetIndex(s.resetTokens, sha(token)).value;
      var rt := s.resetTokens[k];
      && (rt.isUsed ==> st == Step(s, Err(Conflict("Reset token already used"))))
      && (!rt.isUsed && rt.expiresAt < now ==> st == Step(s, Err(Conflict("Reset token expired"))))
      && (st.out.Ok? ==>
            && !rt.isUsed && now <= rt.expiresAt
            && UserIndex(s.users, rt.userId).Some?
            && var u := UserIndex(s.users, rt.userId).value;
            st.store == s.(users := s.users[u := s.users[u].(passwordHash := Some(digest))],
                           resetTokens := s.resetTokens[k := rt.(isUsed := true)],
                           refreshTokens := RevokeEvery(s.refreshTokens, rt.userId, now)))
    ensures st.out.Err? ==> st.store == s
    ensures st.out.Ok? <==>
      && ResetIndex(s.resetTokens, sha(token)).Some?
      && var rt := s.resetTokens[ResetIndex(s.resetTokens, sha(token)).value];
      && !rt.isUsed && now <= rt.expiresAt && UserExists(s, rt.userId)
    ensures Valid(s) ==> Valid(st.store)
  {
    match ResetIndex(s.resetTokens, sha(token))
    case None => Step(s, Err(NotFound("Reset token")))
    case Some(k) =>
      var rt := s.resetTokens[k];
      if rt.isUsed then Step(s, Err(Conflict("Reset token already used")))
      else if rt.expiresAt < now then Step(s, Err(Conflict("Reset token expired")))
      else match UserIndex(s.users, rt.userId)
        case None => Step(s, Err(RecordMissing))
        case Some(u) =>
          var s1 := SetUser(s, u, s.users[u].(passwordHash := Some(digest)));
          var s2 := s1.(resetTokens := s.resetTokens[k := rt.(isUsed := true)],
                        refreshTokens := RevokeEvery(s.refreshTokens, rt.userId, now));
          assert Valid(s) ==> Valid(s2) by {
            if Valid(s) {
              ResetTokensRewritten(s.resetTokens, s2.resetTokens, s.users);
              RefreshTokensRewritten(s.refreshTokens, s2.refreshTokens, s.users);
            }
          }
          Step(s2, Ok(()))
  }

  /** A reset requested for a known email can be completed: presenting the
      mailed token before the hour is up sets the new password of that user
      alone and marks the new token used. */
  lemma ForgotThenReset(
    s: Store, sha: string -> string, random: seq<Crypto.Byte>, email: string, now: Time,
    digest: string, now': Time)
    requires Valid(s) && |random| == Config.ResetTokenBytes
    requires UserIndexByEmail(s.users, email).Some?
    requires sha(Crypto.GenerateSecureToken(random)) !in Keys(s.resetTokens, ResetHashOf)
    requires now' <= now + Config.ResetLifetimeMs
    ensures var f := ForgotPassword(s, sha, random, email, now);
      var r := ResetPassword(f.store, sha, Crypto.GenerateSecureToken(random), digest, now');
      var k := UserIndexByEmail(s.users, email).value;
      && f.out.Ok? && r.out.Ok?
      && |r.store.users| == |s.users|
      && r.store.users[k].passwordHash == Some(digest)
      && (forall i :: 0 <= i < |s.users| && i != k ==> r.store.users[i] == s.users[i])
      && |r.store.resetTokens| == |s.resetTokens| + 1
      && r.store.resetTokens[|s.resetTokens|].isUsed
  {
    var token := Crypto.GenerateSecureToken(random);
    var f := ForgotPassword(s, sha, random, email, now);
    var k := UserIndexByEmail(s.users, email).value;
    var n := |s.resetTokens|;
    var ts := f.store.resetTokens;
    assert ts[n].tokenHash == sha(token);
    KeysMember(ts, n, ResetHashOf);
    var j := ResetIndex(ts, sha(token)).value;
    assert ResetHashOf(ts[j]) == ResetHashOf(ts[n]);
    var uid := s.users[k].id;
    KeysMember(s.users, k, UserIdOf);
    var u := UserIndex(s.users, uid).value;
    assert UserIdOf(s.users[u]) == UserIdOf(s.users[k]);
  }

  /** A reset token works once: presenting it again is refused as used. */
  lemma ResetTokenIsSingleUse(s: Store, sha: string -> string, token: string, digest: string, now: Time, digest': string, now': Time)
    requires ResetPassword(s, sha, token, digest, now).out.Ok?
    ensures var s1 := ResetPassword(s, sha, token, digest, now).store;
      ResetPassword(s1, sha, token, digest', now') == Step(s1, Err(Conflict("Reset token already used")))
  {
    var k := ResetIndex(s.resetTokens, sha(token)).value;
    var s1 := ResetPassword(s, sha, token, digest, now).store;
    assert forall j :: 0 <= j < k ==> s1.resetTokens[j] == s.resetTokens[j];
    assert s1.resetTokens[k] == s.resetTokens[k].(isUsed := true);
    assert ResetIndex(s1.resetTokens, sha(token)) == Some(k);
  }

  /** After a reset, every refresh token of the user is refused as revoked,
      and no other user's password or tokens changed. */
  lemma ResetEndsAllSessions(
    s: Store, sha: string -> string, token: string, digest: string, now: Time,
    random: seq<Crypto.Byte>, presented: string, device: Tokens.DeviceInfo, now': Time)
    requires |random| == Config.RefreshTokenBytes
    requires ResetPassword(s, sha, token, digest, now).out.Ok?
    ensures var s1 := ResetPassword(s, sha, token, digest, now).store;
      var uid := s.resetTokens[ResetIndex(s.resetTokens, sha(token)).value].userId;
      && (RefreshIndex(s1.refreshTokens, sha(presented)).Some? &&
          s1.refreshTokens[RefreshIndex(s1.refreshTokens, sha(presented)).value].userId == uid ==>
            Tokens.RefreshTokens(s1, sha, random, presented, device, now') == Step(s1, Err(TokenRevoked)))
      && (forall i :: 0 <= i < |s.users| && s.users[i].id != uid ==> s1.users[i] == s.users[i])
      && (forall i :: 0 <= i < |s.refreshTokens| && s.refreshTokens[i].userId != uid ==>
            s1.refreshTokens[i] == s.refreshTokens[i])
  {
  }
}

=== FILE: auth_gate.dfy ===
/** The authentication gate in front of protected routes: the bearer token
    is taken from the `Authorization` header, verified, and the user it
    names is loaded fresh from the store. The JWT library's verdict on a
    token is the function parameter `jwt`. */
module AuthGate {
  import opened Common
  import opened Errors
  import Store
  import Tokens
  import Users

  const BearerPrefix: string := "Bearer "

  /** What the gate attaches to a request: the user and the token's claims. */
  datatype RequestAuth = RequestAuth(user: Option<Users.UserWithRoles>, payload: Option<Tokens.Claims>)

  const Anonymous: RequestAuth := RequestAuth(None, None)

  /** `isAuthenticated`: both a user and a payload are attached. */
  predicate IsAuthenticated(req: RequestAuth) {
    req.user.Some? && req.payload.Some?
  }

  /** `extractBearerToken`: the text after an exact, case-sensitive
      `Bearer ` prefix; nothing when the header is absent or has another
      prefix. */
  function ExtractBearerToken(header: Option<string>): (r: Option<string>)
    ensures r.Some? <==> header.Some? && |header.value| >= |BearerPrefix| && header.value[..|BearerPrefix|] == BearerPrefix
    ensures r.Some? ==> header.value == BearerPrefix + r.value
  {
    match header
    case None => None
    case Some(h) =>
      if |h| >= |BearerPrefix| && h[..|BearerPrefix|] == BearerPrefix then
        assert h == BearerPrefix + h[|BearerPrefix|..];
        Some(h[|BearerPrefix|..])
      else None
  }

  /** Prefixing a token and extracting it gives the token back. */
  lemma BearerRoundTrip(t: string)
    ensures ExtractBearerToken(Some(BearerPrefix + t)) == Some(t)
  {
    assert (BearerPrefix + t)[..|BearerPrefix|] == BearerPrefix;
    assert (BearerPrefix + t)[|BearerPrefix|..] == t;
  }

  /** The prefix is matched case-sensitively: a lower-case scheme is refused. */
  lemma LowerCaseSchemeRefused(t: string)
    ensures ExtractBearerToken(Some("bearer " + t)).None?
  {
    assert ("bearer " + t)[..|BearerPrefix|] == "bearer ";
  }

  const NoToken: AppError := Unauthorized("No token provided")

  /** `authenticate`: a missing or empty token, a token the library
      refuses, a subject that is no longer a user, or an inactive user each
      stop the request; otherwise user and claims are attached. */
  function Authenticate(s: Store.Store, header: Option<string>, jwt: string -> Tokens.JwtOutcome): (r: Result<RequestAuth>)
    ensures (ExtractBearerToken(header).None? || ExtractBearerToken(header) == Some("")) ==> r == Err(NoToken)
    ensures r.Ok? <==>
      && ExtractBearerToken(header).Some? && ExtractBearerToken(header).value != ""
      && jwt(ExtractBearerToken(header).value).Verified?
      && Users.GetById(s, jwt(ExtractBearerToken(header).value).claims.sub).Ok?
      && Users.GetById(s, jwt(ExtractBearerToken(header).value).claims.sub).value.user.isActive
    ensures r.Ok? ==> IsAuthenticated(r.value)
    ensures r.Ok? ==> r.value.payload == Some(jwt(ExtractBearerToken(header).value).claims)
    ensures r.Ok? ==> r.value.user.value.user.id == r.value.payload.value.sub
    ensures r.Err? ==> r.error.StatusCode() == 401 || r.error == NotFound("User")
    ensures r == Err(Unauthorized("Account is inactive")) <==>
      && ExtractBearerToken(header).Some? && ExtractBearerToken(header).value != ""
      && jwt(ExtractBearerToken(header).value).Verified?
      && Users.GetById(s, jwt(ExtractBearerToken(header).value).claims.sub).Ok?
      && !Users.GetById(s, jwt(ExtractBearerToken(header).value).claims.sub).value.user.isActive
  {
    var token := ExtractBearerToken(header);
    if token.None? || token.value == "" then Err(NoToken)
    else
      match Tokens.VerifyAccessToken(jwt(token.value))
      case Err(e) => Err(e)
      case Ok(claims) =>
        match Users.GetById(s, claims.sub)
        case Err(e) => Err(e)
        case Ok(u) =>
          if !u.user.isActive then Err(Unauthorized("Account is inactive"))
          else Ok(RequestAuth(Some(u), Some(claims)))
  }

  /** `optionalAuth`: never fails; attaches user and claims only when the
      token verifies and names an active user. */
  function OptionalAuth(s: Store.Store, header: Option<string>, jwt: string -> Tokens.JwtOutcome): (r: RequestAuth)
    ensures IsAuthenticated(r) || r == Anonymous
    ensures r == (if Authenticate(s, header, jwt).Ok? then Authenticate(s, header, jwt).value else Anonymous)
  {
    var token := ExtractBearerToken(header);
    if token.None? || token.value == "" then Anonymous
    else
      match jwt(token.value)
      case Verified(claims) =>
        (match Users.GetById(s, claims.sub)
         case Err(_) => Anonymous
         case Ok(u) => if u.user.isActive then RequestAuth(Some(u), Some(claims)) else Anonymous)
      case _ => Anonymous
  }
}

=== FILE: auth_schemas.dfy ===
/** The request schemas of the authentication routes, as accept/reject
    predicates. Lengths are JavaScript lengths, counted in UTF-16 code
    units by `Text.Utf16Length`, not in Dafny characters. The
    e-mail syntax check of the validation library is the predicate
    parameter `isEmail`. */
module AuthSchemas {
  import opened Text
  import opened Common

  const PasswordMin: nat := 8
  const PasswordMax: nat := 128
  const NameMax: nat := 100

  predicate HasUpper(p: string) { exists i :: 0 <= i < |p| && IsUpper(p[i]) }
  predicate HasLower(p: string) { exists i :: 0 <= i < |p| && IsLower(p[i]) }
  predicate HasDigit(p: string) { exists i :: 0 <= i < |p| && IsDigit(p[i]) }
  /** Some character outside `[A-Za-z0-9]`. */
  predicate HasSpecial(p: string) { exists i :: 0 <= i < |p| && !IsAlnum(p[i]) }

  predicate LengthWithin(s: string, lo: nat, hi: nat) {
    lo <= Utf16Length(s) <= hi
  }

  /** The password policy of registration, reset and password change. */
  predicate PasswordPolicy(p: string) {
    && LengthWithin(p, PasswordMin, PasswordMax)
    && HasUpper(p) && HasLower(p) && HasDigit(p) && HasSpecial(p)
  }

  /** The checks of the password schema, in declaration order, each with
      the message it reports. */
  datatype PasswordIssue = TooShort | TooLong | NoUpper | NoLower | NoDigit | NoSpecial {
    function Message(): string {
      match this
      case TooShort => "Password must be at least 8 characters"
      case TooLong => "Password must be at most 128 characters"
      case NoUpper => "Password must contain at least one uppercase letter"
      case NoLower => "Password must contain at least one lowercase letter"
      case NoDigit => "Password must contain at least one number"
      case NoSpecial => "Password must contain at least one special character"
    }

    /** The position of the check in the schema. */
    function Rank(): nat {
      match this
      case TooShort => 0
      case TooLong => 1
      case NoUpper => 2
      case NoLower => 3
      case NoDigit => 4
      case NoSpecial => 5
    }
  }

  /** Each issue at most once, in the order the checks are declared: every
      issue ranks strictly after the one before it. */
  predicate InDeclarationOrder(m: seq<PasswordIssue>) {
    forall i :: 0 < i < |m| ==> m[i - 1].Rank() < m[i].Rank()
  }

  /** `passwordSchema`: every failed check contributes its issue, in the
      order the checks are declared; the password is accepted exactly when
      there is none. */
  method PasswordIssues(p: string) returns (issues: seq<PasswordIssue>)
    ensures |issues| == 0 <==> PasswordPolicy(p)
    ensures TooShort in issues <==> Utf16Length(p) < PasswordMin
    ensures TooLong in issues <==> Utf16Length(p) > PasswordMax
    ensures NoUpper in issues <==> !HasUpper(p)
    ensures NoLower in issues <==> !HasLower(p)
    ensures NoDigit in issues <==> !HasDigit(p)
    ensures NoSpecial in issues <==> !HasSpecial(p)
    ensures InDeclarationOrder(issues)
  {
    var upper, lower, digit, special := false, false, false, false;
    var i := 0;
    while i < |p|
      invariant 0 <= i <= |p|
      invariant upper <==> exists j :: 0 <= j < i && IsUpper(p[j])
      invariant lower <==> exists j :: 0 <= j < i && IsLower(p[j])
      invariant digit <==> exists j :: 0 <= j < i && IsDigit(p[j])
      invariant special <==> exists j :: 0 <= j < i && !IsAlnum(p[j])
    {
      upper := upper || IsUpper(p[i]);
      lower := lower || IsLower(p[i]);
      digit := digit || IsDigit(p[i]);
      special := special || !IsAlnum(p[i]);
      i := i + 1;
    }
    var n := Utf16Length(p);
    issues := Failed(n < PasswordMin, n > PasswordMax, !upper, !lower, !digit, !special);
  }

  /** The checks, in the order the schema declares them. */
  const Checks: seq<PasswordIssue> := [TooShort, TooLong, NoUpper, NoLower, NoDigit, NoSpecial]

  /** Whether check `c` failed, given the outcome of each check. */
  predicate CheckFailed(c: PasswordIssue, short: bool, long: bool, noUpper: bool, noLower: bool, noDigit: bool, noSpecial: bool) {
    match c
    case TooShort => short
    case TooLong => long
    case NoUpper => noUpper
    case NoLower => noLower
    case NoDigit => noDigit
    case NoSpecial => noSpecial
  }

  /** `Checks` lists every issue. */
  lemma EveryIssueChecked(c: PasswordIssue)
    ensures c in Checks
  {
    match c
    case TooShort => assert Checks[0] == c;
    case TooLong => assert Checks[1] == c;
    case NoUpper => assert Checks[2] == c;
    case NoLower => assert Checks[3] == c;
    case NoDigit => assert Checks[4] == c;
    case NoSpecial => assert Checks[5] == c;
  }

  /** Selecting from `Checks` keeps exactly the selected issues. */
  lemma FilterEveryIssue(p: PasswordIssue -> bool)
    ensures forall c :: c in Filter(Checks, p) <==> p(c)
  {
    forall c ensures c in Filter(Checks, p) <==> p(c) {
      EveryIssueChecked(c);
    }
  }

  /** Keeping some of the issues keeps their order, and never brings an
      earlier issue to the front. */
  lemma {:induction false} FilterInOrder(xs: seq<PasswordIssue>, p: PasswordIssue -> bool)
    requires InDeclarationOrder(xs)
    ensures InDeclarationOrder(Filter(xs, p))
    ensures |Filter(xs, p)| > 0 ==> Filter(xs, p)[0].Rank() >= xs[0].Rank()
  {
    if |xs| > 0 {
      var tail := xs[1..];
      assert InDeclarationOrder(tail) by {
        forall i | 0 < i < |tail| ensures tail[i - 1].Rank() < tail[i].Rank() {
          assert tail[i - 1] == xs[i] && tail[i] == xs[i + 1];
        }
      }
      FilterInOrder(tail, p);
      var rest := Filter(tail, p);
      assert |rest| > 0 ==> xs[0].Rank() < rest[0].Rank() by {
        if |rest| > 0 {
          assert tail[0] == xs[1];
        }
      }
      if p(xs[0]) {
        var r := [xs[0]] + rest;
        forall i | 0 < i < |r| ensures r[i - 1].Rank() < r[i].Rank() {
          if i > 1 {
            assert r[i - 1] == rest[i - 2] && r[i] == rest[i - 1];
          }
        }
        assert Filter(xs, p) == r;
      } else {
        assert Filter(xs, p) == rest;
      }
    }
  }

  /** The failed checks: each exactly when its flag is set, in declaration
      order. */
  function Failed(short: bool, long: bool, noUpper: bool, noLower: bool, noDigit: bool, noSpecial: bool): (m: seq<PasswordIssue>)
    ensures |m| == 0 <==> !short && !long && !noUpper && !noLower && !noDigit && !noSpecial
    ensures TooShort in m <==> short
    ensures TooLong in m <==> long
    ensures NoUpper in m <==> noUpper
    ensures NoLower in m <==> noLower
    ensures NoDigit in m <==> noDigit
    ensures NoSpecial in m <==> noSpecial
    ensures InDeclarationOrder(m)
  {
    var p := (c: PasswordIssue) => CheckFailed(c, short, long, noUpper, noLower, noDigit, noSpecial);
    FilterInOrder(Checks, p);
    FilterEveryIssue(p);
    Filter(Checks, p)
  }

  /** `emailSchema`'s transform: lower-case, then trim. */
  function NormaliseEmail(e: string): (r: string)
    ensures forall i :: 0 <= i < |r| ==> !IsUpper(r[i])
  {
    Trim(Lower(e))
  }

  /** Normalising a normalised address changes nothing. */
  lemma NormaliseEmailIdempotent(e: string)
    ensures NormaliseEmail(NormaliseEmail(e)) == NormaliseEmail(e)
  {
    var l := Lower(e);
    LowerTrimCommute(l);
    LowerIdempotent(e);
    TrimIdempotent(l);
  }

  /** `emailSchema`: the syntax check runs on the raw input, then the
      normalisation applies. */
  function EmailSchema(isEmail: string -> bool, e: string): (r: Option<string>)
    ensures r.Some? <==> isEmail(e)
    ensures r.Some? ==> r.value == NormaliseEmail(e)
  {
    if isEmail(e) then Some(NormaliseEmail(e)) else None
  }

  /** An optional first or last name: absent, or 1 to 100 long. */
  predicate NameField(n: Option<string>) {
    n.None? || LengthWithin(n.value, 1, NameMax)
  }

  predicate NonEmpty(s: string) { Utf16Length(s) >= 1 }

  predicate RegisterBody(isEmail: string -> bool, email: string, password: string, firstName: Option<string>, lastName: Option<string>) {
    isEmail(email) && PasswordPolicy(password) && NameField(firstName) && NameField(lastName)
  }

  /** The login password is only required to be present. */
  predicate LoginBody(isEmail: string -> bool, email: string, password: string) {
    isEmail(email) && NonEmpty(password)
  }

  predicate RefreshTokenBody(refreshToken: string) { NonEmpty(refreshToken) }

  predicate ForgotPasswordBody(isEmail: string -> bool, email: string) { isEmail(email) }

  predicate ResetPasswordBody(token: string, password: string) {
    NonEmpty(token) && PasswordPolicy(password)
  }

  predicate ChangePasswordBody(currentPassword: string, newPassword: string) {
    NonEmpty(currentPassword) && PasswordPolicy(newPassword)
  }

  /** The `:provider` path parameter: only the two supported providers. */
  function ParseProvider(name: string): (r: Option<string>)
    ensures r.Some? <==> name == "google" || name == "github"
    ensures r.Some? ==> r.value == name
  {
    if name == "google" || name == "github" then Some(name) else None
  }

  predicate OAuthCallbackRequest(provider: string, code: string) {
    ParseProvider(provider).Some? && NonEmpty(code)
  }

  /** Any password registration accepts is accepted at login, but not the
      other way round: login does not re-check complexity. */
  lemma LoginAcceptsMoreThanRegister(isEmail: string -> bool, email: string, password: string)
    requires RegisterBody(isEmail, email, password, None, None)
    ensures LoginBody(isEmail, email, password)
    ensures isEmail(email) ==> LoginBody(isEmail, email, "a") && !RegisterBody(isEmail, email, "a", None, None)
  {
    assert Utf16Length("a") == 1;
  }

  /** A sample of the policy: mixed classes of length 8 pass; one class
      short fails. */
  lemma PasswordPolicyExamples()
    ensures PasswordPolicy("Passw0rd!")
    ensures !PasswordPolicy("Password1")
  {
    var good := "Passw0rd!";
    assert IsUpper(good[0]) && IsLower(good[1]) && IsDigit(good[5]) && !IsAlnum(good[8]);
    assert Utf16Length(good) == 9;
    var bad := "Password1";
    assert forall i :: 0 <= i < |bad| ==> IsAlnum(bad[i]);
  }
}

=== FILE: common.dfy ===
/** General-purpose helpers shared by the whole model: an optional value and
    the handful of sequence operations the services perform on query results
    (first match, filtering, per-key uniqueness and JavaScript's
    first-occurrence de-duplication `[...new Set(xs)]`). */
module Common {

  datatype Option<+T> = None | Some(value: T)

  /** No element occurs twice. */
  predicate Distinct<T(==)>(xs: seq<T>) {
    forall i, j :: 0 <= i < j < |xs| ==> xs[i] != xs[j]
  }

  /** No two elements share a key (a database unique constraint). */
  predicate UniqueBy<T, K(==)>(xs: seq<T>, key: T -> K) {
    forall i, j :: 0 <= i < j < |xs| ==> key(xs[i]) != key(xs[j])
  }

  /** The keys of `xs`, in order. */
  function Keys<T, K>(xs: seq<T>, key: T -> K): (ks: seq<K>)
    ensures |ks| == |xs|
    ensures forall i :: 0 <= i < |xs| ==> ks[i] == key(xs[i])
  {
    seq(|xs|, i requires 0 <= i < |xs| => key(xs[i]))
  }

  /** Index of the first element satisfying `p`, if any. */
  function Find<T>(xs: seq<T>, p: T -> bool): (r: Option<nat>)
    ensures r.Some? ==> r.value < |xs| && p(xs[r.value])
    ensures r.Some? ==> forall j :: 0 <= j < r.value ==> !p(xs[j])
    ensures r.None? <==> forall j :: 0 <= j < |xs| ==> !p(xs[j])
  {
    if |xs| == 0 then None
    else if p(xs[0]) then Some(0)
    else match Find(xs[1..], p)
      case None => None
      case Some(k) => Some(k + 1)
  }

  lemma AppendAssoc<T>(a: seq<T>, b: seq<T>, c: seq<T>)
    ensures a + (b + c) == (a + b) + c
  {
  }

  /** A first match stays first in a sequence that agrees up to it. */
  lemma FindAgrees<T>(xs: seq<T>, ys: seq<T>, p: T -> bool, k: nat)
    requires Find(xs, p) == Some(k)
    requires k < |ys| && p(ys[k])
    requires forall j :: 0 <= j < k ==> ys[j] == xs[j]
    ensures Find(ys, p) == Some(k)
  {
  }

  /** Appending elements does not move a first match. */
  lemma FindExtends<T>(xs: seq<T>, ys: seq<T>, p: T -> bool)
    requires xs <= ys && Find(xs, p).Some?
    ensures Find(ys, p) == Find(xs, p)
  {
    var k := Find(xs, p).value;
    assert ys[k] == xs[k];
    assert forall j :: 0 <= j < k ==> ys[j] == xs[j];
  }

  /** The elements satisfying `p`, in their original order. */
  function Filter<T>(xs: seq<T>, p: T -> bool): (r: seq<T>)
    ensures |r| <= |xs|
    ensures forall i :: 0 <= i < |r| ==> r[i] in xs && p(r[i])
    ensures forall i :: 0 <= i < |xs| && p(xs[i]) ==> xs[i] in r
  {
    if |xs| == 0 then []
    else (if p(xs[0]) then [xs[0]] else []) + Filter(xs[1..], p)
  }

  /** How many elements satisfy `p`. */
  function Count<T>(xs: seq<T>, p: T -> bool): nat {
    |Filter(xs, p)|
  }

  /** Applies `f` to exactly the elements satisfying `p` (an `updateMany`). */
  function UpdateWhere<T>(xs: seq<T>, p: T -> bool, f: T -> T): (r: seq<T>)
    ensures |r| == |xs|
    ensures forall i :: 0 <= i < |xs| ==> r[i] == (if p(xs[i]) then f(xs[i]) else xs[i])
  {
    seq(|xs|, i requires 0 <= i < |xs| => if p(xs[i]) then f(xs[i]) else xs[i])
  }

  lemma {:induction false} FilterAppend<T>(xs: seq<T>, ys: seq<T>, p: T -> bool)
    ensures Filter(xs + ys, p) == Filter(xs, p) + Filter(ys, p)
  {
    if |xs| > 0 {
      assert (xs + ys)[1..] == xs[1..] + ys;
      FilterAppend(xs[1..], ys, p);
    } else {
      assert xs + ys == ys;
    }
  }

  /** Filtering by a condition every element meets keeps everything. */
  lemma {:induction false} FilterAll<T>(xs: seq<T>, p: T -> bool)
    requires forall i :: 0 <= i < |xs| ==> p(xs[i])
    ensures Filter(xs, p) == xs
  {
    if |xs| > 0 {
      FilterAll(xs[1..], p);
    }
  }

  lemma {:induction false} FilterSplit<T>(xs: seq<T>, p: T -> bool, q: T -> bool)
    requires forall x :: q(x) == !p(x)
    ensures |Filter(xs, p)| + |Filter(xs, q)| == |xs|
  {
    if |xs| > 0 {
      FilterSplit(xs[1..], p, q);
    }
  }

  /** Filtering keeps any per-key uniqueness. */
  lemma {:induction false} FilterUniqueBy<T, K>(xs: seq<T>, p: T -> bool, key: T -> K)
    requires UniqueBy(xs, key)
    ensures UniqueBy(Filter(xs, p), key)
    ensures forall x :: x in Filter(xs, p) ==> key(x) in Keys(xs, key)
  {
    if |xs| > 0 {
      var rest := Filter(xs[1..], p);
      FilterUniqueBy(xs[1..], p, key);
      forall x | x in rest ensures key(x) != key(xs[0]) {
        var j :| 0 <= j < |xs[1..]| && xs[1..][j] == x;
        assert xs[j + 1] == x;
      }
      forall x | x in Filter(xs, p) ensures key(x) in Keys(xs, key) {
        if x in rest {
          assert key(x) in Keys(xs[1..], key);
          var j :| 0 <= j < |xs[1..]| && Keys(xs[1..], key)[j] == key(x);
          assert Keys(xs, key)[j + 1] == key(x);
        } else {
          assert Keys(xs, key)[0] == key(xs[0]);
        }
      }
    }
  }

  /** Filtering keeps the absence of duplicates. */
  lemma {:induction false} FilterDistinct<T>(xs: seq<T>, p: T -> bool)
    requires Distinct(xs)
    ensures Distinct(Filter(xs, p))
  {
    if |xs| > 0 {
      FilterDistinct(xs[1..], p);
      assert xs[0] !in xs[1..];
    }
  }

  /** Appending a fresh key keeps per-key uniqueness. */
  lemma UniqueByAppend<T, K>(xs: seq<T>, x: T, key: T -> K)
    requires UniqueBy(xs, key)
    requires key(x) !in Keys(xs, key)
    ensures UniqueBy(xs + [x], key)
  {
    forall i | 0 <= i < |xs| ensures key(xs[i]) != key(x) {
      assert Keys(xs, key)[i] == key(xs[i]);
    }
  }

  /** An update that keeps every key keeps per-key uniqueness and the key set. */
  lemma UpdateWhereKeys<T, K>(xs: seq<T>, p: T -> bool, f: T -> T, key: T -> K)
    requires forall x :: key(f(x)) == key(x)
    ensures Keys(UpdateWhere(xs, p, f), key) == Keys(xs, key)
    ensures UniqueBy(xs, key) ==> UniqueBy(UpdateWhere(xs, p, f), key)
  {
    var r := UpdateWhere(xs, p, f);
    assert forall i :: 0 <= i < |xs| ==> key(r[i]) == key(xs[i]);
  }

  /** First-occurrence de-duplication, JavaScript's `[...new Set(xs)]`. */
  function Dedup<T(==)>(xs: seq<T>): (r: seq<T>)
    ensures forall i :: 0 <= i < |r| ==> r[i] in xs
    ensures forall i :: 0 <= i < |xs| ==> xs[i] in r
    ensures Distinct(r)
    ensures |r| <= |xs|
  {
    if |xs| == 0 then []
    else
      var r := Dedup(xs[..|xs| - 1]);
      assert forall i :: 0 <= i < |xs| - 1 ==> xs[i] == xs[..|xs| - 1][i];
      if xs[|xs| - 1] in r then r else r + [xs[|xs| - 1]]
  }

  /** Index of the first occurrence of `x` in `xs`. */
  function FirstIndex<T(==)>(xs: seq<T>, x: T): (i: nat)
    requires x in xs
    ensures i < |xs| && xs[i] == x
    ensures forall j :: 0 <= j < i ==> xs[j] != x
  {
    if xs[0] == x then 0 else 1 + FirstIndex(xs[1..], x)
  }

  lemma FirstIndexPrefix<T>(xs: seq<T>, n: nat, x: T)
    requires n <= |xs| && x in xs[..n]
    ensures FirstIndex(xs, x) == FirstIndex(xs[..n], x)
  {
    var i := FirstIndex(xs[..n], x);
    assert xs[i] == x;
    assert forall j :: 0 <= j < i ==> xs[j] == xs[..n][j];
  }

  /** The elements of `d` occur in `xs`, first occurrences in order. */
  predicate InFirstOccurrenceOrder<T(==)>(xs: seq<T>, d: seq<T>) {
    && (forall i :: 0 <= i < |d| ==> d[i] in xs)
    && (forall i, j :: 0 <= i < j < |d| ==> FirstIndex(xs, d[i]) < FirstIndex(xs, d[j]))
  }

  /** `Dedup` keeps the order of first occurrences. */
  lemma {:induction false} DedupOrder<T>(xs: seq<T>)
    ensures forall i, j :: 0 <= i < j < |Dedup(xs)| ==>
      FirstIndex(xs, Dedup(xs)[i]) < FirstIndex(xs, Dedup(xs)[j])
  {
    if |xs| > 0 {
      var n := |xs| - 1;
      var pre := xs[..n];
      var r := Dedup(pre);
      DedupOrder(pre);
      OrderInPrefix(xs, n, r);
      if xs[n] in r {
        assert Dedup(xs) == r;
      } else {
        assert Dedup(xs) == r + [xs[n]];
        FirstIndexOfNew(xs, r);
        OrderSnoc(xs, r);
      }
    }
  }

  /** First occurrences in a prefix are first occurrences in the whole. */
  lemma OrderInPrefix<T>(xs: seq<T>, n: nat, r: seq<T>)
    requires n < |xs|
    requires forall i :: 0 <= i < |r| ==> r[i] in xs[..n]
    requires forall i, j :: 0 <= i < j < |r| ==> FirstIndex(xs[..n], r[i]) < FirstIndex(xs[..n], r[j])
    ensures forall i :: 0 <= i < |r| ==> r[i] in xs && FirstIndex(xs, r[i]) < n
    ensures InFirstOccurrenceOrder(xs, r)
  {
    forall i | 0 <= i < |r| ensures r[i] in xs && FirstIndex(xs, r[i]) == FirstIndex(xs[..n], r[i]) < n {
      FirstIndexPrefix(xs, n, r[i]);
    }
  }

  lemma FirstIndexOfNew<T>(xs: seq<T>, r: seq<T>)
    requires |xs| > 0 && r == Dedup(xs[..|xs| - 1]) && xs[|xs| - 1] !in r
    ensures FirstIndex(xs, xs[|xs| - 1]) == |xs| - 1
  {
    var n := |xs| - 1;
    assert forall j :: 0 <= j < n ==> xs[j] == xs[..n][j];
  }

  /** Appending the last element, first seen last, keeps the order. */
  lemma OrderSnoc<T>(xs: seq<T>, r: seq<T>)
    requires |xs| > 0 && InFirstOccurrenceOrder(xs, r)
    requires forall i :: 0 <= i < |r| ==> FirstIndex(xs, r[i]) < |xs| - 1
    requires FirstIndex(xs, xs[|xs| - 1]) == |xs| - 1
    ensures InFirstOccurrenceOrder(xs, r + [xs[|xs| - 1]])
  {
    var d := r + [xs[|xs| - 1]];
    forall i, j | 0 <= i < j < |d| ensures FirstIndex(xs, d[i]) < FirstIndex(xs, d[j]) {
      assert d[i] == r[i];
      if j < |r| {
        assert d[j] == r[j];
      }
    }
  }

  /** `Dedup` removes nothing from a sequence that is free of duplicates. */
  lemma {:induction false} DedupOfDistinct<T>(xs: seq<T>)
    requires Distinct(xs)
    ensures Dedup(xs) == xs
  {
    if |xs| > 0 {
      var n := |xs| - 1;
      var pre := xs[..n];
      assert Distinct(pre);
      DedupOfDistinct(pre);
      assert forall j :: 0 <= j < n ==> xs[j] == pre[j];
      assert xs[n] !in pre;
      assert xs == pre + [xs[n]];
    }
  }

  /** De-duplicating twice is the same as de-duplicating once. */
  lemma DedupIdempotent<T>(xs: seq<T>)
    ensures Dedup(Dedup(xs)) == Dedup(xs)
  {
    DedupOfDistinct(Dedup(xs));
  }
}

=== FILE: common_schemas.dfy ===
/** The shared query and path schemas: pagination with its defaults and
    bounds, and the UUID path parameter (whose syntax check is the
    predicate parameter `isUuid`). A query value is `None` when absent. */
module CommonSchemas {
  import opened Common
  import Decimal
  import Text

  const DefaultPage: int := 1
  const DefaultLimit: int := 10
  const MaxLimit: int := 100

  /** The transform of a numeric query value: absent or empty gives the
      default, anything else `parseInt` (`None` for `NaN`). */
  function NumberOrDefault(raw: Option<string>, default: int): (r: Option<int>)
    ensures raw.None? || raw == Some("") ==> r == Some(default)
    ensures raw.Some? && raw.value != "" ==> r == Decimal.ParseInt(raw.value)
  {
    if raw.None? || raw.value == "" then Some(default) else Decimal.ParseInt(raw.value)
  }

  /** `page`: a positive integer, 1 when absent; `NaN` is refused, not
      defaulted. */
  function PageParam(raw: Option<string>): (r: Option<int>)
    ensures r.Some? ==> r.value >= 1
    ensures raw.None? ==> r == Some(DefaultPage)
    ensures r.Some? && raw.Some? && raw.value != "" ==> Decimal.ParseInt(raw.value) == r
    ensures raw.Some? && raw.value != "" && Decimal.ParseInt(raw.value).None? ==> r.None?
    ensures raw.Some? && raw.value != "" && Decimal.ParseInt(raw.value).Some? ==>
      (r.Some? <==> Decimal.ParseInt(raw.value).value >= 1)
  {
    match NumberOrDefault(raw, DefaultPage)
    case None => None
    case Some(n) => if n >= 1 then Some(n) else None
  }

  /** `limit`: an integer in [1, 100], 10 when absent. */
  function LimitParam(raw: Option<string>): (r: Option<int>)
    ensures r.Some? ==> 1 <= r.value <= MaxLimit
    ensures raw.None? ==> r == Some(DefaultLimit)
    ensures r.Some? && raw.Some? && raw.value != "" ==> Decimal.ParseInt(raw.value) == r
    ensures raw.Some? && raw.value != "" && Decimal.ParseInt(raw.value).None? ==> r.None?
    ensures raw.Some? && raw.value != "" && Decimal.ParseInt(raw.value).Some? ==>
      (r.Some? <==> 1 <= Decimal.ParseInt(raw.value).value <= MaxLimit)
  {
    match NumberOrDefault(raw, DefaultLimit)
    case None => None
    case Some(n) => if 1 <= n <= MaxLimit then Some(n) else None
  }

  datatype SortOrder = Asc | Desc

  /** `sortOrder`: `asc` by default, otherwise exactly `asc` or `desc`. */
  function SortOrderParam(raw: Option<string>): (r: Option<SortOrder>)
    ensures raw.None? ==> r == Some(Asc)
    ensures raw.Some? ==> (r.Some? <==> raw.value == "asc" || raw.value == "desc")
    ensures raw == Some("desc") <==> r == Some(Desc)
  {
    match raw
    case None => Some(Asc)
    case Some(v) => if v == "asc" then Some(Asc) else if v == "desc" then Some(Desc) else None
  }

  datatype Pagination = Pagination(page: int, limit: int, sortBy: Option<string>, sortOrder: SortOrder)

  /** `paginationSchema`: all fields valid, or the query is refused. */
  function PaginationQuery(page: Option<string>, limit: Option<string>, sortBy: Option<string>, sortOrder: Option<string>): (r: Option<Pagination>)
    ensures r.Some? <==> PageParam(page).Some? && LimitParam(limit).Some? && SortOrderParam(sortOrder).Some?
    ensures r.Some? ==> r.value.page >= 1 && 1 <= r.value.limit <= MaxLimit && r.value.sortBy == sortBy
  {
    match (PageParam(page), LimitParam(limit), SortOrderParam(sortOrder))
    case (Some(p), Some(l), Some(o)) => Some(Pagination(p, l, sortBy, o))
    case _ => None
  }

  predicate UuidParams(isUuid: string -> bool, id: string) { isUuid(id) }

  /** Every rendered positive page number is read back. */
  lemma PageParamRoundTrip(n: nat)
    requires n >= 1
    ensures PageParam(Some(Decimal.NatToString(n))) == Some(n)
  {
    Decimal.ParseIntRoundTrip(n);
  }

  /** Zero is refused rather than defaulted; an empty value is defaulted. */
  lemma ZeroPageRefused()
    ensures PageParam(Some("0")) == None
    ensures PageParam(Some("")) == Some(DefaultPage)
  {
    Decimal.ParseIntOfDigits("0");
    assert Decimal.Value("0") == 0;
  }

  /** A limit is accepted exactly up to 100. */
  lemma LimitParamBound(n: nat)
    ensures LimitParam(Some(Decimal.NatToString(n))).Some? <==> 1 <= n <= MaxLimit
  {
    Decimal.ParseIntRoundTrip(n);
  }

  /** Non-numeric text is refused: `parseInt` yields `NaN`. */
  lemma NonNumericRefused()
    ensures PageParam(Some("abc")) == None
    ensures LimitParam(Some("abc")) == None
  {
    var t := "abc";
    assert !Text.IsSpace(t[0]);
    Text.TrimStartUnique(t, t);
    assert Decimal.SkipSign(t) == t;
    assert Decimal.DigitPrefix(t) == [];
  }
}

=== FILE: config.dfy ===
/** The configuration defaults the core reads (environment overrides are not
    modelled), and the lifetimes they denote. */
module Config {
  import opened Common
  import Crypto

  const AccessExpiration: string := "15m"
  const RefreshExpiration: string := "7d"
  const Issuer: string := "universal-auth-backend"
  const MaxLoginAttempts: nat := 10
  const LockoutDurationMs: nat := 1800000

  /** Lifetime of a password-reset token, fixed in the auth service. */
  const ResetExpiration: string := "1h"

  /** Random bytes behind a refresh token and a reset token. */
  const RefreshTokenBytes: nat := 64
  const ResetTokenBytes: nat := 32

  const AccessLifetimeMs: nat := 900000
  const RefreshLifetimeMs: nat := 604800000
  const ResetLifetimeMs: nat := 3600000

  /** The lifetimes used by the model are what `parseDuration` makes of the
      configured strings, so `parseDuration` never throws on them. */
  lemma ConfiguredLifetimes()
    ensures Crypto.ParseDuration(AccessExpiration) == Some(AccessLifetimeMs)
    ensures Crypto.ParseDuration(RefreshExpiration) == Some(RefreshLifetimeMs)
    ensures Crypto.ParseDuration(ResetExpiration) == Some(ResetLifetimeMs)
  {
    Crypto.ParseDurationExamples();
  }
}

=== FILE: crypto.dfy ===
/** The token utilities: the duration grammar `<digits><s|m|h|d|w>` and the
    expiry arithmetic built on it, the hex rendering of random bytes that
    makes an opaque token, and the hash comparison. SHA-256 itself
    (FIPS 180-4) and the random source are not modelled: the hash is a
    function parameter `sha` and the random bytes are an input. */
module Crypto {
  import opened Common
  import Text
  import Decimal

  type Byte = b: int | 0 <= b < 256

  /** Time is counted in milliseconds since the epoch, as `Date.now()`. */
  type Time = int

  datatype Unit = Seconds | Minutes | Hours | Days | Weeks {
    function Symbol(): char {
      match this
      case Seconds => 's'
      case Minutes => 'm'
      case Hours => 'h'
      case Days => 'd'
      case Weeks => 'w'
    }

    function Millis(): nat {
      match this
      case Seconds => 1000
      case Minutes => 60 * 1000
      case Hours => 60 * 60 * 1000
      case Days => 24 * 60 * 60 * 1000
      case Weeks => 7 * 24 * 60 * 60 * 1000
    }
  }

  function UnitOf(c: char): (u: Option<Unit>)
    ensures u.Some? ==> u.value.Symbol() == c
  {
    match c
    case 's' => Some(Seconds)
    case 'm' => Some(Minutes)
    case 'h' => Some(Hours)
    case 'd' => Some(Days)
    case 'w' => Some(Weeks)
    case _ => None
  }

  /** `parseDuration`: the milliseconds denoted by `<digits><unit>`, or
      `None` where the source throws "Invalid duration format". */
  function ParseDuration(d: string): Option<nat> {
    if |d| >= 2 && Decimal.AllDigits(d[..|d| - 1]) && UnitOf(d[|d| - 1]).Some? then
      Some(Decimal.Value(d[..|d| - 1]) * UnitOf(d[|d| - 1]).value.Millis())
    else
      None
  }

  /** The accepted language: one or more ASCII digits and then exactly one
      of the five lower-case unit letters, nothing before or after. */
  lemma ParseDurationLanguage(d: string)
    ensures ParseDuration(d).Some? <==>
      && |d| >= 2
      && (forall i :: 0 <= i < |d| - 1 ==> '0' <= d[i] <= '9')
      && d[|d| - 1] in "smhdw"
  {
    if |d| >= 2 {
      var c := d[|d| - 1];
      assert c in "smhdw" <==> c == 's' || c == 'm' || c == 'h' || c == 'd' || c == 'w';
    }
  }

  /** Formatting a number with a unit and parsing it back gives the number
      scaled by the unit's factor. */
  lemma ParseDurationRoundTrip(n: nat, u: Unit)
    ensures ParseDuration(Decimal.NatToString(n) + [u.Symbol()]) == Some(n * u.Millis())
  {
    var digits := Decimal.NatToString(n);
    var d := digits + [u.Symbol()];
    assert d[..|d| - 1] == digits;
    Decimal.ValueOfNatToString(n);
  }

  /** Leading zeros are accepted and ignored. */
  lemma ParseDurationLeadingZero(d: string)
    requires ParseDuration(d).Some?
    ensures ParseDuration("0" + d) == ParseDuration(d)
  {
    var digits := d[..|d| - 1];
    var z := "0" + d;
    assert z[..|z| - 1] == "0" + digits;
    assert z[|z| - 1] == d[|d| - 1];
    Decimal.LeadingZeroIgnored(digits);
  }

  /** The value scales linearly: `n<u>` is `n` times `1<u>`. */
  lemma ParseDurationScales(digits: string, c: char)
    requires ParseDuration(digits + [c]).Some?
    ensures Decimal.AllDigits(digits)
    ensures ParseDuration("1" + [c]).Some?
    ensures ParseDuration(digits + [c]).value
         == Decimal.Value(digits) * ParseDuration("1" + [c]).value
  {
    var d := digits + [c];
    assert d[..|d| - 1] == digits;
    var one := "1" + [c];
    assert one[..1] == "1";
    assert Decimal.Value("1") == 1 by {
      assert "1"[..0] == "";
    }
  }

  /** The configured lifetimes, and the inputs the grammar refuses. */
  lemma ParseDurationExamples()
    ensures ParseDuration("15m") == Some(900000)
    ensures ParseDuration("7d") == Some(604800000)
    ensures ParseDuration("1h") == Some(3600000)
    ensures ParseDuration("0s") == Some(0)
    ensures ParseDuration("007d") == ParseDuration("7d")
    ensures ParseDuration("").None? && ParseDuration("15").None? && ParseDuration("m").None?
    ensures ParseDuration("-5m").None? && ParseDuration("+5m").None?
    ensures ParseDuration("1.5h").None? && ParseDuration("15M").None?
    ensures ParseDuration(" 15m").None? && ParseDuration("15m ").None?
  {
    ParseDurationRoundTrip(15, Minutes);
    assert Decimal.NatToString(15) == "15";
    assert Decimal.NatToString(15) + [Minutes.Symbol()] == "15m";
    ParseDurationRoundTrip(7, Days);
    assert Decimal.NatToString(7) == "7";
    ParseDurationRoundTrip(1, Hours);
    assert Decimal.NatToString(1) == "1";
    ParseDurationRoundTrip(0, Seconds);
    assert Decimal.NatToString(0) == "0";
    ParseDurationLeadingZero("7d");
    ParseDurationLeadingZero("07d");
    assert "0" + "7d" == "07d";
    assert "0" + "07d" == "007d";
    assert !Text.IsDigit("-5m"[0]) && !Text.IsDigit("+5m"[0]) && !Text.IsDigit(" 15m"[0]);
    assert !Text.IsDigit("1.5h"[1]);
    assert "15m "[..3] == "15m";
  }

  /** `calculateExpiration`: now plus the parsed duration. */
  function CalculateExpiration(now: Time, d: string): (r: Option<Time>)
    ensures r.Some? <==> ParseDuration(d).Some?
    ensures r.Some? ==> r.value >= now
    ensures r.Some? ==> (r.value > now <==> ParseDuration(d).value > 0)
  {
    match ParseDuration(d)
    case None => None
    case Some(ms) => Some(now + ms)
  }

  // ---------------------------------------------------------------------
  // Opaque tokens

  predicate IsLowerHexChar(c: char) {
    Text.IsDigit(c) || 'a' <= c <= 'f'
  }

  predicate IsLowerHex(t: string) {
    forall i :: 0 <= i < |t| ==> IsLowerHexChar(t[i])
  }

  function HexDigit(n: nat): (c: char)
    requires n < 16
    ensures IsLowerHexChar(c)
  {
    if n < 10 then ('0' as int + n) as char else ('a' as int + n - 10) as char
  }

  function HexValue(c: char): (n: nat)
    requires IsLowerHexChar(c)
    ensures n < 16
  {
    if Text.IsDigit(c) then c as int - '0' as int else c as int - 'a' as int + 10
  }

  /** `randomBytes(n).toString('hex')`: two lower-case hex digits per byte. */
  function HexEncode(bytes: seq<Byte>): (t: string)
    ensures |t| == 2 * |bytes|
    ensures IsLowerHex(t)
  {
    if |bytes| == 0 then []
    else [HexDigit(bytes[0] / 16), HexDigit(bytes[0] % 16)] + HexEncode(bytes[1..])
  }

  function HexDecode(t: string): Option<seq<Byte>> {
    if |t| == 0 then Some([])
    else if |t| == 1 || !IsLowerHexChar(t[0]) || !IsLowerHexChar(t[1]) then None
    else match HexDecode(t[2..])
      case None => None
      case Some(rest) => Some([HexValue(t[0]) * 16 + HexValue(t[1])] + rest)
  }

  /** Decoding a token gives back the random bytes it was made from, so
      distinct draws give distinct tokens. */
  lemma {:induction false} HexRoundTrip(bytes: seq<Byte>)
    ensures HexDecode(HexEncode(bytes)) == Some(bytes)
  {
    if |bytes| > 0 {
      var t := HexEncode(bytes);
      assert t[2..] == HexEncode(bytes[1..]);
      HexRoundTrip(bytes[1..]);
      assert HexValue(HexDigit(bytes[0] / 16)) == bytes[0] / 16;
      assert HexValue(HexDigit(bytes[0] % 16)) == bytes[0] % 16;
      assert [bytes[0]] + bytes[1..] == bytes;
    }
  }

  /** Only one text decodes to given bytes: the lower-case hex of them. */
  lemma {:induction false} HexDecodeExact(t: string, bytes: seq<Byte>)
    requires HexDecode(t) == Some(bytes)
    ensures t == HexEncode(bytes)
  {
    if |t| > 0 {
      var rest := HexDecode(t[2..]).value;
      HexDecodeExact(t[2..], rest);
      var b := HexValue(t[0]) * 16 + HexValue(t[1]);
      assert bytes == [b] + rest;
      assert b / 16 == HexValue(t[0]) && b % 16 == HexValue(t[1]);
      assert t == [t[0], t[1]] + t[2..];
    }
  }

  /** `generateSecureToken(length)`, given the `length` random bytes drawn. */
  function GenerateSecureToken(random: seq<Byte>): (t: string)
    ensures |t| == 2 * |random|
    ensures IsLowerHex(t)
    ensures HexDecode(t) == Some(random)
  {
    HexRoundTrip(random);
    HexEncode(random)
  }

  // ---------------------------------------------------------------------
  // Hash comparison

  /** Bytes of the UTF-8 encoding of one code point. */
  function Utf8Width(c: char): nat {
    if c as int < 0x80 then 1
    else if c as int < 0x800 then 2
    else if c as int < 0x10000 then 3
    else 4
  }

  /** Length of `Buffer.from(s)` (UTF-8). */
  function Utf8Length(s: string): nat {
    if |s| == 0 then 0 else Utf8Width(s[0]) + Utf8Length(s[1..])
  }

  /** `compareTokens(plain, hashed)`: `timingSafeEqual` on the two UTF-8
      buffers, which throws (`None`) when their lengths differ. */
  function CompareTokens(sha: string -> string, plain: string, hashed: string): (r: Option<bool>)
    ensures r.None? <==> Utf8Length(sha(plain)) != Utf8Length(hashed)
    ensures r == Some(true) <==> sha(plain) == hashed
  {
    if Utf8Length(sha(plain)) != Utf8Length(hashed) then None
    else Some(sha(plain) == hashed)
  }
}

=== FILE: decimal.dfy ===
/** Decimal numerals: the value of a digit string (`parseInt(s, 10)` on
    digits, used by the duration grammar), the canonical rendering of a
    number (template-literal interpolation, used in error messages) and
    JavaScript's lenient `parseInt(s, 10)` (used by the pagination query). */
module Decimal {
  import opened Common
  import Text

  predicate AllDigits(s: string) {
    forall i :: 0 <= i < |s| ==> Text.IsDigit(s[i])
  }

  function DigitValue(c: char): nat
    requires Text.IsDigit(c)
  {
    c as int - '0' as int
  }

  function DigitChar(d: nat): (c: char)
    requires d < 10
    ensures Text.IsDigit(c) && DigitValue(c) == d
  {
    ('0' as int + d) as char
  }

  /** The value of a digit string, most significant digit first; leading
      zeros are allowed and the empty string is 0. */
  function Value(s: string): nat
    requires AllDigits(s)
  {
    if |s| == 0 then 0 else Value(s[..|s| - 1]) * 10 + DigitValue(s[|s| - 1])
  }

  /** The canonical decimal rendering of `n` (no sign, no leading zero). */
  function NatToString(n: nat): (r: string)
    ensures |r| > 0 && AllDigits(r)
    ensures n > 0 ==> r[0] != '0'
  {
    if n < 10 then [DigitChar(n)] else NatToString(n / 10) + [DigitChar(n % 10)]
  }

  /** `String(i)` for an integer. */
  function IntToString(i: int): (r: string)
    ensures |r| > 0
    ensures r[0] == '-' <==> i < 0
  {
    if i < 0 then "-" + NatToString(-i) else NatToString(i)
  }

  /** Reading back a rendered number gives the number. */
  lemma {:induction false} ValueOfNatToString(n: nat)
    ensures Value(NatToString(n)) == n
  {
    if n >= 10 {
      var s := NatToString(n);
      ValueOfNatToString(n / 10);
      assert s[..|s| - 1] == NatToString(n / 10);
    }
  }

  /** Distinct integers render differently. */
  lemma IntToStringInjective(a: int, b: int)
    requires IntToString(a) == IntToString(b)
    ensures a == b
  {
    if a < 0 && b < 0 {
      assert NatToString(-a) == IntToString(a)[1..];
      assert NatToString(-b) == IntToString(b)[1..];
      ValueOfNatToString(-a);
      ValueOfNatToString(-b);
    } else if a >= 0 && b >= 0 {
      ValueOfNatToString(a);
      ValueOfNatToString(b);
    }
  }

  /** A leading zero does not change the value of a digit string. */
  lemma {:induction false} LeadingZeroIgnored(s: string)
    requires AllDigits(s)
    ensures AllDigits("0" + s) && Value("0" + s) == Value(s)
  {
    if |s| > 0 {
      var t := "0" + s;
      assert t[..|t| - 1] == "0" + s[..|s| - 1];
      LeadingZeroIgnored(s[..|s| - 1]);
    }
  }

  /** Appending a digit: the value is shifted by one place. */
  lemma ValueSnoc(s: string, c: char)
    requires AllDigits(s) && Text.IsDigit(c)
    ensures AllDigits(s + [c]) && Value(s + [c]) == Value(s) * 10 + DigitValue(c)
  {
    assert (s + [c])[..|s|] == s;
  }

  /** The longest prefix of decimal digits. */
  function DigitPrefix(s: string): (p: string)
    ensures AllDigits(p) && |p| <= |s| && p == s[..|p|]
    ensures |p| < |s| ==> !Text.IsDigit(s[|p|])
  {
    if |s| > 0 && Text.IsDigit(s[0]) then [s[0]] + DigitPrefix(s[1..]) else []
  }

  /** JavaScript `parseInt(s, 10)`: skip leading white space, read an optional
      sign and the longest run of digits after it; `None` stands for `NaN`.
      (A parsed `-0` is reported as 0: every check applied to it treats the
      two alike.) */
  function ParseInt(s: string): Option<int>
  {
    var t := Text.TrimStart(s);
    var digits := DigitPrefix(SkipSign(t));
    if |digits| == 0 then None
    else if |t| > 0 && t[0] == '-' then Some(0 - Value(digits) as int)
    else Some(Value(digits))
  }

  function SkipSign(t: string): string {
    if |t| > 0 && (t[0] == '+' || t[0] == '-') then t[1..] else t
  }

  /** On a plain digit string `parseInt` is `Value`; in particular it reads
      back every rendered number. */
  lemma ParseIntOfDigits(s: string)
    requires |s| > 0 && AllDigits(s)
    ensures ParseInt(s) == Some(Value(s))
  {
    assert !Text.IsSpace(s[0]);
    Text.TrimStartUnique(s, s);
    assert SkipSign(s) == s;
    DigitPrefixOfDigits(s);
  }

  lemma {:induction false} DigitPrefixOfDigits(s: string)
    requires AllDigits(s)
    ensures DigitPrefix(s) == s
  {
    if |s| > 0 {
      DigitPrefixOfDigits(s[1..]);
    }
  }

  lemma ParseIntRoundTrip(n: nat)
    ensures ParseInt(NatToString(n)) == Some(n)
  {
    ParseIntOfDigits(NatToString(n));
    ValueOfNatToString(n);
  }
}

=== FILE: errors.dfy ===
/** The application's error taxonomy: every error the core raises is one of
    thirteen tagged kinds, each carrying an HTTP status, a machine-readable
    code, a human message and whether it is an expected ("operational")
    failure. */
module Errors {
  import Decimal

  datatype AppError =
    | BadRequest(message: string)
    | Validation(message: string)
    | Unauthorized(message: string)
    | Forbidden(message: string)
    | NotFound(resource: string)
    | Conflict(message: string)
    | TooManyRequests(message: string)
    | Internal(message: string)
    | InvalidCredentials
    | TokenExpired
    | TokenRevoked
    | AccountLocked(remainingMinutes: int)
    | AccountInactive
  {
    /** The HTTP status: 4xx exactly for the operational kinds, 500 otherwise. */
    function StatusCode(): (r: int)
      ensures IsOperational() <==> 400 <= r < 500
      ensures !IsOperational() ==> r == 500
      ensures IsUnauthorizedKind() ==> r == 401
      ensures IsForbiddenKind() ==> r == 403
    {
      match this
      case BadRequest(_) => 400
      case Validation(_) => 400
      case Unauthorized(_) => 401
      case Forbidden(_) => 403
      case NotFound(_) => 404
      case Conflict(_) => 409
      case TooManyRequests(_) => 429
      case Internal(_) => 500
      case InvalidCredentials => 401
      case TokenExpired => 401
      case TokenRevoked => 401
      case AccountLocked(_) => 401
      case AccountInactive => 403
    }

    function Code(): string {
      match this
      case BadRequest(_) => "BAD_REQUEST"
      case Validation(_) => "VALIDATION_ERROR"
      case Unauthorized(_) => "UNAUTHORIZED"
      case Forbidden(_) => "FORBIDDEN"
      case NotFound(_) => "NOT_FOUND"
      case Conflict(_) => "CONFLICT"
      case TooManyRequests(_) => "TOO_MANY_REQUESTS"
      case Internal(_) => "INTERNAL_ERROR"
      case InvalidCredentials => "INVALID_CREDENTIALS"
      case TokenExpired => "TOKEN_EXPIRED"
      case TokenRevoked => "TOKEN_REVOKED"
      case AccountLocked(_) => "ACCOUNT_LOCKED"
      case AccountInactive => "ACCOUNT_INACTIVE"
    }

    function Message(): string {
      match this
      case BadRequest(m) => m
      case Validation(m) => m
      case Unauthorized(m) => m
      case Forbidden(m) => m
      case NotFound(resource) => resource + " not found"
      case Conflict(m) => m
      case TooManyRequests(m) => m
      case Internal(m) => m
      case InvalidCredentials => "Invalid email or password"
      case TokenExpired => "Token has expired"
      case TokenRevoked => "Token has been revoked"
      case AccountLocked(minutes) =>
        "Account is locked. Try again in " + Decimal.IntToString(minutes) + " minutes"
      case AccountInactive => "Account is inactive"
    }

    /** Only the internal error is unexpected. */
    predicate IsOperational() {
      !Internal?
    }

    /** Instances of the 401 family (the unauthorized error and its
        specialisations). */
    predicate IsUnauthorizedKind() {
      Unauthorized? || InvalidCredentials? || TokenExpired? || TokenRevoked? || AccountLocked?
    }

    /** Instances of the 403 family. */
    predicate IsForbiddenKind() {
      Forbidden? || AccountInactive?
    }
  }

  /** Default arguments of the error constructors. */
  const DefaultResource: string := "Resource"
  const DefaultUnauthorized: string := "Unauthorized"
  const DefaultForbidden: string := "Forbidden"
  const DefaultInternal: string := "Internal server error"

  /** The outcome of an operation: a value or one of the tagged errors. */
  datatype Result<+T> = Ok(value: T) | Err(error: AppError)

  /** The machine-readable code identifies the kind: two errors with the same
      code are built by the same constructor. */
  lemma CodeIdentifiesKind(a: AppError, b: AppError)
    requires a.Code() == b.Code()
    ensures a.BadRequest? == b.BadRequest? && a.Validation? == b.Validation?
    ensures a.Unauthorized? == b.Unauthorized? && a.Forbidden? == b.Forbidden?
    ensures a.NotFound? == b.NotFound? && a.Conflict? == b.Conflict?
    ensures a.TooManyRequests? == b.TooManyRequests? && a.Internal? == b.Internal?
    ensures a.InvalidCredentials? == b.InvalidCredentials? && a.TokenExpired? == b.TokenExpired?
    ensures a.TokenRevoked? == b.TokenRevoked? && a.AccountLocked? == b.AccountLocked?
    ensures a.AccountInactive? == b.AccountInactive?
  {
  }

  /** The invalid-credentials error looks the same whatever caused it. */
  lemma InvalidCredentialsIsUniform(e: AppError)
    requires e.InvalidCredentials?
    ensures e.StatusCode() == 401 && e.Code() == "INVALID_CREDENTIALS"
    ensures e.Message() == "Invalid email or password"
  {
  }

  /** A not-found message names its resource, so different resources give
      different messages. */
  lemma NotFoundMessageInjective(r1: string, r2: string)
    requires NotFound(r1).Message() == NotFound(r2).Message()
    ensures r1 == r2
  {
    var m := NotFound(r1).Message();
    assert |r1| == |r2|;
    assert r1 == m[..|r1|] && r2 == m[..|r2|];
  }

  /** The lockout message carries the remaining minutes: it can be read back. */
  lemma LockedMessageInjective(a: int, b: int)
    requires AccountLocked(a).Message() == AccountLocked(b).Message()
    ensures a == b
  {
    var prefix := "Account is locked. Try again in ";
    var suffix := " minutes";
    var sa := Decimal.IntToString(a);
    var sb := Decimal.IntToString(b);
    var m := AccountLocked(a).Message();
    assert m == prefix + sa + suffix;
    assert |sa| == |sb|;
    assert sa == m[|prefix|..|prefix| + |sa|];
    assert sb == m[|prefix|..|prefix| + |sb|];
    Decimal.IntToStringInjective(a, b);
  }
}

=== FILE: fresh_install.dfy ===
/** A fresh installation: the seed run on an empty database, and what the
    resulting store guarantees to the role checks and to the first user who
    registers. */
module FreshInstall {
  import opened Common
  import opened Errors
  import opened Store
  import Seed
  import Rbac
  import Auth
  import Crypto
  import Config
  import Tokens

  /** The state a seeded empty database is in: consistent, the seeded
      administrator as its only user, only system roles, every grant one
      the role specs list, and everything the seed writes on record. */
  predicate Installed(t: Store, admin: User) {
    && Valid(t)
    && t.users == [admin]
    && (forall i :: 0 <= i < |t.roles| ==> t.roles[i].isSystem)
    && Seed.GrantsFollowSpecs(t)
    && Seed.Seeded(t)
  }

  /** Seeding a consistent database with no users and no roles, with
      fresh and pairwise different generated ids, succeeds and installs the
      system. */
  lemma SeedInstalls(s: Store, permissionId: string -> Id, roleId: string -> Id, adminId: Id, digest: string, now: Time)
    requires Valid(s) && Seed.GrantsFollowSpecs(s) && s.users == [] && s.roles == []
    requires Seed.FreshPermissionIds(s.permissions, Seed.PermissionSpecs, permissionId)
    requires Seed.DistinctSystemRoleIds(roleId)
    ensures Seed.RunSeed(s, permissionId, roleId, adminId, digest, now).Ok?
    ensures Installed(Seed.RunSeed(s, permissionId, roleId, adminId, digest, now).value, Seed.AdminUser(adminId, digest, now))
  {
    Seed.SeedSucceeds(s, permissionId, roleId, adminId, digest, now);
    var t := Seed.RunSeed(s, permissionId, roleId, adminId, digest, now).value;
    assert Valid(t) && Seed.GrantsFollowSpecs(t) by {
      assert Valid(s) && Seed.GrantsFollowSpecs(s);
    }
    assert t.users == [Seed.AdminUser(adminId, digest, now)] by {
      assert UserIndexByEmail(s.users, Seed.AdminEmail).None?;
    }
    assert forall i :: 0 <= i < |t.roles| ==> t.roles[i].isSystem by {
      assert |s.roles| == 0;
    }
    assert Seed.Seeded(t) by {
      Seed.SeedEstablishes(s, permissionId, roleId, adminId, digest, now);
    }
  }

  /** Seeding the empty database succeeds whenever the generated ids of
      the permissions, and those of the roles, are pairwise different, and
      installs the system with an active, verified administrator. */
  lemma SeedFromEmpty(permissionId: string -> Id, roleId: string -> Id, adminId: Id, digest: string, now: Time)
    requires Seed.DistinctPermissionIds(Seed.PermissionSpecs, permissionId)
    requires Seed.DistinctSystemRoleIds(roleId)
    ensures Seed.RunSeed(Empty, permissionId, roleId, adminId, digest, now).Ok?
    ensures var t := Seed.RunSeed(Empty, permissionId, roleId, adminId, digest, now).value;
      && Installed(t, Seed.AdminUser(adminId, digest, now))
      && t.users[0].id == adminId && t.users[0].isActive && t.users[0].isVerified
  {
    assert Valid(Empty) && Seed.GrantsFollowSpecs(Empty);
    SeedInstalls(Empty, permissionId, roleId, adminId, digest, now);
  }

  /** The premises can be met: using each name as its id, the seed of the
      empty database succeeds. */
  lemma SeedFromEmptyByName(adminId: Id, digest: string, now: Time)
    ensures Seed.RunSeed(Empty, n => n, n => n, adminId, digest, now).Ok?
  {
    var names := seq(|Seed.PermissionSpecs|, i requires 0 <= i < |Seed.PermissionSpecs| => Seed.PermissionSpecs[i].name);
    assert names == ["user:create", "user:read", "user:update", "user:delete", "role:create", "role:read",
      "role:update", "role:delete", "profile:read", "profile:update", Wildcard];
    assert Seed.DistinctPermissionIds(Seed.PermissionSpecs, n => n) by {
      forall i, j | 0 <= i < j < |Seed.PermissionSpecs|
        ensures Seed.PermissionSpecs[i].name != Seed.PermissionSpecs[j].name
      {
        assert names[i] == Seed.PermissionSpecs[i].name && names[j] == Seed.PermissionSpecs[j].name;
      }
    }
    SeedFromEmpty(n => n, n => n, adminId, digest, now);
  }

  /** On an installed system no role can be deleted, and the only rename
      that goes through is to a role's current name. */
  lemma SystemRolesFixed(t: Store, admin: User, id: Id, newName: string, description: Option<string>)
    requires Installed(t, admin)
    ensures Rbac.DeleteRole(t, id).out.Err? && Rbac.DeleteRole(t, id).store == t
    ensures Rbac.UpdateRole(t, id, Some(newName), description).out.Ok? ==>
      RoleIndex(t.roles, id).Some? && t.roles[RoleIndex(t.roles, id).value].name == newName
  {
  }

  /** On an installed system the administrator holds every permission,
      whatever its name. */
  lemma AdminHasEveryPermission(t: Store, admin: User, name: string)
    requires Installed(t, admin)
    ensures Rbac.HasPermission(t, admin.id, name)
  {
    var k := RoleIndexByName(t.roles, AdminRole).value;
    assert UserIndexByEmail(t.users, Seed.AdminEmail) == Some(0);
    var i :| 0 <= i < |t.userRoles| && t.userRoles[i] == UserRole(admin.id, t.roles[k].id);
    assert Rbac.AssignedRoleNamed(t, admin.id, AdminRole);
    KeysMember(t.users, 0, UserIdOf);
    Rbac.HasPermissionExactly(t, admin.id, name);
  }

  /** On an installed system each system role is granted exactly the
      permissions its spec lists. */
  lemma SystemRoleGrantsExactly(t: Store, admin: User, spec: Seed.RoleSpec, name: string)
    requires Installed(t, admin)
    requires spec == Seed.AdminSpec || spec == Seed.ModeratorSpec || spec == Seed.UserSpec
    ensures RoleIndexByName(t.roles, spec.name).Some?
    ensures Rbac.RoleGrants(t, t.roles[RoleIndexByName(t.roles, spec.name).value].id, name) <==> name in spec.grants
  {
    var rid := t.roles[RoleIndexByName(t.roles, spec.name).value].id;
    if name in spec.grants {
      ListedGrantOnRecord(t, spec, rid, name);
    }
    if Rbac.RoleGrants(t, rid, name) {
      GrantOnRecordListed(t, admin, spec, name);
    }
  }

  /** A seeded role holds every grant its spec lists. */
  lemma ListedGrantOnRecord(t: Store, spec: Seed.RoleSpec, rid: Id, name: string)
    requires Seed.RoleSeeded(t, spec) && rid == t.roles[RoleIndexByName(t.roles, spec.name).value].id
    requires name in spec.grants
    ensures Rbac.RoleGrants(t, rid, name)
  {
    var i :| 0 <= i < |spec.grants| && spec.grants[i] == name;
    assert Seed.Granted(t, rid, spec.grants[i]);
    var m := PermissionIndexByName(t.permissions, name).value;
    var j :| 0 <= j < |t.rolePermissions| && t.rolePermissions[j] == RolePermission(rid, t.permissions[m].id);
  }

  /** On an installed system a grant on record to a system role is one its
      spec lists. */
  lemma GrantOnRecordListed(t: Store, admin: User, spec: Seed.RoleSpec, name: string)
    requires Installed(t, admin)
    requires Seed.SpecNamed(spec.name) == spec && RoleIndexByName(t.roles, spec.name).Some?
    requires Rbac.RoleGrants(t, t.roles[RoleIndexByName(t.roles, spec.name).value].id, name)
    ensures name in spec.grants
  {
    var k := RoleIndexByName(t.roles, spec.name).value;
    var j, m :| 0 <= j < |t.rolePermissions| && 0 <= m < |t.permissions| &&
      t.rolePermissions[j] == RolePermission(t.roles[k].id, t.permissions[m].id) && t.permissions[m].name == name;
    assert Seed.GrantFollowsSpec(t, t.rolePermissions[j]);
    FindPermissionUnique(t.permissions, m);
    FindRoleUnique(t.roles, k);
  }

  /** The first assignments of a user registered on an installed system
      point at the `user` role only. */
  lemma RegisteredUserRole(t: Store, admin: User, t2: Store, newId: Id, i: nat, k: nat)
    requires Installed(t, admin) && newId !in UserIds(t.users)
    requires t2.roles == t.roles && t2.userRoles == t.userRoles + Assignments(newId, Auth.DefaultRoleIds(t))
    requires i < |t2.userRoles| && k < |t2.roles| && t2.userRoles[i] == UserRole(newId, t2.roles[k].id)
    ensures RoleIndexByName(t.roles, DefaultRole) == Some(k)
  {
    var u := RoleIndexByName(t.roles, DefaultRole).value;
    assert t.roles[k].id == t.roles[u].id;
    assert RoleIdOf(t.roles[k]) == RoleIdOf(t.roles[u]);
  }

  /** The facts about a new user given the default-role assignments on an
      installed system. */
  predicate DefaultRoleGiven(t: Store, t2: Store, newId: Id) {
    && newId !in UserIds(t.users) && Valid(t2) && newId in UserIds(t2.users)
    && t2.roles == t.roles && t2.permissions == t.permissions && t2.rolePermissions == t.rolePermissions
    && t2.userRoles == t.userRoles + Assignments(newId, Auth.DefaultRoleIds(t))
  }

  lemma DefaultRoleHolderNotAdmin(t: Store, admin: User, t2: Store, newId: Id)
    requires Installed(t, admin) && DefaultRoleGiven(t, t2, newId)
    ensures !Rbac.AssignedRoleNamed(t2, newId, AdminRole)
  {
    if Rbac.AssignedRoleNamed(t2, newId, AdminRole) {
      var i, k :| 0 <= i < |t2.userRoles| && 0 <= k < |t2.roles| &&
        t2.userRoles[i] == UserRole(newId, t2.roles[k].id) && t2.roles[k].name == AdminRole;
      RegisteredUserRole(t, admin, t2, newId, i, k);
      assert false;
    }
  }

  lemma DefaultRoleHolderGrants(t: Store, admin: User, t2: Store, newId: Id, name: string)
    requires Installed(t, admin) && DefaultRoleGiven(t, t2, newId)
    ensures Rbac.UserGrants(t2, newId, name) <==> name in Seed.UserSpec.grants
  {
    var u := RoleIndexByName(t.roles, DefaultRole).value;
    var urid := t.roles[u].id;
    SystemRoleGrantsExactly(t, admin, Seed.UserSpec, name);
    assert Rbac.RoleGrants(t2, urid, name) <==> Rbac.RoleGrants(t, urid, name);
    if Rbac.UserGrants(t2, newId, name) {
      var i, k :| 0 <= i < |t2.userRoles| && 0 <= k < |t2.roles| &&
        t2.userRoles[i] == UserRole(newId, t2.roles[k].id) && Rbac.RoleGrants(t2, t2.roles[k].id, name);
      RegisteredUserRole(t, admin, t2, newId, i, k);
    }
    if name in Seed.UserSpec.grants {
      assert t2.userRoles[|t.userRoles|] == UserRole(newId, t2.roles[u].id);
    }
  }

  /** A new user given the default-role assignments on an installed
      system holds exactly the permissions of the `user` role. */
  lemma DefaultRoleHolderPermissions(t: Store, admin: User, t2: Store, newId: Id, name: string)
    requires Installed(t, admin) && DefaultRoleGiven(t, t2, newId)
    ensures Rbac.HasPermission(t2, newId, name) <==> name in Seed.UserSpec.grants
  {
    Rbac.HasPermissionExactly(t2, newId, name);
    DefaultRoleHolderNotAdmin(t, admin, t2, newId);
    DefaultRoleHolderGrants(t, admin, t2, newId, name);
    DefaultRoleHolderGrants(t, admin, t2, newId, Wildcard);
  }

  /** A user who registers on an installed system holds exactly the
      permissions of the `user` role: `profile:read` and `profile:update`,
      and nothing else, not `user:read` and not the wildcard. */
  lemma RegisteredUserPermissions(
    t: Store, admin: User, sha: string -> string, random: seq<Crypto.Byte>, newId: Id, digest: string,
    email: string, firstName: Option<string>, lastName: Option<string>,
    device: Tokens.DeviceInfo, now: Time, name: string)
    requires Installed(t, admin) && |random| == Config.RefreshTokenBytes
    requires Auth.Register(t, sha, random, newId, digest, email, firstName, lastName, device, now).out.Ok?
    ensures var t2 := Auth.Register(t, sha, random, newId, digest, email, firstName, lastName, device, now).store;
      Rbac.HasPermission(t2, newId, name) <==> name in Seed.UserSpec.grants
  {
    var t2 := Auth.Register(t, sha, random, newId, digest, email, firstName, lastName, device, now).store;
    KeysMember(t2.users, |t.users|, UserIdOf);
    DefaultRoleHolderPermissions(t, admin, t2, newId, name);
  }
}

=== FILE: guard_wiring.dfy ===
/** The guarded routes as they are mounted: `router.use(authenticate)`
    followed by one of the route guards. `authenticate` attaches the record
    `getById` returns, which holds `userRoles` but neither `roles` nor
    `permissions`; the guards read `req.user.roles`. This module states the
    pipeline as written and the one evidently intended, where the guard
    reads the user's loaded role and permission names. */
module GuardWiring {
  import opened Common
  import opened Errors
  import Store
  import Users
  import Tokens
  import Rbac
  import AuthGate
  import RbacGuards

  /** A guard mounted on a route: `requirePermission(...permissions)`,
      `requireRole(...roles)`, or `requireSelfOrAdmin(param)` together with
      the request's route parameters. */
  datatype Guard =
    | NeedsPermission(permissions: seq<string>)
    | NeedsRole(roles: seq<string>)
    | SelfOrAdmin(params: map<string, string>, param: string)

  /** A guard's decision over a principal. */
  function Decide(principal: Option<RbacGuards.Principal>, g: Guard): Result<()> {
    match g
    case NeedsPermission(ps) => RbacGuards.RequirePermission(principal, ps)
    case NeedsRole(rs) => RbacGuards.RequireRole(principal, rs)
    case SelfOrAdmin(params, param) => RbacGuards.RequireSelfOrAdmin(principal, params, param)
  }

  /** The error handler's answer to an error that is not an application
      error, here the `TypeError` of calling `includes` on an undefined
      `roles` (the production message). */
  const UndefinedRoles: AppError := Internal(DefaultInternal)

  /** As written: a guard run on the record `authenticate` attaches. Every
      guard reads `req.user.roles.includes` before deciding, which throws;
      only `requireRole()` with no roles never reads it and refuses. */
  function DecideOnRecord(user: Option<Users.UserWithRoles>, g: Guard): (r: Result<()>)
    ensures user.None? ==> r == Err(RbacGuards.AuthenticationRequired)
    ensures user.Some? ==> r.Err?
    ensures user.Some? ==> (r.error.StatusCode() == 500 <==> !(g.NeedsRole? && |g.roles| == 0))
  {
    match user
    case None => Err(RbacGuards.AuthenticationRequired)
    case Some(_) =>
      if g.NeedsRole? && |g.roles| == 0 then Err(Forbidden("Required role: " + RbacGuards.Join(g.roles, " or ")))
      else Err(UndefinedRoles)
  }

  /** As written: `authenticate`, then the guard on what it attached. */
  function GuardedAsWritten(s: Store.Store, header: Option<string>, jwt: string -> Tokens.JwtOutcome, g: Guard): Result<()> {
    match AuthGate.Authenticate(s, header, jwt)
    case Err(e) => Err(e)
    case Ok(a) => DecideOnRecord(a.user, g)
  }

  /** As written, no authenticated request ever passes a guard: each one is
      answered with a 500 (or, for `requireRole()` with no roles, refused). */
  lemma GuardsRefuseAuthenticatedRequests(s: Store.Store, header: Option<string>, jwt: string -> Tokens.JwtOutcome, g: Guard)
    requires AuthGate.Authenticate(s, header, jwt).Ok?
    ensures GuardedAsWritten(s, header, jwt, g).Err?
    ensures GuardedAsWritten(s, header, jwt, g).error.StatusCode() == 500 <==> !(g.NeedsRole? && |g.roles| == 0)
  {
  }

  /** Intended: `authenticate`, then the guard on the authenticated user's
      principal. */
  function Guarded(s: Store.Store, header: Option<string>, jwt: string -> Tokens.JwtOutcome, g: Guard): (r: Result<()>)
    ensures AuthGate.Authenticate(s, header, jwt).Err? ==> r == Err(AuthGate.Authenticate(s, header, jwt).error)
    ensures AuthGate.Authenticate(s, header, jwt).Ok? && g.NeedsPermission? ==>
      var uid := AuthGate.Authenticate(s, header, jwt).value.user.value.user.id;
      (r.Ok? <==> Store.AdminRole in Store.RoleNamesOf(s, uid) || RbacGuards.AnyIn(g.permissions, Store.PermissionNamesOf(s, uid)))
    ensures AuthGate.Authenticate(s, header, jwt).Ok? && g.NeedsRole? ==>
      var uid := AuthGate.Authenticate(s, header, jwt).value.user.value.user.id;
      (r.Ok? <==> RbacGuards.AnyIn(g.roles, Store.RoleNamesOf(s, uid)))
    ensures AuthGate.Authenticate(s, header, jwt).Ok? && g.SelfOrAdmin? ==>
      var uid := AuthGate.Authenticate(s, header, jwt).value.user.value.user.id;
      (r.Ok? <==> Store.AdminRole in Store.RoleNamesOf(s, uid) || (g.param in g.params && g.params[g.param] == uid))
  {
    match AuthGate.Authenticate(s, header, jwt)
    case Err(e) => Err(e)
    case Ok(a) => Decide(Some(RbacGuards.PrincipalOf(s, a.user.value.user.id)), g)
  }

  /** Intended: a request that passes a permission guard is one the
      service's `hasPermission` allows for some listed permission. */
  lemma GuardedAgreesWithService(s: Store.Store, header: Option<string>, jwt: string -> Tokens.JwtOutcome, permissions: seq<string>)
    requires AuthGate.Authenticate(s, header, jwt).Ok?
    requires |permissions| > 0
    requires Guarded(s, header, jwt, NeedsPermission(permissions)).Ok?
    ensures var uid := AuthGate.Authenticate(s, header, jwt).value.user.value.user.id;
      exists i :: 0 <= i < |permissions| && Rbac.HasPermission(s, uid, permissions[i])
  {
    var uid := AuthGate.Authenticate(s, header, jwt).value.user.value.user.id;
    assert Store.UserExists(s, uid);
    if Store.AdminRole in Store.RoleNamesOf(s, uid) {
      assert Rbac.HasPermission(s, uid, permissions[0]);
    } else {
      var i :| 0 <= i < |permissions| && permissions[i] in Store.PermissionNamesOf(s, uid);
      assert Rbac.HasPermission(s, uid, permissions[i]);
    }
  }

  /** The discrepancy on one request: an active administrator with a valid
      token asks for `GET /users` (guarded by `requirePermission('user:read')`).
      As written the answer is a 500; as intended the request passes. */
  lemma AdminListingUsers()
    ensures var s := Store.Empty.(
        users := [Store.User("u1", "admin@example.com", None, None, None, true, true, None, None, 0)],
        roles := [Store.Role("r1", Store.AdminRole, None, true)],
        userRoles := [Store.UserRole("u1", "r1")]);
      var jwt := (t: string) => Tokens.Verified(Tokens.Claims("u1", "admin@example.com", [Store.AdminRole], [], "iss", 0, 1));
      && GuardedAsWritten(s, Some("Bearer t"), jwt, NeedsPermission(["user:read"])) == Err(Internal(DefaultInternal))
      && Guarded(s, Some("Bearer t"), jwt, NeedsPermission(["user:read"])) == Ok(())
  {
    var s := Store.Empty.(
        users := [Store.User("u1", "admin@example.com", None, None, None, true, true, None, None, 0)],
        roles := [Store.Role("r1", Store.AdminRole, None, true)],
        userRoles := [Store.UserRole("u1", "r1")]);
    var jwt := (t: string) => Tokens.Verified(Tokens.Claims("u1", "admin@example.com", [Store.AdminRole], [], "iss", 0, 1));
    assert AuthGate.ExtractBearerToken(Some("Bearer t")) == Some("t");
    assert Store.UserIdOf(s.users[0]) == "u1";
    assert Store.RoleIdOf(s.roles[0]) == "r1";
    assert Store.FindRole(s.roles, "r1") == Some(s.roles[0]);
    assert Store.RolesVia(s.userRoles[1..], s.roles, "u1") == [];
    assert Store.AssignedRoles(s, "u1") == [s.roles[0]];
    assert Store.RoleNamesOf(s, "u1") == [Store.AdminRole];
    assert AuthGate.Authenticate(s, Some("Bearer t"), jwt).Ok?;
  }
}

=== FILE: oauth.dfy ===
/** Social sign-in. The provider's code exchange is not modelled: its
    answer, a `Profile`, is an input. The callback then takes one of three
    branches: an account already linked to the provider identity signs its
    user in; otherwise a user with the profile's email gets the identity
    linked; otherwise a new, verified, password-less user is created with
    the default role and the linked account. */
module OAuth {
  import opened Common
  import opened Errors
  import opened Store
  import Crypto
  import Config
  import Tokens
  import Auth

  datatype Provider = Google | GitHub {
    function Name(): string {
      match this
      case Google => "google"
      case GitHub => "github"
    }
  }

  /** What the provider reports about the signed-in person. */
  datatype Profile = Profile(id: string, email: string, firstName: Option<string>, lastName: Option<string>)

  const AccountKind: string := "oauth"

  /** The linked-account record for a provider identity. */
  function LinkFor(uid: Id, provider: Provider, profile: Profile): Account {
    Account(uid, provider.Name(), profile.id, AccountKind)
  }

  /** The user the third branch creates: verified, active, without a
      password hash. */
  function SocialUser(id: Id, profile: Profile, now: Time): (u: User)
    ensures u.isVerified && u.isActive && u.passwordHash.None?
    ensures u.email == profile.email && u.firstName == profile.firstName && u.lastName == profile.lastName
  {
    User(id, profile.email, None, profile.firstName, profile.lastName, true, true, None, None, now)
  }

  /** Issues tokens for `u`: role names as assigned, permissions
      de-duplicated in the token and in the sanitized user. */
  function Issue(
    s: Store, sha: string -> string, random: seq<Crypto.Byte>, u: User, device: Tokens.DeviceInfo, now: Time
  ): (st: Step<Auth.AuthResponse>)
    requires |random| == Config.RefreshTokenBytes
    ensures st.out.Ok? ==>
      && st.out.value.user == Auth.SanitizeUser(u, RoleNamesOf(s, u.id), PermissionNamesOf(s, u.id))
      && st.out.value.tokens.access.sub == u.id
      && st.out.value.tokens.access.roles == RoleNamesOf(s, u.id)
      && st.out.value.tokens.access.permissions == Dedup(PermissionNamesOf(s, u.id))
      && Crypto.HexDecode(st.out.value.tokens.refreshToken) == Some(random)
      && st.store == s.(refreshTokens := s.refreshTokens + [Tokens.NewRefreshRecord(u.id, sha(st.out.value.tokens.refreshToken), device, now)])
    ensures st.out.Err? ==> st.store == s && st.out.error.Internal?
    ensures st.out.Ok? <==>
      u.id in UserIds(s.users) && sha(Crypto.GenerateSecureToken(random)) !in Keys(s.refreshTokens, RefreshHashOf)
    ensures st.store == s.(refreshTokens := st.store.refreshTokens)
    ensures Valid(s) ==> Valid(st.store)
  {
    var roles := RoleNamesOf(s, u.id);
    var perms := PermissionNamesOf(s, u.id);
    var t := Tokens.GenerateTokenPair(s, sha, random, u.id, u.email, roles, Dedup(perms), device, now);
    match t.out
    case Err(e) => Step(t.store, Err(e))
    case Ok(pair) => Step(t.store, Ok(Auth.AuthResponse(Auth.SanitizeUser(u, roles, perms), pair)))
  }

  /** Creates the social user, its default-role assignment and its linked
      account in one statement: all or nothing. */
  function CreateSocialUser(s: Store, u: User, link: Account): (r: Result<Store>)
    requires link.userId == u.id
    ensures r.Ok? ==>
      && r.value.users == s.users + [u]
      && r.value.userRoles == s.userRoles + Assignments(u.id, Auth.DefaultRoleIds(s))
      && r.value.accounts == s.accounts + [link]
      && r.value == s.(users := r.value.users, userRoles := r.value.userRoles, accounts := r.value.accounts)
    ensures r.Err? ==> r.error.Internal?
    ensures Valid(s) ==> (r.Ok? <==>
      u.id !in UserIds(s.users) && !EmailTaken(s, u.email) && AccountKeyOf(link) !in Keys(s.accounts, AccountKeyOf))
    ensures r.Ok? && Valid(s) ==> Valid(r.value)
  {
    match InsertUser(s, u)
    case Err(e) => Err(e)
    case Ok(s1) =>
      assert Valid(s) ==> Assignable(s1, u.id, Auth.DefaultRoleIds(s)) by {
        if Valid(s) {
          KeysMember(s1.users, |s.users|, UserIdOf);
          Auth.DefaultRoleAssignable(s, s1, u.id);
        }
      }
      match InsertUserRoles(s1, u.id, Auth.DefaultRoleIds(s))
      case Err(e) => Err(e)
      case Ok(s2) =>
        KeysAppend(s.users, u, UserIdOf);
        KeysMember(s2.users, |s.users|, UserIdOf);
        InsertAccount(s2, link)
  }

  /** `handleOAuthCallback` after the code exchange. */
  function HandleOAuthCallback(
    s: Store, sha: string -> string, random: seq<Crypto.Byte>, provider: Provider, profile: Profile,
    newId: Id, device: Tokens.DeviceInfo, now: Time
  ): (st: Step<Auth.AuthResponse>)
    requires |random| == Config.RefreshTokenBytes
    // An identity already linked: no user, assignment or account is written.
    ensures AccountIndex(s.accounts, provider.Name(), profile.id).Some? ==>
      && st.store.users == s.users && st.store.accounts == s.accounts && st.store.userRoles == s.userRoles
      && (st.out.Ok? ==> st.out.value.user.id == s.accounts[AccountIndex(s.accounts, provider.Name(), profile.id).value].userId)
    // A new identity for a known email: exactly one account is linked to that user.
    ensures AccountIndex(s.accounts, provider.Name(), profile.id).None? && UserIndexByEmail(s.users, profile.email).Some? ==>
      var u := s.users[UserIndexByEmail(s.users, profile.email).value];
      && st.store.users == s.users && st.store.userRoles == s.userRoles
      && (st.out.Ok? ==> st.store.accounts == s.accounts + [LinkFor(u.id, provider, profile)] && st.out.value.user.id == u.id)
    // A new identity and a new email: a verified user without a password, the default role and one account.
    ensures AccountIndex(s.accounts, provider.Name(), profile.id).None? && UserIndexByEmail(s.users, profile.email).None? ==>
      var u := SocialUser(newId, profile, now);
      st.out.Ok? ==>
        && st.store.users == s.users + [u]
        && st.store.userRoles == s.userRoles + Assignments(newId, Auth.DefaultRoleIds(s))
        && st.store.accounts == s.accounts + [LinkFor(newId, provider, profile)]
        && st.out.value.user.id == newId && st.out.value.user.isVerified
    ensures st.out.Ok? ==>
      && st.out.value.tokens.access.sub == st.out.value.user.id
      && st.out.value.tokens.access.roles == RoleNamesOf(st.store, st.out.value.user.id)
      && st.out.value.tokens.access.permissions == Dedup(PermissionNamesOf(st.store, st.out.value.user.id))
      && st.out.value.user.permissions == Dedup(PermissionNamesOf(st.store, st.out.value.user.id))
    // The refresh half of the pair is the hex of `random`, stored only as its hash for the signed-in user.
    ensures st.out.Ok? ==>
      && Crypto.HexDecode(st.out.value.tokens.refreshToken) == Some(random)
      && st.store.refreshTokens ==
           s.refreshTokens + [Tokens.NewRefreshRecord(st.out.value.user.id, sha(st.out.value.tokens.refreshToken), device, now)]
    ensures st.out.Err? ==> st.store.refreshTokens == s.refreshTokens
    ensures st.out.Err? ==> st.out.error.Internal?
    // On a consistent store only a reused token hash, or a new user's taken id, makes the callback fail.
    ensures Valid(s) ==> (st.out.Ok? <==>
      && sha(Crypto.GenerateSecureToken(random)) !in Keys(s.refreshTokens, RefreshHashOf)
      && ((AccountIndex(s.accounts, provider.Name(), profile.id).None? && UserIndexByEmail(s.users, profile.email).None?)
          ==> newId !in UserIds(s.users)))
    ensures st.store.attempts == s.attempts && st.store.roles == s.roles && st.store.rolePermissions == s.rolePermissions
    ensures st.store.permissions == s.permissions && st.store.resetTokens == s.resetTokens
    ensures Valid(s) ==> Valid(st.store)
  {
    match AccountIndex(s.accounts, provider.Name(), profile.id)
    case Some(a) =>
      assert Valid(s) ==> s.accounts[a].userId in UserIds(s.users);
      (match UserIndex(s.users, s.accounts[a].userId)
       case None => Step(s, Err(RecordMissing))
       case Some(k) => Issue(s, sha, random, s.users[k], device, now))
    case None =>
      match UserIndexByEmail(s.users, profile.email)
      case Some(k) =>
        KeysMember(s.users, k, UserIdOf);
        (match InsertAccount(s, LinkFor(s.users[k].id, provider, profile))
         case Err(e) => Step(s, Err(e))
         case Ok(s1) =>
           var r := Issue(s1, sha, random, s.users[k], device, now);
           ResolutionFrame(s1, r.store, s.users[k].id);
           r)
      case None =>
        var u := SocialUser(newId, profile, now);
        match CreateSocialUser(s, u, LinkFor(newId, provider, profile))
        case Err(e) => Step(s, Err(e))
        case Ok(s1) =>
          KeysMember(s1.users, |s.users|, UserIdOf);
          var r := Issue(s1, sha, random, u, device, now);
          ResolutionFrame(s1, r.store, newId);
          r
  }

  /** After a successful callback the identity is linked to the user it
      signed in. */
  lemma CallbackLinks(
    s: Store, sha: string -> string, random: seq<Crypto.Byte>, provider: Provider, profile: Profile,
    newId: Id, device: Tokens.DeviceInfo, now: Time)
    requires |random| == Config.RefreshTokenBytes
    requires Valid(s)
    requires HandleOAuthCallback(s, sha, random, provider, profile, newId, device, now).out.Ok?
    ensures var first := HandleOAuthCallback(s, sha, random, provider, profile, newId, device, now);
      && AccountIndex(first.store.accounts, provider.Name(), profile.id).Some?
      && first.store.accounts[AccountIndex(first.store.accounts, provider.Name(), profile.id).value].userId
         == first.out.value.user.id
  {
    var first := HandleOAuthCallback(s, sha, random, provider, profile, newId, device, now);
    if AccountIndex(s.accounts, provider.Name(), profile.id).None? {
      var link := first.store.accounts[|s.accounts|];
      AccountIndexAppend(s.accounts, link);
    }
  }

  /** Signing in again with the same identity takes the first branch: it
      names the same user and writes no user, assignment or account. */
  lemma SecondCallbackSignsIn(
    s: Store, sha: string -> string, r1: seq<Crypto.Byte>, r2: seq<Crypto.Byte>, provider: Provider, profile: Profile,
    id1: Id, id2: Id, device: Tokens.DeviceInfo, now: Time, later: Time)
    requires |r1| == Config.RefreshTokenBytes && |r2| == Config.RefreshTokenBytes
    requires Valid(s)
    requires HandleOAuthCallback(s, sha, r1, provider, profile, id1, device, now).out.Ok?
    ensures var first := HandleOAuthCallback(s, sha, r1, provider, profile, id1, device, now);
      var second := HandleOAuthCallback(first.store, sha, r2, provider, profile, id2, device, later);
      && second.store.users == first.store.users
      && second.store.accounts == first.store.accounts
      && second.store.userRoles == first.store.userRoles
      && (second.out.Ok? ==> second.out.value.user.id == first.out.value.user.id)
  {
    CallbackLinks(s, sha, r1, provider, profile, id1, device, now);
  }

  /** Social sign-in does not look at `isActive`: a deactivated user whose
      identity is linked still receives tokens, where password login would
      refuse them. */
  lemma InactiveUserStillSignsIn(sha: string -> string, random: seq<Crypto.Byte>, device: Tokens.DeviceInfo, now: Time)
    requires |random| == Config.RefreshTokenBytes
    ensures var u := User("u1", "a@example.com", None, None, None, false, true, None, None, 0);
      var s := Empty.(users := [u], accounts := [Account("u1", "google", "g-1", AccountKind)]);
      HandleOAuthCallback(s, sha, random, Google, Profile("g-1", "a@example.com", None, None), "u2", device, now).out.Ok?
  {
    var u := User("u1", "a@example.com", None, None, None, false, true, None, None, 0);
    var s := Empty.(users := [u], accounts := [Account("u1", "google", "g-1", AccountKind)]);
    assert AccountKeyOf(s.accounts[0]) == ("google", "g-1");
    assert AccountIndex(s.accounts, "google", "g-1") == Some(0);
    assert UserIdOf(s.users[0]) == "u1";
    assert UserIndex(s.users, "u1") == Some(0);
    assert UserIds(s.users) == ["u1"];
    assert Keys(s.refreshTokens, RefreshHashOf) == [];
  }
}

=== FILE: rbac.dfy ===
/** The RBAC service: permission and role checks against the stored
    assignments, and the guarded role CRUD. */
module Rbac {
  import opened Common
  import opened Errors
  import opened Store

  // ---------------------------------------------------------------------
  // Relational reading of the assignment tables

  /** `uid` is assigned a role named `name`. */
  predicate AssignedRoleNamed(s: Store, uid: Id, name: string) {
    exists i, k :: 0 <= i < |s.userRoles| && 0 <= k < |s.roles| &&
      s.userRoles[i] == UserRole(uid, s.roles[k].id) && s.roles[k].name == name
  }

  /** Role `rid` is granted a permission named `name`. */
  predicate RoleGrants(s: Store, rid: Id, name: string) {
    exists j, m :: 0 <= j < |s.rolePermissions| && 0 <= m < |s.permissions| &&
      s.rolePermissions[j] == RolePermission(rid, s.permissions[m].id) && s.permissions[m].name == name
  }

  /** Some role assigned to `uid` is granted a permission named `name`. */
  predicate UserGrants(s: Store, uid: Id, name: string) {
    exists i, k :: 0 <= i < |s.userRoles| && 0 <= k < |s.roles| &&
      s.userRoles[i] == UserRole(uid, s.roles[k].id) && RoleGrants(s, s.roles[k].id, name)
  }

  lemma RoleNamesSound(s: Store, uid: Id, name: string)
    requires name in RoleNamesOf(s, uid)
    ensures AssignedRoleNamed(s, uid, name)
  {
    var rs := AssignedRoles(s, uid);
    var p :| 0 <= p < |rs| && RoleNamesOf(s, uid)[p] == name;
    RolesViaMember(s.userRoles, s.roles, uid, rs[p]);
    var i :| 0 <= i < |s.userRoles| && s.userRoles[i].userId == uid && FindRole(s.roles, s.userRoles[i].roleId) == Some(rs[p]);
    var k :| 0 <= k < |s.roles| && s.roles[k] == rs[p];
    assert s.userRoles[i] == UserRole(uid, s.roles[k].id);
  }

  lemma RoleNamesComplete(s: Store, uid: Id, name: string)
    requires UniqueBy(s.roles, RoleIdOf)
    requires AssignedRoleNamed(s, uid, name)
    ensures name in RoleNamesOf(s, uid)
  {
    var rs := AssignedRoles(s, uid);
    var i, k :| 0 <= i < |s.userRoles| && 0 <= k < |s.roles| &&
      s.userRoles[i] == UserRole(uid, s.roles[k].id) && s.roles[k].name == name;
    FindRoleUnique(s.roles, k);
    RolesViaMember(s.userRoles, s.roles, uid, s.roles[k]);
    var p :| 0 <= p < |rs| && rs[p] == s.roles[k];
    assert RoleNamesOf(s, uid)[p] == name;
  }

  /** The role names loaded with a user are exactly the names of the roles
      the join table assigns to it. */
  lemma RoleNamesExactly(s: Store, uid: Id, name: string)
    requires UniqueBy(s.roles, RoleIdOf)
    ensures name in RoleNamesOf(s, uid) <==> AssignedRoleNamed(s, uid, name)
  {
    if name in RoleNamesOf(s, uid) {
      RoleNamesSound(s, uid, name);
    }
    if AssignedRoleNamed(s, uid, name) {
      RoleNamesComplete(s, uid, name);
    }
  }

  /** The permission names loaded with a role are exactly those the join
      table grants it. */
  lemma RolePermissionNamesExactly(s: Store, rid: Id, name: string)
    requires UniqueBy(s.permissions, PermissionIdOf)
    ensures name in PermissionNamesVia(s.rolePermissions, s.permissions, rid) <==> RoleGrants(s, rid, name)
  {
    PermissionNamesViaMember(s.rolePermissions, s.permissions, rid, name);
    if name in PermissionNamesVia(s.rolePermissions, s.permissions, rid) {
      var j :| 0 <= j < |s.rolePermissions| && s.rolePermissions[j].roleId == rid
        && HoldsName(s.permissions, s.rolePermissions[j].permissionId, name);
      var p := FindPermission(s.permissions, s.rolePermissions[j].permissionId).value;
      var m :| 0 <= m < |s.permissions| && s.permissions[m] == p;
      assert s.rolePermissions[j] == RolePermission(rid, s.permissions[m].id);
    }
    if RoleGrants(s, rid, name) {
      var j, m :| 0 <= j < |s.rolePermissions| && 0 <= m < |s.permissions| &&
        s.rolePermissions[j] == RolePermission(rid, s.permissions[m].id) && s.permissions[m].name == name;
      FindPermissionUnique(s.permissions, m);
      assert HoldsName(s.permissions, s.rolePermissions[j].permissionId, name);
    }
  }

  lemma PermissionNamesSound(s: Store, uid: Id, name: string)
    requires UniqueBy(s.permissions, PermissionIdOf)
    requires name in PermissionNamesOf(s, uid)
    ensures UserGrants(s, uid, name)
  {
    var rs := AssignedRoles(s, uid);
    PermissionNamesOfRolesMember(s.rolePermissions, s.permissions, rs, name);
    var p :| 0 <= p < |rs| && name in PermissionNamesVia(s.rolePermissions, s.permissions, rs[p].id);
    RolesViaMember(s.userRoles, s.roles, uid, rs[p]);
    var i :| 0 <= i < |s.userRoles| && s.userRoles[i].userId == uid && FindRole(s.roles, s.userRoles[i].roleId) == Some(rs[p]);
    var k :| 0 <= k < |s.roles| && s.roles[k] == rs[p];
    RolePermissionNamesExactly(s, rs[p].id, name);
    assert s.userRoles[i] == UserRole(uid, s.roles[k].id);
  }

  lemma PermissionNamesComplete(s: Store, uid: Id, name: string)
    requires UniqueBy(s.roles, RoleIdOf) && UniqueBy(s.permissions, PermissionIdOf)
    requires UserGrants(s, uid, name)
    ensures name in PermissionNamesOf(s, uid)
  {
    var i, k :| 0 <= i < |s.userRoles| && 0 <= k < |s.roles| &&
      s.userRoles[i] == UserRole(uid, s.roles[k].id) && RoleGrants(s, s.roles[k].id, name);
    AssignedRoleLoaded(s, uid, i, k);
    RolePermissionNamesExactly(s, s.roles[k].id, name);
    RoleNamesFeed(s.rolePermissions, s.permissions, AssignedRoles(s, uid), s.roles[k], name);
  }

  /** A role the join table assigns to `uid` is loaded with the user. */
  lemma AssignedRoleLoaded(s: Store, uid: Id, i: nat, k: nat)
    requires UniqueBy(s.roles, RoleIdOf)
    requires i < |s.userRoles| && k < |s.roles| && s.userRoles[i] == UserRole(uid, s.roles[k].id)
    ensures s.roles[k] in AssignedRoles(s, uid)
  {
    FindRoleUnique(s.roles, k);
    RolesViaMember(s.userRoles, s.roles, uid, s.roles[k]);
  }

  /** The names granted to a loaded role are among the loaded names. */
  lemma RoleNamesFeed(rps: seq<RolePermission>, ps: seq<Permission>, rs: seq<Role>, r: Role, name: string)
    requires r in rs && name in PermissionNamesVia(rps, ps, r.id)
    ensures name in PermissionNamesOfRoles(rps, ps, rs)
  {
    var p :| 0 <= p < |rs| && rs[p] == r;
    PermissionNamesOfRolesMember(rps, ps, rs, name);
  }

  /** The permission names loaded with a user are exactly those granted to
      one of its roles. */
  lemma PermissionNamesExactly(s: Store, uid: Id, name: string)
    requires UniqueBy(s.roles, RoleIdOf) && UniqueBy(s.permissions, PermissionIdOf)
    ensures name in PermissionNamesOf(s, uid) <==> UserGrants(s, uid, name)
  {
    if name in PermissionNamesOf(s, uid) {
      PermissionNamesSound(s, uid, name);
    }
    if UserGrants(s, uid, name) {
      PermissionNamesComplete(s, uid, name);
    }
  }

  // ---------------------------------------------------------------------
  // Checks

  /** `hasPermission`: false for an unknown user; true for any holder of
      the `admin` role; otherwise true when a loaded permission is the one
      asked for or the `*:*` wildcard. */
  function HasPermission(s: Store, uid: Id, name: string): (b: bool)
    ensures !UserExists(s, uid) ==> !b
    ensures UserExists(s, uid) && AdminRole in RoleNamesOf(s, uid) ==> b
    ensures b ==> UserExists(s, uid)
    ensures b <==> (UserExists(s, uid) &&
      (AdminRole in RoleNamesOf(s, uid) || name in PermissionNamesOf(s, uid) || Wildcard in PermissionNamesOf(s, uid)))
  {
    if UserIndex(s.users, uid).None? then false
    else if AdminRole in RoleNamesOf(s, uid) then true
    else name in PermissionNamesOf(s, uid) || Wildcard in PermissionNamesOf(s, uid)
  }

  /** On a consistent store, `hasPermission` is the relational rule: the
      user exists and is assigned the admin role, or one of its roles is
      granted the permission itself or the wildcard. */
  lemma HasPermissionExactly(s: Store, uid: Id, name: string)
    requires Valid(s)
    ensures HasPermission(s, uid, name) <==>
      UserExists(s, uid) &&
      (AssignedRoleNamed(s, uid, AdminRole) || UserGrants(s, uid, name) || UserGrants(s, uid, Wildcard))
  {
    RoleNamesExactly(s, uid, AdminRole);
    PermissionNamesExactly(s, uid, name);
    PermissionNamesExactly(s, uid, Wildcard);
  }

  /** `hasAnyPermission`: checks the names in order and stops at the first
      granted one; an empty list is never granted. */
  method HasAnyPermission(s: Store, uid: Id, names: seq<string>) returns (b: bool)
    ensures b <==> exists i :: 0 <= i < |names| && HasPermission(s, uid, names[i])
    ensures |names| == 0 ==> !b
  {
    var i := 0;
    while i < |names|
      invariant 0 <= i <= |names|
      invariant forall j :: 0 <= j < i ==> !HasPermission(s, uid, names[j])
    {
      if HasPermission(s, uid, names[i]) {
        return true;
      }
      i := i + 1;
    }
    return false;
  }

  /** The assignment `ur` gives `uid` a role named `roleName`. */
  predicate PointsAtRoleNamed(s: Store, ur: UserRole, uid: Id, roleName: string) {
    ur.userId == uid && FindRole(s.roles, ur.roleId).Some? && FindRole(s.roles, ur.roleId).value.name == roleName
  }

  /** `hasRole`: some assignment of the user points at a role of that name. */
  function HasRole(s: Store, uid: Id, roleName: string): (b: bool)
    ensures b <==> exists i :: 0 <= i < |s.userRoles| && PointsAtRoleNamed(s, s.userRoles[i], uid, roleName)
  {
    Find(s.userRoles, (ur: UserRole) => PointsAtRoleNamed(s, ur, uid, roleName)).Some?
  }

  /** `hasRole` agrees with the role names loaded with the user. */
  lemma HasRoleExactly(s: Store, uid: Id, roleName: string)
    requires UniqueBy(s.roles, RoleIdOf)
    ensures HasRole(s, uid, roleName) <==> roleName in RoleNamesOf(s, uid)
  {
    RoleNamesExactly(s, uid, roleName);
    if AssignedRoleNamed(s, uid, roleName) {
      AssignedRoleIsFound(s, uid, roleName);
    }
    if HasRole(s, uid, roleName) {
      FoundRoleIsAssigned(s, uid, roleName);
    }
  }

  lemma AssignedRoleIsFound(s: Store, uid: Id, roleName: string)
    requires UniqueBy(s.roles, RoleIdOf) && AssignedRoleNamed(s, uid, roleName)
    ensures HasRole(s, uid, roleName)
  {
    var i, k :| 0 <= i < |s.userRoles| && 0 <= k < |s.roles| &&
      s.userRoles[i] == UserRole(uid, s.roles[k].id) && s.roles[k].name == roleName;
    FindRoleUnique(s.roles, k);
    assert PointsAtRoleNamed(s, s.userRoles[i], uid, roleName);
  }

  lemma FoundRoleIsAssigned(s: Store, uid: Id, roleName: string)
    requires HasRole(s, uid, roleName)
    ensures AssignedRoleNamed(s, uid, roleName)
  {
    var i :| 0 <= i < |s.userRoles| && PointsAtRoleNamed(s, s.userRoles[i], uid, roleName);
    var r := FindRole(s.roles, s.userRoles[i].roleId).value;
    var k :| 0 <= k < |s.roles| && s.roles[k] == r;
    assert s.userRoles[i] == UserRole(uid, s.roles[k].id);
  }

  // ---------------------------------------------------------------------
  // Role CRUD

  /** A role with its granted permissions, as `getRoleById` returns it. */
  datatype RoleView = RoleView(role: Role, permissions: seq<Permission>)

  function PermissionsOfRole(rps: seq<RolePermission>, ps: seq<Permission>, rid: Id): seq<Permission> {
    if |rps| == 0 then []
    else
      var head := if rps[0].roleId == rid then FindPermission(ps, rps[0].permissionId) else None;
      (if head.Some? then [head.value] else []) + PermissionsOfRole(rps[1..], ps, rid)
  }

  lemma {:induction false} PermissionsOfRoleMember(rps: seq<RolePermission>, ps: seq<Permission>, rid: Id, p: Permission)
    ensures p in PermissionsOfRole(rps, ps, rid) <==>
      exists j :: 0 <= j < |rps| && rps[j].roleId == rid && FindPermission(ps, rps[j].permissionId) == Some(p)
  {
    if |rps| > 0 {
      PermissionsOfRoleMember(rps[1..], ps, rid, p);
      if exists j :: 0 <= j < |rps[1..]| && rps[1..][j].roleId == rid && FindPermission(ps, rps[1..][j].permissionId) == Some(p) {
        var j :| 0 <= j < |rps[1..]| && rps[1..][j].roleId == rid && FindPermission(ps, rps[1..][j].permissionId) == Some(p);
        assert rps[j + 1] == rps[1..][j];
      }
      if exists j :: 0 <= j < |rps| && rps[j].roleId == rid && FindPermission(ps, rps[j].permissionId) == Some(p) {
        var j :| 0 <= j < |rps| && rps[j].roleId == rid && FindPermission(ps, rps[j].permissionId) == Some(p);
        if j > 0 {
          assert rps[1..][j - 1] == rps[j];
        }
      }
    }
  }

  /** `getRoleById`: the role and the permissions granted to it, or
      NotFound('Role'). */
  function GetRoleById(s: Store, id: Id): (r: Result<RoleView>)
    ensures r.Err? <==> id !in RoleIds(s.roles)
    ensures r.Err? ==> r.error == NotFound("Role")
    ensures r.Ok? ==> r.value.role in s.roles && r.value.role.id == id
    ensures r.Ok? ==> forall p :: p in r.value.permissions <==>
      exists j :: 0 <= j < |s.rolePermissions| && s.rolePermissions[j].roleId == id
        && FindPermission(s.permissions, s.rolePermissions[j].permissionId) == Some(p)
  {
    match FindRole(s.roles, id)
    case None => Err(NotFound("Role"))
    case Some(role) =>
      var ps := PermissionsOfRole(s.rolePermissions, s.permissions, id);
      assert forall p :: p in ps <==>
        exists j :: 0 <= j < |s.rolePermissions| && s.rolePermissions[j].roleId == id
          && FindPermission(s.permissions, s.rolePermissions[j].permissionId) == Some(p) by {
        forall p {
          PermissionsOfRoleMember(s.rolePermissions, s.permissions, id, p);
        }
      }
      Ok(RoleView(role, ps))
  }

  /** The permission ids a role is created with: none when absent. */
  function GivenIds(permissionIds: Option<seq<Id>>): seq<Id> {
    if permissionIds.Some? then permissionIds.value else []
  }

  /** `createRole`: refuses a taken name; otherwise creates a non-system
      role with one grant per given permission id, all or nothing. */
  function CreateRole(s: Store, newId: Id, name: string, description: Option<string>, permissionIds: Option<seq<Id>>): (st: Step<Role>)
    ensures RoleIndexByName(s.roles, name).Some? ==> st == Step(s, Err(Conflict("Role already exists")))
    ensures st.out.Err? ==> st.store == s
    ensures st.out.Err? && RoleIndexByName(s.roles, name).None? ==> st.out.error.Internal?
    ensures st.out.Ok? ==>
      var pids := if permissionIds.Some? then permissionIds.value else [];
      && st.out.value == Role(newId, name, description, false)
      && st.store == s.(roles := s.roles + [st.out.value],
                        rolePermissions := s.rolePermissions + GrantList(newId, pids))
    ensures Valid(s) ==> (st.out.Ok? <==>
      && RoleIndexByName(s.roles, name).None?
      && newId !in RoleIds(s.roles)
      && Distinct(GivenIds(permissionIds))
      && forall i :: 0 <= i < |GivenIds(permissionIds)| ==> GivenIds(permissionIds)[i] in PermissionIds(s.permissions))
    ensures Valid(s) ==> Valid(st.store)
  {
    if RoleIndexByName(s.roles, name).Some? then Step(s, Err(Conflict("Role already exists")))
    else
      var role := Role(newId, name, description, false);
      var pids := GivenIds(permissionIds);
      match InsertRole(s, role)
      case Err(e) => Step(s, Err(e))
      case Ok(s1) =>
        assert Valid(s) ==> (Grantable(s1, newId, pids) <==>
          Distinct(pids) && forall i :: 0 <= i < |pids| ==> pids[i] in PermissionIds(s.permissions)) by {
          if Valid(s) {
            KeysMember(s1.roles, |s.roles|, RoleIdOf);
            NewRoleGrantable(s, s1, newId, pids);
          }
        }
        match InsertRolePermissions(s1, newId, pids)
        case Err(e) => Step(s, Err(e))
        case Ok(s2) => Step(s2, Ok(role))
  }

  /** A role id not on record holds no grant, so any list of distinct
      existing permissions can be granted to it. */
  lemma NewRoleGrantable(s: Store, s1: Store, newId: Id, pids: seq<Id>)
    requires Valid(s) && newId !in RoleIds(s.roles)
    requires s1.permissions == s.permissions && s1.rolePermissions == s.rolePermissions
    requires newId in RoleIds(s1.roles)
    ensures Grantable(s1, newId, pids) <==>
      Distinct(pids) && forall i :: 0 <= i < |pids| ==> pids[i] in PermissionIds(s.permissions)
  {
  }

  /** A role just created is found by id, is not a system role, and can be
      deleted again. */
  lemma CreatedRoleIsDeletable(s: Store, newId: Id, name: string, description: Option<string>, permissionIds: Option<seq<Id>>)
    requires CreateRole(s, newId, name, description, permissionIds).out.Ok?
    ensures var s1 := CreateRole(s, newId, name, description, permissionIds).store;
      && GetRoleById(s1, newId).Ok?
      && DeleteRole(s1, newId).out.Ok?
  {
    var s1 := CreateRole(s, newId, name, description, permissionIds).store;
    KeysAppend(s.roles, Role(newId, name, description, false), RoleIdOf);
    assert newId in RoleIds(s1.roles);
    var k := RoleIndex(s1.roles, newId).value;
    assert RoleIdOf(s1.roles[k]) == newId;
    assert newId !in RoleIds(s.roles);
    forall j | 0 <= j < |s.roles| ensures s.roles[j].id != newId {
      KeysMember(s.roles, j, RoleIdOf);
    }
    assert s1.roles[k].id == newId;
  }

  /** The guard of `updateRole` as written: a system role is protected only
      from a truthy new name, so the empty string gets through. */
  predicate RenameRefusedAsWritten(existing: Role, name: Option<string>) {
    existing.isSystem && name.Some? && name.value != "" && name.value != existing.name
  }

  /** The evidently intended guard: any given name that differs. */
  predicate RenameRefused(existing: Role, name: Option<string>) {
    existing.isSystem && name.Some? && name.value != existing.name
  }

  /** The record an update writes: given fields replace, absent ones stay. */
  function Updated(existing: Role, name: Option<string>, description: Option<string>): (r: Role)
    ensures r.id == existing.id && r.isSystem == existing.isSystem
    ensures r.name == (if name.Some? then name.value else existing.name)
    ensures r.description == (if description.Some? then description else existing.description)
  {
    existing.(name := if name.Some? then name.value else existing.name,
              description := if description.Some? then description else existing.description)
  }

  function UpdateRoleWith(s: Store, id: Id, name: Option<string>, description: Option<string>, strict: bool): (st: Step<Role>)
    ensures st.out.Err? ==> st.store == s
    ensures Valid(s) ==> Valid(st.store)
  {
    match RoleIndex(s.roles, id)
    case None => Step(s, Err(NotFound("Role")))
    case Some(k) =>
      var existing := s.roles[k];
      if (if strict then RenameRefused(existing, name) else RenameRefusedAsWritten(existing, name)) then
        Step(s, Err(Conflict("Cannot rename system role")))
      else
        var role := Updated(existing, name, description);
        match UpdateRoleRecord(s, k, role)
        case Err(e) => Step(s, Err(e))
        case Ok(s1) => Step(s1, Ok(role))
  }

  /** `updateRole` exactly as written: a system role is protected only from
      a non-empty different name; any other update of an existing role goes
      through unless the new name is another role's. */
  function UpdateRoleAsWritten(s: Store, id: Id, name: Option<string>, description: Option<string>): (st: Step<Role>)
    ensures RoleIndex(s.roles, id).None? ==> st == Step(s, Err(NotFound("Role")))
    ensures RoleIndex(s.roles, id).Some? ==>
      var k := RoleIndex(s.roles, id).value;
      && (RenameRefusedAsWritten(s.roles[k], name) ==> st == Step(s, Err(Conflict("Cannot rename system role"))))
      && (st.out.Ok? ==> st.store == s.(roles := s.roles[k := Updated(s.roles[k], name, description)]))
      && (st.out.Err? && !RenameRefusedAsWritten(s.roles[k], name) ==> st.out.error == UniqueViolation)
      && (st.out.Ok? <==>
            && !RenameRefusedAsWritten(s.roles[k], name)
            && forall j :: 0 <= j < |s.roles| && j != k ==> s.roles[j].name != Updated(s.roles[k], name, description).name)
    ensures Valid(s) ==> Valid(st.store)
  {
    UpdateRoleWith(s, id, name, description, false)
  }

  /** As written too, on a consistent store an update that keeps the name
      (no name given, or the current one) always succeeds. */
  lemma UpdateKeepingNameSucceedsAsWritten(s: Store, id: Id, name: Option<string>, description: Option<string>)
    requires Valid(s) && RoleIndex(s.roles, id).Some?
    requires name.None? || name.value == s.roles[RoleIndex(s.roles, id).value].name
    ensures UpdateRoleAsWritten(s, id, name, description).out.Ok?
  {
    var k := RoleIndex(s.roles, id).value;
    forall j | 0 <= j < |s.roles| && j != k ensures s.roles[j].name != s.roles[k].name {
      assert RoleNameOf(s.roles[j]) != RoleNameOf(s.roles[k]);
    }
  }

  /** The discrepancy: a store holding the system role `admin` lets
      `updateRole` rename it to the empty string, after which no user holds
      a role named `admin` any more. */
  lemma SystemRoleRenamedToEmpty()
    ensures var s := Empty.(roles := [Role("r-admin", AdminRole, None, true)]);
      var st := UpdateRoleAsWritten(s, "r-admin", Some(""), None);
      && st.out.Ok?
      && st.store.roles[0].isSystem
      && st.store.roles[0].name == ""
  {
    var s := Empty.(roles := [Role("r-admin", AdminRole, None, true)]);
    assert RoleIdOf(s.roles[0]) == "r-admin";
    assert RoleIndex(s.roles, "r-admin") == Some(0);
  }

  /** `updateRole` with the intended guard: an unknown id is NotFound('Role');
      renaming a system role to any different name is refused; the same
      name or a description-only change goes through. */
  function UpdateRole(s: Store, id: Id, name: Option<string>, description: Option<string>): (st: Step<Role>)
    ensures RoleIndex(s.roles, id).None? ==> st == Step(s, Err(NotFound("Role")))
    ensures RoleIndex(s.roles, id).Some? ==>
      var k := RoleIndex(s.roles, id).value;
      && (RenameRefused(s.roles[k], name) ==> st == Step(s, Err(Conflict("Cannot rename system role"))))
      && (st.out.Ok? ==> st.store == s.(roles := s.roles[k := Updated(s.roles[k], name, description)]))
      && (st.out.Err? && !RenameRefused(s.roles[k], name) ==> st.out.error == UniqueViolation)
      && (st.out.Ok? <==>
            && !RenameRefused(s.roles[k], name)
            && forall j :: 0 <= j < |s.roles| && j != k ==> s.roles[j].name != Updated(s.roles[k], name, description).name)
    ensures Valid(s) ==> Valid(st.store)
  {
    UpdateRoleWith(s, id, name, description, true)
  }

  /** On a consistent store, an update that keeps the name (no name given,
      or the current one) always succeeds, system role or not. */
  lemma UpdateKeepingNameSucceeds(s: Store, id: Id, name: Option<string>, description: Option<string>)
    requires Valid(s) && RoleIndex(s.roles, id).Some?
    requires name.None? || name.value == s.roles[RoleIndex(s.roles, id).value].name
    ensures UpdateRole(s, id, name, description).out.Ok?
  {
    var k := RoleIndex(s.roles, id).value;
    forall j | 0 <= j < |s.roles| && j != k ensures s.roles[j].name != s.roles[k].name {
      assert RoleNameOf(s.roles[j]) != RoleNameOf(s.roles[k]);
    }
  }

  /** No update ever changes a system role's name or system flag, nor the
      number of roles. */
  lemma SystemRoleNamesStable(s: Store, id: Id, name: Option<string>, description: Option<string>)
    ensures var st := UpdateRole(s, id, name, description);
      && |st.store.roles| == |s.roles|
      && forall i :: 0 <= i < |s.roles| && s.roles[i].isSystem ==>
           st.store.roles[i].isSystem && st.store.roles[i].name == s.roles[i].name
  {
  }

  /** `deleteRole`: NotFound('Role') for an unknown id, a conflict for a
      system role; otherwise the role and its assignments go. */
  function DeleteRole(s: Store, id: Id): (st: Step<()>)
    ensures RoleIndex(s.roles, id).None? ==> st == Step(s, Err(NotFound("Role")))
    ensures RoleIndex(s.roles, id).Some? && s.roles[RoleIndex(s.roles, id).value].isSystem ==>
      st == Step(s, Err(Conflict("Cannot delete system role")))
    ensures RoleIndex(s.roles, id).Some? && !s.roles[RoleIndex(s.roles, id).value].isSystem ==>
      st == Step(DeleteRoleCascade(s, id), Ok(()))
    ensures st.out.Ok? ==> st.store == DeleteRoleCascade(s, id)
    ensures st.out.Ok? ==> id !in RoleIds(st.store.roles)
    ensures st.out.Ok? ==> forall i :: 0 <= i < |s.roles| && s.roles[i].id != id ==> s.roles[i] in st.store.roles
    ensures Valid(s) ==> Valid(st.store)
  {
    match RoleIndex(s.roles, id)
    case None => Step(s, Err(NotFound("Role")))
    case Some(k) =>
      if s.roles[k].isSystem then Step(s, Err(Conflict("Cannot delete system role")))
      else
        var t := DeleteRoleCascade(s, id);
        assert id !in RoleIds(t.roles) by {
          forall i | 0 <= i < |t.roles| ensures t.roles[i].id != id {
            assert RoleIdIsNot(id)(t.roles[i]);
          }
        }
        Step(t, Ok(()))
  }

  /** System roles cannot be deleted: they survive every deletion. */
  lemma SystemRolesSurviveDelete(s: Store, id: Id)
    requires UniqueBy(s.roles, RoleIdOf)
    ensures forall i :: 0 <= i < |s.roles| && s.roles[i].isSystem ==> s.roles[i] in DeleteRole(s, id).store.roles
  {
    var st := DeleteRole(s, id);
    if st.out.Ok? {
      var k := RoleIndex(s.roles, id).value;
      forall i | 0 <= i < |s.roles| && s.roles[i].isSystem ensures s.roles[i] in st.store.roles {
        assert RoleIdOf(s.roles[i]) != RoleIdOf(s.roles[k]);
      }
    }
  }

  /** `assignPermissionToRole`: a pair already on record is a conflict;
      otherwise the pair is added. */
  function AssignPermissionToRole(s: Store, rid: Id, pid: Id): (st: Step<()>)
    ensures RolePermission(rid, pid) in s.rolePermissions ==>
      st == Step(s, Err(Conflict("Permission already assigned to role")))
    ensures st.out.Ok? ==> st.store == s.(rolePermissions := s.rolePermissions + [RolePermission(rid, pid)])
    ensures st.out.Err? ==> st.store == s
    ensures st.out.Err? && RolePermission(rid, pid) !in s.rolePermissions ==> st.out.error.Internal?
    ensures st.out.Ok? <==>
      rid in RoleIds(s.roles) && pid in PermissionIds(s.permissions) && RolePermission(rid, pid) !in s.rolePermissions
    ensures Valid(s) ==> Valid(st.store)
  {
    if RolePermission(rid, pid) in s.rolePermissions then
      Step(s, Err(Conflict("Permission already assigned to role")))
    else match InsertRolePermission(s, RolePermission(rid, pid))
      case Err(e) => Step(s, Err(e))
      case Ok(s1) => Step(s1, Ok(()))
  }

  /** `removePermissionFromRole`: deletes the pair; a missing pair is the
      database's not-found error. */
  function RemovePermissionFromRole(s: Store, rid: Id, pid: Id): (st: Step<()>)
    ensures st.out.Ok? <==> RolePermission(rid, pid) in s.rolePermissions
    ensures st.out.Err? ==> st == Step(s, Err(RecordMissing))
    ensures st.out.Ok? ==> RolePermission(rid, pid) !in st.store.rolePermissions
    ensures st.out.Ok? ==> forall i :: 0 <= i < |s.rolePermissions| && s.rolePermissions[i] != RolePermission(rid, pid) ==>
      s.rolePermissions[i] in st.store.rolePermissions
    ensures st.out.Ok? ==> st.store == s.(rolePermissions := st.store.rolePermissions)
    ensures Valid(s) ==> Valid(st.store)
  {
    match DeleteRolePermission(s, RolePermission(rid, pid))
    case Err(e) => Step(s, Err(e))
    case Ok(s1) =>
      assert RolePermission(rid, pid) !in s1.rolePermissions by {
        forall i | 0 <= i < |s1.rolePermissions| ensures s1.rolePermissions[i] != RolePermission(rid, pid) {
          assert PairIsNot(RolePermission(rid, pid))(s1.rolePermissions[i]);
        }
      }
      Step(s1, Ok(()))
  }

  /** Assigning a permission and removing it again restores the store, and
      a second assignment of the same pair is a conflict. */
  lemma AssignThenRemove(s: Store, rid: Id, pid: Id)
    requires AssignPermissionToRole(s, rid, pid).out.Ok?
    ensures var s1 := AssignPermissionToRole(s, rid, pid).store;
      && AssignPermissionToRole(s1, rid, pid) == Step(s1, Err(Conflict("Permission already assigned to role")))
      && RemovePermissionFromRole(s1, rid, pid) == Step(s, Ok(()))
  {
    var rp := RolePermission(rid, pid);
    FilterAppend(s.rolePermissions, [rp], PairIsNot(rp));
    FilterAll(s.rolePermissions, PairIsNot(rp));
    assert Filter([rp], PairIsNot(rp)) == [];
  }
}

=== FILE: rbac_guards.dfy ===
/** The route guards: decisions over the authenticated principal attached
    to a request (`None` when there is none). Unlike the service's
    `hasPermission`, they compare permission names literally, so the `*:*`
    wildcard grants nothing here. */
module RbacGuards {
  import opened Common
  import opened Errors
  import Store
  import Rbac

  /** The principal the guards read: its id, role names and permission names. */
  datatype Principal = Principal(id: Store.Id, roles: seq<string>, permissions: seq<string>)

  const AuthenticationRequired: AppError := Unauthorized("Authentication required")

  /** The principal a guard is meant to read for user `uid`: the names of
      the roles assigned to it and of the permissions those roles grant, as
      the services load them. */
  function PrincipalOf(s: Store.Store, uid: Store.Id): Principal {
    Principal(uid, Store.RoleNamesOf(s, uid), Store.PermissionNamesOf(s, uid))
  }

  /** The summed length of the strings. */
  function TotalLength(xs: seq<string>): nat {
    if |xs| == 0 then 0 else |xs[0]| + TotalLength(xs[1..])
  }

  /** `xs.join(sep)`: the strings in order, one separator between each two
      neighbours and none at either end. */
  function Join(xs: seq<string>, sep: string): (r: string)
    ensures |xs| == 0 ==> r == ""
    ensures |xs| == 1 ==> r == xs[0]
    ensures |xs| > 0 ==> xs[0] <= r && |r| == TotalLength(xs) + (|xs| - 1) * |sep|
    ensures |xs| > 1 ==> r[..|xs[0]| + |sep|] == xs[0] + sep
    decreases |xs|
  {
    if |xs| == 0 then ""
    else if |xs| == 1 then xs[0]
    else xs[0] + sep + Join(xs[1..], sep)
  }

  predicate IsAdmin(p: Principal) {
    Store.AdminRole in p.roles
  }

  /** Some of the names is literally among the held ones. */
  predicate AnyIn(names: seq<string>, held: seq<string>) {
    exists i :: 0 <= i < |names| && names[i] in held
  }

  /** `requirePermission(...permissions)`. */
  function RequirePermission(principal: Option<Principal>, permissions: seq<string>): (r: Result<()>)
    ensures principal.None? ==> r == Err(AuthenticationRequired)
    ensures principal.Some? ==>
      (r.Ok? <==> IsAdmin(principal.value) || AnyIn(permissions, principal.value.permissions))
    ensures r.Err? && principal.Some? ==>
      r.error == Forbidden("Required permission: " + Join(permissions, " or "))
  {
    match principal
    case None => Err(AuthenticationRequired)
    case Some(p) =>
      if IsAdmin(p) then Ok(())
      else if AnyIn(permissions, p.permissions) then Ok(())
      else Err(Forbidden("Required permission: " + Join(permissions, " or ")))
  }

  /** `requireRole(...roles)`: no bypass for administrators. */
  function RequireRole(principal: Option<Principal>, roles: seq<string>): (r: Result<()>)
    ensures principal.None? ==> r == Err(AuthenticationRequired)
    ensures principal.Some? ==> (r.Ok? <==> AnyIn(roles, principal.value.roles))
    ensures r.Err? && principal.Some? ==> r.error == Forbidden("Required role: " + Join(roles, " or "))
  {
    match principal
    case None => Err(AuthenticationRequired)
    case Some(p) =>
      if AnyIn(roles, p.roles) then Ok(())
      else Err(Forbidden("Required role: " + Join(roles, " or ")))
  }

  /** The default route parameter naming the target user. */
  const DefaultUserIdParam: string := "id"

  /** `requireSelfOrAdmin(param)`: an administrator, or the user named by
      the route parameter (an absent parameter names nobody). */
  function RequireSelfOrAdmin(principal: Option<Principal>, params: map<string, string>, param: string): (r: Result<()>)
    ensures principal.None? ==> r == Err(AuthenticationRequired)
    ensures principal.Some? ==>
      (r.Ok? <==> IsAdmin(principal.value) || (param in params && params[param] == principal.value.id))
    ensures r.Err? && principal.Some? ==> r.error == Forbidden("Access denied")
  {
    match principal
    case None => Err(AuthenticationRequired)
    case Some(p) =>
      var isSelf := param in params && params[param] == p.id;
      if !IsAdmin(p) && !isSelf then Err(Forbidden("Access denied")) else Ok(())
  }

  /** Granting more permissions never turns an allowed request into a
      refused one. */
  lemma RequirePermissionMonotone(p: Principal, extra: seq<string>, permissions: seq<string>)
    requires RequirePermission(Some(p), permissions).Ok?
    ensures RequirePermission(Some(p.(permissions := p.permissions + extra)), permissions).Ok?
  {
    if !IsAdmin(p) {
      var i :| 0 <= i < |permissions| && permissions[i] in p.permissions;
      assert permissions[i] in p.permissions + extra;
    }
  }

  /** The guard and the service disagree on the wildcard: a non-admin user
      whose only grant is `*:*` passes the service's check for `user:read`
      but is refused by the guard. */
  lemma WildcardOnlyInService()
    ensures var s := Store.Empty.(
        users := [Store.User("u1", "a@example.com", None, None, None, true, false, None, None, 0)],
        roles := [Store.Role("r1", "ops", None, false)],
        permissions := [Store.Permission("p1", Store.Wildcard, "*", "*", None)],
        userRoles := [Store.UserRole("u1", "r1")],
        rolePermissions := [Store.RolePermission("r1", "p1")]);
      && Rbac.HasPermission(s, "u1", "user:read")
      && RequirePermission(Some(PrincipalOf(s, "u1")), ["user:read"])
         == Err(Forbidden("Required permission: user:read"))
  {
    var s := Store.Empty.(
        users := [Store.User("u1", "a@example.com", None, None, None, true, false, None, None, 0)],
        roles := [Store.Role("r1", "ops", None, false)],
        permissions := [Store.Permission("p1", Store.Wildcard, "*", "*", None)],
        userRoles := [Store.UserRole("u1", "r1")],
        rolePermissions := [Store.RolePermission("r1", "p1")]);
    assert Store.UserIdOf(s.users[0]) == "u1";
    assert Store.RoleIdOf(s.roles[0]) == "r1";
    assert Store.PermissionIdOf(s.permissions[0]) == "p1";
    assert Store.FindRole(s.roles, "r1") == Some(s.roles[0]);
    assert Store.FindPermission(s.permissions, "p1") == Some(s.permissions[0]);
    assert Store.AssignedRoles(s, "u1") == [s.roles[0]];
    assert Store.RoleNamesOf(s, "u1") == ["ops"];
    assert Store.PermissionNamesVia(s.rolePermissions, s.permissions, "r1") == [Store.Wildcard];
    assert Store.PermissionNamesOfRoles(s.rolePermissions, s.permissions, [s.roles[0]][1..]) == [];
    assert Store.PermissionNamesOf(s, "u1") == [Store.Wildcard];
    assert !AnyIn(["user:read"], [Store.Wildcard]);
  }
}

=== FILE: seed.dfy ===
/** The database seed: eleven permissions, the three system roles with
    their grants, and the initial administrator. Every write is an upsert
    keyed by a natural key (a name, an e-mail, a pair) whose update part is
    empty, so running the seed again changes nothing. Identifiers the
    database would generate are the inputs `permissionId`, `roleId` and
    `adminId`; the administrator's Argon2 digest is the input `digest`. */
module Seed {
  import opened Common
  import opened Errors
  import opened Store

  datatype PermissionSpec = PermissionSpec(name: string, resource: string, action: string, description: string)

  datatype RoleSpec = RoleSpec(name: string, description: string, grants: seq<string>)

  const PermissionSpecs: seq<PermissionSpec> := [
    PermissionSpec("user:create", "user", "create", "Create users"),
    PermissionSpec("user:read", "user", "read", "Read user data"),
    PermissionSpec("user:update", "user", "update", "Update users"),
    PermissionSpec("user:delete", "user", "delete", "Delete users"),
    PermissionSpec("role:create", "role", "create", "Create roles"),
    PermissionSpec("role:read", "role", "read", "Read roles"),
    PermissionSpec("role:update", "role", "update", "Update roles"),
    PermissionSpec("role:delete", "role", "delete", "Delete roles"),
    PermissionSpec("profile:read", "profile", "read", "Read own profile"),
    PermissionSpec("profile:update", "profile", "update", "Update own profile"),
    PermissionSpec(Wildcard, "*", "*", "Full access to all resources")
  ]

  const AdminSpec: RoleSpec := RoleSpec(AdminRole, "Administrator with full access", [Wildcard])
  const ModeratorSpec: RoleSpec :=
    RoleSpec("moderator", "Moderator with user management access", ["user:read", "user:update", "role:read"])
  const UserSpec: RoleSpec := RoleSpec(DefaultRole, "Regular user with basic access", ["profile:read", "profile:update"])

  const AdminEmail: string := "admin@example.com"

  /** `t` is `s` with records appended: nothing removed, nothing rewritten. */
  predicate Extends(s: Store, t: Store) {
    && s.permissions <= t.permissions && s.roles <= t.roles && s.rolePermissions <= t.rolePermissions
    && s.users <= t.users && s.userRoles <= t.userRoles
    && t.refreshTokens == s.refreshTokens && t.resetTokens == s.resetTokens
    && t.attempts == s.attempts && t.accounts == s.accounts
  }

  // ---------------------------------------------------------------------
  // Upserts

  function UpsertPermission(s: Store, spec: PermissionSpec, id: Id): (r: Result<Store>)
    ensures PermissionIndexByName(s.permissions, spec.name).Some? ==> r == Ok(s)
    ensures r.Ok? ==> Extends(s, r.value) && PermissionIndexByName(r.value.permissions, spec.name).Some?
    ensures r.Ok? ==> r.value == s.(permissions := r.value.permissions)
    ensures PermissionIndexByName(s.permissions, spec.name).None? ==>
      && (r.Ok? <==> id !in PermissionIds(s.permissions))
      && (r.Ok? ==> r.value.permissions == s.permissions + [Permission(id, spec.name, spec.resource, spec.action, Some(spec.description))])
    ensures r.Err? ==> r.error == UniqueViolation
    ensures r.Ok? && Valid(s) ==> Valid(r.value)
  {
    if PermissionIndexByName(s.permissions, spec.name).Some? then Ok(s)
    else
      var p := Permission(id, spec.name, spec.resource, spec.action, Some(spec.description));
      var r := InsertPermission(s, p);
      assert r.Ok? ==> r.value.permissions[|s.permissions|] == p;
      r
  }

  /** Every permission named in `specs` is on record. */
  predicate Listed(ps: seq<Permission>, specs: seq<PermissionSpec>) {
    forall i :: 0 <= i < |specs| ==> PermissionIndexByName(ps, specs[i].name).Some?
  }

  lemma ListedCons(ps: seq<Permission>, specs: seq<PermissionSpec>)
    requires |specs| > 0
    ensures Listed(ps, specs) <==> PermissionIndexByName(ps, specs[0].name).Some? && Listed(ps, specs[1..])
  {
    assert forall i :: 1 <= i < |specs| ==> specs[i] == specs[1..][i - 1];
  }

  lemma ListedExtends(ps: seq<Permission>, qs: seq<Permission>, specs: seq<PermissionSpec>)
    requires ps <= qs && Listed(ps, specs)
    ensures Listed(qs, specs)
  {
    forall i | 0 <= i < |specs| ensures PermissionIndexByName(qs, specs[i].name).Some? {
      FindExtends(ps, qs, PermissionNamed(specs[i].name));
    }
  }

  /** The permission loop, in list order. */
  function UpsertPermissions(s: Store, specs: seq<PermissionSpec>, permissionId: string -> Id): (r: Result<Store>)
    ensures Listed(s.permissions, specs) ==> r == Ok(s)
    ensures r.Ok? ==> Extends(s, r.value) && Listed(r.value.permissions, specs)
    ensures r.Ok? ==> r.value == s.(permissions := r.value.permissions)
    ensures r.Err? ==> r.error.Internal?
    ensures r.Ok? && Valid(s) ==> Valid(r.value)
    decreases |specs|
  {
    if |specs| == 0 then Ok(s)
    else
      ListedCons(s.permissions, specs);
      match UpsertPermission(s, specs[0], permissionId(specs[0].name))
      case Err(e) => Err(e)
      case Ok(s1) =>
        match UpsertPermissions(s1, specs[1..], permissionId)
        case Err(e) => Err(e)
        case Ok(s2) =>
          FindExtends(s1.permissions, s2.permissions, PermissionNamed(specs[0].name));
          ListedCons(s2.permissions, specs);
          Ok(s2)
  }

  /** A role upsert by name; yields the id of the role on record. */
  function UpsertRole(s: Store, spec: RoleSpec, id: Id): (r: Result<(Store, Id)>)
    ensures RoleIndexByName(s.roles, spec.name).Some? ==>
      r == Ok((s, s.roles[RoleIndexByName(s.roles, spec.name).value].id))
    ensures r.Ok? ==>
      && Extends(s, r.value.0)
      && RoleIndexByName(r.value.0.roles, spec.name).Some?
      && r.value.0.roles[RoleIndexByName(r.value.0.roles, spec.name).value].id == r.value.1
    ensures r.Ok? ==> r.value.1 in RoleIds(r.value.0.roles)
    ensures r.Ok? ==> AddsSystemRoles(s, r.value.0)
    ensures RoleIndexByName(s.roles, spec.name).None? && r.Ok? ==>
      r.value.0.roles == s.roles + [Role(id, spec.name, Some(spec.description), true)]
    ensures RoleIndexByName(s.roles, spec.name).None? ==> (r.Ok? <==> id !in RoleIds(s.roles))
    ensures r.Err? ==> r.error == UniqueViolation
    ensures r.Ok? && Valid(s) ==> Valid(r.value.0)
  {
    match RoleIndexByName(s.roles, spec.name)
    case Some(k) =>
      KeysMember(s.roles, k, RoleIdOf);
      Ok((s, s.roles[k].id))
    case None =>
      var role := Role(id, spec.name, Some(spec.description), true);
      match InsertRole(s, role)
      case Err(e) => Err(e)
      case Ok(s1) =>
        assert s1.roles[|s.roles|] == role;
        KeysMember(s1.roles, |s.roles|, RoleIdOf);
        Ok((s1, id))
  }

  /** The grant of permission `name` to role `rid` is on record. */
  predicate Granted(s: Store, rid: Id, name: string) {
    && PermissionIndexByName(s.permissions, name).Some?
    && RolePermission(rid, s.permissions[PermissionIndexByName(s.permissions, name).value].id) in s.rolePermissions
  }

  /** The spec of the system role called `name`; any other role is
      granted nothing. */
  function SpecNamed(name: string): (spec: RoleSpec)
    ensures spec.name == name
    ensures name !in {AdminRole, ModeratorSpec.name, DefaultRole} ==> spec.grants == []
  {
    if name == AdminRole then AdminSpec
    else if name == ModeratorSpec.name then ModeratorSpec
    else if name == DefaultRole then UserSpec
    else RoleSpec(name, "", [])
  }

  /** Role `rid` exists and its spec lists the permission `name`. */
  predicate MayGrant(s: Store, rid: Id, name: string) {
    && FindRole(s.roles, rid).Some?
    && name in SpecNamed(FindRole(s.roles, rid).value.name).grants
  }

  /** The grant `rp` links a role to a permission the role's spec lists. */
  predicate GrantFollowsSpec(s: Store, rp: RolePermission) {
    && FindPermission(s.permissions, rp.permissionId).Some?
    && MayGrant(s, rp.roleId, FindPermission(s.permissions, rp.permissionId).value.name)
  }

  /** Every grant on record is one the role specs list. */
  predicate GrantsFollowSpecs(s: Store) {
    forall j :: 0 <= j < |s.rolePermissions| ==> GrantFollowsSpec(s, s.rolePermissions[j])
  }

  lemma GrantsFollowSpecsSnoc(s: Store, rp: RolePermission)
    requires GrantsFollowSpecs(s) && GrantFollowsSpec(s, rp)
    ensures GrantsFollowSpecs(s.(rolePermissions := s.rolePermissions + [rp]))
  {
    var t := s.(rolePermissions := s.rolePermissions + [rp]);
    forall j | 0 <= j < |t.rolePermissions| ensures GrantFollowsSpec(t, t.rolePermissions[j]) {
      if j < |s.rolePermissions| {
        assert t.rolePermissions[j] == s.rolePermissions[j];
        assert GrantFollowsSpec(s, s.rolePermissions[j]);
      }
    }
  }

  /** Whether grants follow the specs depends on roles, permissions and
      grants only. */
  lemma GrantsFollowSpecsFrame(s: Store, t: Store)
    requires t.roles == s.roles && t.permissions == s.permissions && t.rolePermissions == s.rolePermissions
    ensures GrantsFollowSpecs(s) <==> GrantsFollowSpecs(t)
  {
    assert forall rp :: GrantFollowsSpec(s, rp) <==> GrantFollowsSpec(t, rp);
  }

  /** Appending roles and permissions, with unique ids, leaves every grant
      resolving to the same role and permission. */
  lemma GrantsFollowSpecsExtends(s: Store, t: Store)
    requires GrantsFollowSpecs(s)
    requires s.roles <= t.roles && s.permissions <= t.permissions && t.rolePermissions == s.rolePermissions
    requires UniqueBy(t.roles, RoleIdOf) && UniqueBy(t.permissions, PermissionIdOf)
    ensures GrantsFollowSpecs(t)
  {
    forall j | 0 <= j < |t.rolePermissions| ensures GrantFollowsSpec(t, t.rolePermissions[j]) {
      var rp := s.rolePermissions[j];
      assert GrantFollowsSpec(s, rp);
      var k := RoleIndex(s.roles, rp.roleId).value;
      var m := PermissionIndex(s.permissions, rp.permissionId).value;
      assert t.roles[k] == s.roles[k] && t.permissions[m] == s.permissions[m];
      FindRoleUnique(t.roles, k);
      FindPermissionUnique(t.permissions, m);
    }
  }

  /** One grant: skipped when the permission does not exist, an upsert of
      the pair otherwise. */
  function Grant(s: Store, rid: Id, name: string): (r: Result<Store>)
    requires rid in RoleIds(s.roles)
    ensures Granted(s, rid, name) ==> r == Ok(s)
    ensures r.Ok? ==> Extends(s, r.value)
    ensures r.Ok? && PermissionIndexByName(s.permissions, name).Some? ==> Granted(r.value, rid, name)
    ensures r.Ok? ==> r.value == s.(rolePermissions := r.value.rolePermissions)
    ensures r.Ok? && Valid(s) && GrantsFollowSpecs(s) && MayGrant(s, rid, name) ==> GrantsFollowSpecs(r.value)
    ensures r.Err? ==> r.error.Internal?
    ensures r.Ok? && Valid(s) ==> Valid(r.value)
  {
    match PermissionIndexByName(s.permissions, name)
    case None => Ok(s)
    case Some(k) =>
      var pair := RolePermission(rid, s.permissions[k].id);
      if pair in s.rolePermissions then Ok(s)
      else
        KeysMember(s.permissions, k, PermissionIdOf);
        var r := InsertRolePermission(s, pair);
        assert r.Ok? ==> r.value.rolePermissions[|s.rolePermissions|] == pair;
        assert r.Ok? && Valid(s) && GrantsFollowSpecs(s) && MayGrant(s, rid, name) ==> GrantsFollowSpecs(r.value) by {
          if r.Ok? && Valid(s) && GrantsFollowSpecs(s) && MayGrant(s, rid, name) {
            FindPermissionUnique(s.permissions, k);
            GrantsFollowSpecsSnoc(s, pair);
          }
        }
        r
  }

  /** Every name in `names` is granted to `rid`. */
  predicate AllGranted(s: Store, rid: Id, names: seq<string>) {
    forall i :: 0 <= i < |names| ==> Granted(s, rid, names[i])
  }

  /** Every name in `names` that exists as a permission is granted to `rid`. */
  predicate GrantedWherePresent(s: Store, rid: Id, names: seq<string>) {
    forall i :: 0 <= i < |names| && PermissionIndexByName(s.permissions, names[i]).Some? ==> Granted(s, rid, names[i])
  }

  lemma GrantsCons(s: Store, rid: Id, names: seq<string>)
    requires |names| > 0
    ensures AllGranted(s, rid, names) <==> Granted(s, rid, names[0]) && AllGranted(s, rid, names[1..])
    ensures GrantedWherePresent(s, rid, names) <==>
      (PermissionIndexByName(s.permissions, names[0]).Some? ==> Granted(s, rid, names[0]))
      && GrantedWherePresent(s, rid, names[1..])
  {
    assert forall i :: 1 <= i < |names| ==> names[i] == names[1..][i - 1];
  }

  /** A grant survives appending records. */
  lemma GrantedExtends(s: Store, t: Store, rid: Id, name: string)
    requires Extends(s, t) && Granted(s, rid, name)
    ensures Granted(t, rid, name)
  {
    FindExtends(s.permissions, t.permissions, PermissionNamed(name));
    var pid := s.permissions[PermissionIndexByName(s.permissions, name).value].id;
    PrefixMember(s.rolePermissions, t.rolePermissions, RolePermission(rid, pid));
  }

  /** Whether a role may be granted a name depends on the roles only. */
  lemma MayGrantTail(s: Store, s1: Store, rid: Id, names: seq<string>)
    requires s1.roles == s.roles && |names| > 0
    requires forall i :: 0 <= i < |names| ==> MayGrant(s, rid, names[i])
    ensures forall i :: 0 <= i < |names[1..]| ==> MayGrant(s1, rid, names[1..][i])
  {
    forall i | 0 <= i < |names[1..]| ensures MayGrant(s1, rid, names[1..][i]) {
      assert names[1..][i] == names[i + 1];
      assert MayGrant(s, rid, names[i + 1]);
    }
  }

  function Grants(s: Store, rid: Id, names: seq<string>): (r: Result<Store>)
    requires rid in RoleIds(s.roles)
    ensures AllGranted(s, rid, names) ==> r == Ok(s)
    ensures r.Ok? ==> Extends(s, r.value)
    ensures r.Ok? ==> r.value == s.(rolePermissions := r.value.rolePermissions)
    ensures r.Ok? ==> GrantedWherePresent(r.value, rid, names)
    ensures r.Ok? && Valid(s) && GrantsFollowSpecs(s) && (forall i :: 0 <= i < |names| ==> MayGrant(s, rid, names[i])) ==>
      GrantsFollowSpecs(r.value)
    ensures r.Err? ==> r.error.Internal?
    ensures r.Ok? && Valid(s) ==> Valid(r.value)
    decreases |names|
  {
    if |names| == 0 then Ok(s)
    else
      GrantsCons(s, rid, names);
      match Grant(s, rid, names[0])
      case Err(e) => Err(e)
      case Ok(s1) =>
        match Grants(s1, rid, names[1..])
        case Err(e) => Err(e)
        case Ok(s2) =>
          assert Valid(s) && GrantsFollowSpecs(s) && (forall i :: 0 <= i < |names| ==> MayGrant(s, rid, names[i])) ==>
            GrantsFollowSpecs(s2) by {
            if Valid(s) && GrantsFollowSpecs(s) && (forall i :: 0 <= i < |names| ==> MayGrant(s, rid, names[i])) {
              MayGrantTail(s, s1, rid, names);
            }
          }
          if Granted(s1, rid, names[0]) then
            GrantedExtends(s1, s2, rid, names[0]);
            GrantsCons(s2, rid, names);
            Ok(s2)
          else
            GrantsCons(s2, rid, names);
            Ok(s2)
  }

  /** A role with all of its grants. */
  predicate RoleSeeded(s: Store, spec: RoleSpec) {
    && RoleIndexByName(s.roles, spec.name).Some?
    && AllGranted(s, s.roles[RoleIndexByName(s.roles, spec.name).value].id, spec.grants)
  }

  predicate PermissionsSeeded(s: Store) {
    Listed(s.permissions, PermissionSpecs)
  }

  /** The administrator account and its `admin` assignment. */
  predicate AdminSeeded(s: Store) {
    && UserIndexByEmail(s.users, AdminEmail).Some?
    && RoleIndexByName(s.roles, AdminRole).Some?
    && UserRole(s.users[UserIndexByEmail(s.users, AdminEmail).value].id,
                s.roles[RoleIndexByName(s.roles, AdminRole).value].id) in s.userRoles
  }

  /** Everything the seed writes is on record. */
  predicate Seeded(s: Store) {
    && PermissionsSeeded(s)
    && RoleSeeded(s, AdminSpec) && RoleSeeded(s, ModeratorSpec) && RoleSeeded(s, UserSpec)
    && AdminSeeded(s)
  }

  /** The administrator the seed creates: active and verified, verified
      at seeding time. */
  function AdminUser(id: Id, digest: string, now: Time): User {
    User(id, AdminEmail, Some(digest), Some("System"), Some("Admin"), true, true, Some(now), None, now)
  }

  function UpsertAdmin(s: Store, id: Id, digest: string, now: Time): (r: Result<(Store, Id)>)
    ensures UserIndexByEmail(s.users, AdminEmail).Some? ==>
      r == Ok((s, s.users[UserIndexByEmail(s.users, AdminEmail).value].id))
    ensures r.Ok? ==>
      && Extends(s, r.value.0)
      && UserIndexByEmail(r.value.0.users, AdminEmail).Some?
      && r.value.0.users[UserIndexByEmail(r.value.0.users, AdminEmail).value].id == r.value.1
      && r.value.1 in UserIds(r.value.0.users)
      && r.value.0.roles == s.roles && r.value.0.permissions == s.permissions
      && r.value.0.rolePermissions == s.rolePermissions
    ensures UserIndexByEmail(s.users, AdminEmail).None? && r.Ok? ==>
      r.value == (s.(users := s.users + [AdminUser(id, digest, now)]), id)
    ensures UserIndexByEmail(s.users, AdminEmail).None? ==> (r.Ok? <==> id !in UserIds(s.users))
    ensures r.Err? ==> r.error == UniqueViolation
    ensures r.Ok? && Valid(s) ==> Valid(r.value.0)
  {
    match UserIndexByEmail(s.users, AdminEmail)
    case Some(k) =>
      KeysMember(s.users, k, UserIdOf);
      Ok((s, s.users[k].id))
    case None =>
      var u := AdminUser(id, digest, now);
      match InsertUser(s, u)
      case Err(e) => Err(e)
      case Ok(s1) =>
        assert s1.users[|s.users|] == u;
        KeysMember(s1.users, |s.users|, UserIdOf);
        Ok((s1, id))
  }

  function UpsertUserRole(s: Store, uid: Id, rid: Id): (r: Result<Store>)
    requires uid in UserIds(s.users) && rid in RoleIds(s.roles)
    ensures UserRole(uid, rid) in s.userRoles ==> r == Ok(s)
    ensures r.Ok? ==> Extends(s, r.value) && UserRole(uid, rid) in r.value.userRoles
    ensures r.Ok? ==>
      && r.value.users == s.users && r.value.roles == s.roles && r.value.permissions == s.permissions
      && r.value.rolePermissions == s.rolePermissions
    ensures UserRole(uid, rid) !in s.userRoles && r.Ok? ==> r.value == s.(userRoles := s.userRoles + [UserRole(uid, rid)])
    ensures r.Err? ==> r.error.Internal?
    ensures r.Ok? && Valid(s) ==> Valid(r.value)
  {
    if UserRole(uid, rid) in s.userRoles then Ok(s)
    else
      var r := InsertUserRole(s, UserRole(uid, rid));
      assert r.value.userRoles[|s.userRoles|] == UserRole(uid, rid);
      r
  }

  // ---------------------------------------------------------------------
  // The seed

  lemma ExtendsTransitive(a: Store, b: Store, c: Store)
    requires Extends(a, b) && Extends(b, c)
    ensures Extends(a, c)
  {
  }

  lemma PrefixMember<T>(a: seq<T>, b: seq<T>, x: T)
    requires a <= b && x in a
    ensures x in b
  {
    var j :| 0 <= j < |a| && a[j] == x;
    assert b[j] == x;
  }

  /** Appending records keeps every seeded permission findable. */
  lemma PermissionsSeededStable(s: Store, t: Store)
    requires Extends(s, t) && PermissionsSeeded(s)
    ensures PermissionsSeeded(t)
  {
    ListedExtends(s.permissions, t.permissions, PermissionSpecs);
  }

  /** Appending records keeps a seeded role, and its grants, on record. */
  lemma RoleSeededStable(s: Store, t: Store, spec: RoleSpec)
    requires Extends(s, t) && RoleSeeded(s, spec)
    ensures RoleSeeded(t, spec)
  {
    FindExtends(s.roles, t.roles, RoleNamed(spec.name));
    var rid := s.roles[RoleIndexByName(s.roles, spec.name).value].id;
    forall i | 0 <= i < |spec.grants| ensures Granted(t, rid, spec.grants[i]) {
      GrantedExtends(s, t, rid, spec.grants[i]);
    }
  }

  /** `rid` is the id of the `admin` role. */
  predicate AdminRoleIs(s: Store, rid: Id) {
    && RoleIndexByName(s.roles, AdminRole).Some?
    && s.roles[RoleIndexByName(s.roles, AdminRole).value].id == rid
    && rid in RoleIds(s.roles)
  }

  lemma AdminRoleIsStable(s: Store, t: Store, rid: Id)
    requires Extends(s, t) && AdminRoleIs(s, rid)
    ensures AdminRoleIs(t, rid)
  {
    FindExtends(s.roles, t.roles, RoleNamed(AdminRole));
    KeysMember(t.roles, RoleIndexByName(t.roles, AdminRole).value, RoleIdOf);
  }

  /** Every permission the three system roles are granted is among the
      seeded permissions. */
  lemma GrantsAreSeeded(s: Store, spec: RoleSpec)
    requires PermissionsSeeded(s)
    requires spec == AdminSpec || spec == ModeratorSpec || spec == UserSpec
    ensures forall i :: 0 <= i < |spec.grants| ==> PermissionIndexByName(s.permissions, spec.grants[i]).Some?
  {
    forall i | 0 <= i < |spec.grants| ensures PermissionIndexByName(s.permissions, spec.grants[i]).Some? {
      var j := SpecIndex(spec.grants[i]);
      assert PermissionSpecs[j].name == spec.grants[i];
    }
  }

  /** Where each granted name sits in the permission list. */
  function SpecIndex(name: string): (j: nat)
    ensures j < |PermissionSpecs|
  {
    if name == "user:read" then 1 else if name == "user:update" then 2 else if name == "role:read" then 5
    else if name == "profile:read" then 8 else if name == "profile:update" then 9 else 10
  }

  /** After the upsert of `spec`'s role, the grants on record still follow
      the specs and the role may be granted everything `spec` lists. */
  lemma UpsertedRoleMayGrant(s: Store, s1: Store, spec: RoleSpec, rid: Id)
    requires GrantsFollowSpecs(s) && SpecNamed(spec.name) == spec
    requires s.roles <= s1.roles && s.permissions <= s1.permissions && s1.rolePermissions == s.rolePermissions
    requires UniqueBy(s1.roles, RoleIdOf) && UniqueBy(s1.permissions, PermissionIdOf)
    requires RoleIndexByName(s1.roles, spec.name).Some? && s1.roles[RoleIndexByName(s1.roles, spec.name).value].id == rid
    ensures GrantsFollowSpecs(s1)
    ensures forall i :: 0 <= i < |spec.grants| ==> MayGrant(s1, rid, spec.grants[i])
  {
    GrantsFollowSpecsExtends(s, s1);
    FindRoleUnique(s1.roles, RoleIndexByName(s1.roles, spec.name).value);
  }

  /** One role of the seed: its upsert, then its grants. */
  function SeedRole(s: Store, spec: RoleSpec, id: Id): (r: Result<(Store, Id)>)
    ensures RoleSeeded(s, spec) ==> r == Ok((s, s.roles[RoleIndexByName(s.roles, spec.name).value].id))
    ensures r.Ok? ==>
      && Extends(s, r.value.0)
      && r.value.0.permissions == s.permissions
      && RoleIndexByName(r.value.0.roles, spec.name).Some?
      && r.value.0.roles[RoleIndexByName(r.value.0.roles, spec.name).value].id == r.value.1
      && r.value.1 in RoleIds(r.value.0.roles)
    ensures r.Ok? && (forall i :: 0 <= i < |spec.grants| ==> PermissionIndexByName(s.permissions, spec.grants[i]).Some?) ==>
      RoleSeeded(r.value.0, spec)
    ensures r.Ok? ==> r.value.0 == s.(roles := r.value.0.roles, rolePermissions := r.value.0.rolePermissions)
    ensures r.Ok? ==> forall i :: |s.roles| <= i < |r.value.0.roles| ==> r.value.0.roles[i].isSystem
    ensures r.Ok? && Valid(s) && GrantsFollowSpecs(s) && SpecNamed(spec.name) == spec ==> GrantsFollowSpecs(r.value.0)
    ensures r.Err? ==> r.error.Internal?
    ensures r.Ok? && Valid(s) ==> Valid(r.value.0)
  {
    match UpsertRole(s, spec, id)
    case Err(e) => Err(e)
    case Ok((s1, rid)) =>
      var g := Grants(s1, rid, spec.grants);
      assert g.Ok? && Valid(s) && GrantsFollowSpecs(s) && SpecNamed(spec.name) == spec ==> GrantsFollowSpecs(g.value) by {
        if Valid(s) && GrantsFollowSpecs(s) && SpecNamed(spec.name) == spec {
          UpsertedRoleMayGrant(s, s1, spec, rid);
        }
      }
      match g
      case Err(e) => Err(e)
      case Ok(s2) =>
        assert AddsSystemRoles(s, s2) by {
          assert s2.roles == s1.roles;
        }
        Ok((s2, rid))
  }

  /** The roles `t` adds after those of `s` are all system roles. */
  predicate AddsSystemRoles(s: Store, t: Store) {
    forall i :: |s.roles| <= i < |t.roles| ==> t.roles[i].isSystem
  }

  lemma AddsSystemRolesChain(a: Store, b: Store, c: Store)
    requires a.roles <= b.roles && b.roles <= c.roles
    requires AddsSystemRoles(a, b) && AddsSystemRoles(b, c)
    ensures AddsSystemRoles(a, c)
  {
    forall i | |a.roles| <= i < |c.roles| ensures c.roles[i].isSystem {
      if i < |b.roles| {
        assert c.roles[i] == b.roles[i];
      }
    }
  }

  /** The three system roles, in order; yields the `admin` role's id. */
  function SeedRoles(s: Store, roleId: string -> Id): (r: Result<(Store, Id)>)
    ensures RoleSeeded(s, AdminSpec) && RoleSeeded(s, ModeratorSpec) && RoleSeeded(s, UserSpec) ==>
      r.Ok? && r.value.0 == s
    ensures r.Ok? ==> Extends(s, r.value.0) && r.value.0.permissions == s.permissions && AdminRoleIs(r.value.0, r.value.1)
    ensures r.Ok? && PermissionsSeeded(s) ==>
      RoleSeeded(r.value.0, AdminSpec) && RoleSeeded(r.value.0, ModeratorSpec) && RoleSeeded(r.value.0, UserSpec)
    ensures r.Ok? ==> r.value.0 == s.(roles := r.value.0.roles, rolePermissions := r.value.0.rolePermissions)
    ensures r.Ok? ==> forall i :: |s.roles| <= i < |r.value.0.roles| ==> r.value.0.roles[i].isSystem
    ensures r.Ok? && Valid(s) && GrantsFollowSpecs(s) ==> GrantsFollowSpecs(r.value.0)
    ensures r.Err? ==> r.error.Internal?
    ensures r.Ok? && Valid(s) ==> Valid(r.value.0)
  {
    assert SpecNamed(AdminSpec.name) == AdminSpec && SpecNamed(ModeratorSpec.name) == ModeratorSpec
      && SpecNamed(UserSpec.name) == UserSpec;
    match SeedRole(s, AdminSpec, roleId(AdminSpec.name))
    case Err(e) => Err(e)
    case Ok((s1, adminRoleId)) =>
      match SeedRole(s1, ModeratorSpec, roleId(ModeratorSpec.name))
      case Err(e) => Err(e)
      case Ok((s2, _)) =>
        match SeedRole(s2, UserSpec, roleId(UserSpec.name))
        case Err(e) => Err(e)
        case Ok((s3, _)) =>
          ExtendsTransitive(s, s1, s2);
          ExtendsTransitive(s, s2, s3);
          ExtendsTransitive(s1, s2, s3);
          AdminRoleIsStable(s1, s3, adminRoleId);
          assert AddsSystemRoles(s, s3) by {
            AddsSystemRolesChain(s, s1, s2);
            AddsSystemRolesChain(s, s2, s3);
          }
          assert Valid(s) && GrantsFollowSpecs(s) ==> GrantsFollowSpecs(s3);
          if PermissionsSeeded(s) then
            GrantsAreSeeded(s, AdminSpec);
            GrantsAreSeeded(s, ModeratorSpec);
            GrantsAreSeeded(s, UserSpec);
            RoleSeededStable(s1, s3, AdminSpec);
            RoleSeededStable(s2, s3, ModeratorSpec);
            Ok((s3, adminRoleId))
          else
            Ok((s3, adminRoleId))
  }

  /** The administrator and its `admin` assignment. */
  function SeedAdmin(s: Store, rid: Id, adminId: Id, digest: string, now: Time): (r: Result<Store>)
    requires rid in RoleIds(s.roles)
    ensures (&& UserIndexByEmail(s.users, AdminEmail).Some?
             && UserRole(s.users[UserIndexByEmail(s.users, AdminEmail).value].id, rid) in s.userRoles) ==> r == Ok(s)
    ensures r.Ok? ==>
      && Extends(s, r.value)
      && r.value.roles == s.roles && r.value.permissions == s.permissions
      && r.value.rolePermissions == s.rolePermissions
    ensures r.Ok? ==>
      && UserIndexByEmail(r.value.users, AdminEmail).Some?
      && UserRole(r.value.users[UserIndexByEmail(r.value.users, AdminEmail).value].id, rid) in r.value.userRoles
    ensures r.Ok? && UserIndexByEmail(s.users, AdminEmail).None? ==> r.value.users == s.users + [AdminUser(adminId, digest, now)]
    ensures r.Ok? && Valid(s) && UserIndexByEmail(s.users, AdminEmail).None? ==>
      r.value.userRoles == s.userRoles + [UserRole(adminId, rid)]
    ensures r.Err? ==> r.error.Internal?
    ensures r.Ok? && Valid(s) ==> Valid(r.value)
  {
    match UpsertAdmin(s, adminId, digest, now)
    case Err(e) => Err(e)
    case Ok((s1, uid)) =>
      var r := UpsertUserRole(s1, uid, rid);
      if r.Ok? then ExtendsTransitive(s, s1, r.value); r else r
  }

  /** The seed script, phase by phase; the first failing write ends it. */
  function RunSeed(s: Store, permissionId: string -> Id, roleId: string -> Id, adminId: Id, digest: string, now: Time): (r: Result<Store>)
    ensures r.Ok? ==> Extends(s, r.value)
    ensures r.Ok? ==> forall i :: |s.roles| <= i < |r.value.roles| ==> r.value.roles[i].isSystem
    ensures r.Ok? && UserIndexByEmail(s.users, AdminEmail).None? ==> r.value.users == s.users + [AdminUser(adminId, digest, now)]
    ensures r.Ok? && Valid(s) && GrantsFollowSpecs(s) ==> GrantsFollowSpecs(r.value)
    ensures r.Err? ==> r.error.Internal?
    ensures r.Ok? && Valid(s) ==> Valid(r.value)
  {
    var p := UpsertPermissions(s, PermissionSpecs, permissionId);
    if p.Err? then Err(p.error)
    else
      var q := SeedRoles(p.value, roleId);
      if q.Err? then Err(q.error)
      else
        var (s2, rid) := q.value;
        assert rid in RoleIds(s2.roles);
        var r := SeedAdmin(s2, rid, adminId, digest, now);
        if r.Ok? then
          ExtendsTransitive(s, p.value, s2);
          ExtendsTransitive(s, s2, r.value);
          assert Valid(s) && GrantsFollowSpecs(s) ==> GrantsFollowSpecs(r.value) by {
            if Valid(s) && GrantsFollowSpecs(s) {
              GrantsFollowSpecsExtends(s, p.value);
              GrantsFollowSpecsFrame(s2, r.value);
            }
          }
          r
        else r
  }

  // ---------------------------------------------------------------------
  // When the seed succeeds

  /** `permissionId` gives the listed permissions pairwise different ids. */
  predicate DistinctPermissionIds(specs: seq<PermissionSpec>, permissionId: string -> Id) {
    forall i, j :: 0 <= i < j < |specs| ==> permissionId(specs[i].name) != permissionId(specs[j].name)
  }

  /** ... and none of those ids is already used in `ps`. */
  predicate FreshPermissionIds(ps: seq<Permission>, specs: seq<PermissionSpec>, permissionId: string -> Id) {
    && DistinctPermissionIds(specs, permissionId)
    && forall i :: 0 <= i < |specs| ==> permissionId(specs[i].name) !in PermissionIds(ps)
  }

  /** `roleId` gives the three system roles pairwise different ids. */
  predicate DistinctSystemRoleIds(roleId: string -> Id) {
    && roleId(AdminSpec.name) != roleId(ModeratorSpec.name)
    && roleId(AdminSpec.name) != roleId(UserSpec.name)
    && roleId(ModeratorSpec.name) != roleId(UserSpec.name)
  }

  /** The permission loop succeeds when every id it may insert is fresh. */
  lemma {:induction false} UpsertPermissionsSucceeds(s: Store, specs: seq<PermissionSpec>, permissionId: string -> Id)
    requires FreshPermissionIds(s.permissions, specs, permissionId)
    ensures UpsertPermissions(s, specs, permissionId).Ok?
    decreases |specs|
  {
    if |specs| > 0 {
      var id := permissionId(specs[0].name);
      var s1 := UpsertPermission(s, specs[0], id).value;
      forall i | 0 <= i < |specs[1..]| ensures permissionId(specs[1..][i].name) !in PermissionIds(s1.permissions) {
        assert specs[1..][i] == specs[i + 1];
        if PermissionIndexByName(s.permissions, specs[0].name).None? {
          var p := Permission(id, specs[0].name, specs[0].resource, specs[0].action, Some(specs[0].description));
          KeysAppend(s.permissions, p, PermissionIdOf);
        }
      }
      forall i, j | 0 <= i < j < |specs[1..]| ensures permissionId(specs[1..][i].name) != permissionId(specs[1..][j].name) {
        assert specs[1..][i] == specs[i + 1] && specs[1..][j] == specs[j + 1];
      }
      UpsertPermissionsSucceeds(s1, specs[1..], permissionId);
    }
  }

  /** A grant never fails: the permission exists whenever it is written. */
  lemma GrantSucceeds(s: Store, rid: Id, name: string)
    requires rid in RoleIds(s.roles)
    ensures Grant(s, rid, name).Ok?
  {
    if PermissionIndexByName(s.permissions, name).Some? {
      KeysMember(s.permissions, PermissionIndexByName(s.permissions, name).value, PermissionIdOf);
    }
  }

  lemma {:induction false} GrantsSucceed(s: Store, rid: Id, names: seq<string>)
    requires rid in RoleIds(s.roles)
    ensures Grants(s, rid, names).Ok?
    decreases |names|
  {
    if |names| > 0 {
      GrantSucceeds(s, rid, names[0]);
      GrantsSucceed(Grant(s, rid, names[0]).value, rid, names[1..]);
    }
  }

  /** A role of the seed is seeded unless its name is free and its id is
      taken; a new role is appended as a system role. */
  lemma SeedRoleSucceeds(s: Store, spec: RoleSpec, id: Id)
    requires RoleIndexByName(s.roles, spec.name).Some? || id !in RoleIds(s.roles)
    ensures SeedRole(s, spec, id).Ok?
    ensures RoleIndexByName(s.roles, spec.name).None? ==>
      SeedRole(s, spec, id).value.0.roles == s.roles + [Role(id, spec.name, Some(spec.description), true)]
  {
    var (s1, rid) := UpsertRole(s, spec, id).value;
    GrantsSucceed(s1, rid, spec.grants);
    assert Grants(s1, rid, spec.grants).value.roles == s1.roles;
  }

  /** After the `admin` role, the other two system roles are seeded when
      their names are free and their ids differ from each other and from
      the one role on record. */
  lemma SeedLaterRolesSucceed(s1: Store, m: Id, u: Id)
    requires |s1.roles| == 1 && s1.roles[0].name == AdminRole
    requires m != u && m != s1.roles[0].id && u != s1.roles[0].id
    ensures SeedRole(s1, ModeratorSpec, m).Ok?
    ensures SeedRole(SeedRole(s1, ModeratorSpec, m).value.0, UserSpec, u).Ok?
  {
    assert RoleIds(s1.roles) == [s1.roles[0].id];
    assert RoleNameOf(s1.roles[0]) != ModeratorSpec.name;
    SeedRoleSucceeds(s1, ModeratorSpec, m);
    var s2 := SeedRole(s1, ModeratorSpec, m).value.0;
    assert RoleIds(s2.roles) == [s1.roles[0].id, m];
    SeedRoleSucceeds(s2, UserSpec, u);
  }

  /** The three system roles are seeded into a store with no roles when
      their ids differ. */
  lemma SeedRolesSucceed(s: Store, roleId: string -> Id)
    requires s.roles == [] && DistinctSystemRoleIds(roleId)
    ensures SeedRoles(s, roleId).Ok?
  {
    var a := roleId(AdminSpec.name);
    SeedRoleSucceeds(s, AdminSpec, a);
    var s1 := SeedRole(s, AdminSpec, a).value.0;
    SeedLaterRolesSucceed(s1, roleId(ModeratorSpec.name), roleId(UserSpec.name));
  }

  /** Linking a user to a role never fails. */
  lemma UpsertUserRoleSucceeds(s: Store, uid: Id, rid: Id)
    requires uid in UserIds(s.users) && rid in RoleIds(s.roles)
    ensures UpsertUserRole(s, uid, rid).Ok?
  {
  }

  /** The administrator is seeded unless its e-mail is free and its id is
      taken. */
  lemma SeedAdminSucceeds(s: Store, rid: Id, adminId: Id, digest: string, now: Time)
    requires rid in RoleIds(s.roles)
    requires UserIndexByEmail(s.users, AdminEmail).Some? || adminId !in UserIds(s.users)
    ensures SeedAdmin(s, rid, adminId, digest, now).Ok?
  {
    var (s1, uid) := UpsertAdmin(s, adminId, digest, now).value;
    UpsertUserRoleSucceeds(s1, uid, rid);
  }

  /** The seed succeeds on a store with no roles whenever the generated
      ids are fresh and pairwise different, and the administrator's id is
      free unless its e-mail is already on record. */
  lemma SeedSucceeds(s: Store, permissionId: string -> Id, roleId: string -> Id, adminId: Id, digest: string, now: Time)
    requires s.roles == []
    requires FreshPermissionIds(s.permissions, PermissionSpecs, permissionId) && DistinctSystemRoleIds(roleId)
    requires UserIndexByEmail(s.users, AdminEmail).Some? || adminId !in UserIds(s.users)
    ensures RunSeed(s, permissionId, roleId, adminId, digest, now).Ok?
  {
    UpsertPermissionsSucceeds(s, PermissionSpecs, permissionId);
    var s1 := UpsertPermissions(s, PermissionSpecs, permissionId).value;
    SeedRolesSucceed(s1, roleId);
    var (s2, rid) := SeedRoles(s1, roleId).value;
    assert s2.users == s.users;
    SeedAdminSucceeds(s2, rid, adminId, digest, now);
  }

  /** A successful seed leaves every permission, every system role with
      its grants, and the administrator with the `admin` role on record. */
  lemma SeedEstablishes(s: Store, permissionId: string -> Id, roleId: string -> Id, adminId: Id, digest: string, now: Time)
    requires RunSeed(s, permissionId, roleId, adminId, digest, now).Ok?
    ensures Seeded(RunSeed(s, permissionId, roleId, adminId, digest, now).value)
  {
    var s1 := UpsertPermissions(s, PermissionSpecs, permissionId).value;
    var (s2, rid) := SeedRoles(s1, roleId).value;
    var s3 := SeedAdmin(s2, rid, adminId, digest, now).value;
    PermissionsSeededStable(s1, s2);
    PermissionsSeededStable(s2, s3);
    RoleSeededStable(s2, s3, AdminSpec);
    RoleSeededStable(s2, s3, ModeratorSpec);
    RoleSeededStable(s2, s3, UserSpec);
  }

  /** Seeding a seeded database writes nothing. */
  lemma SeedIdempotent(s: Store, permissionId: string -> Id, roleId: string -> Id, adminId: Id, digest: string, now: Time)
    requires Seeded(s)
    ensures RunSeed(s, permissionId, roleId, adminId, digest, now) == Ok(s)
  {
    var (s2, rid) := SeedRoles(s, roleId).value;
    assert s2 == s;
    assert AdminRoleIs(s, rid);
  }

  /** Seeding twice is seeding once. */
  lemma SeedTwice(s: Store, permissionId: string -> Id, roleId: string -> Id, adminId: Id, digest: string, now: Time)
    requires RunSeed(s, permissionId, roleId, adminId, digest, now).Ok?
    ensures var t := RunSeed(s, permissionId, roleId, adminId, digest, now).value;
      RunSeed(t, permissionId, roleId, adminId, digest, now) == Ok(t)
  {
    SeedEstablishes(s, permissionId, roleId, adminId, digest, now);
    SeedIdempotent(RunSeed(s, permissionId, roleId, adminId, digest, now).value, permissionId, roleId, adminId, digest, now);
  }
}

=== FILE: store.dfy ===
/** The relational store behind the services, as an immutable value: users,
    roles, permissions, the user-role and role-permission join tables,
    refresh tokens, password-reset tokens, the append-only login-attempt log
    and linked social accounts. `Valid` states the database's unique and
    foreign-key constraints; the write primitives below enforce them the way
    the database does, failing with a 500 error instead of writing. */
module Store {
  import opened Common
  import opened Errors
  import Crypto

  type Id = string
  type Time = Crypto.Time

  /** Names with a fixed meaning in the services. */
  const AdminRole: string := "admin"
  const DefaultRole: string := "user"
  const Wildcard: string := "*:*"

  datatype User = User(
    id: Id,
    email: string,
    passwordHash: Option<string>,
    firstName: Option<string>,
    lastName: Option<string>,
    isActive: bool,
    isVerified: bool,
    emailVerifiedAt: Option<Time>,
    lastLoginAt: Option<Time>,
    createdAt: Time)

  datatype Role = Role(id: Id, name: string, description: Option<string>, isSystem: bool)

  datatype Permission = Permission(
    id: Id, name: string, resource: string, action: string, description: Option<string>)

  datatype UserRole = UserRole(userId: Id, roleId: Id)

  datatype RolePermission = RolePermission(roleId: Id, permissionId: Id)

  /** A refresh token record: only the hash of the token is stored. */
  datatype RefreshToken = RefreshToken(
    userId: Id,
    tokenHash: string,
    deviceInfo: Option<string>,
    ipAddress: Option<string>,
    expiresAt: Time,
    isRevoked: bool,
    revokedAt: Option<Time>)

  datatype ResetToken = ResetToken(userId: Id, tokenHash: string, expiresAt: Time, isUsed: bool)

  datatype LoginAttempt = LoginAttempt(
    email: string, ipAddress: string, isSuccessful: bool, failureReason: Option<string>,
    attemptedAt: Time)

  /** A social-login account linked to a user. */
  datatype Account = Account(userId: Id, provider: string, providerAccountId: string, kind: string)

  datatype Store = Store(
    users: seq<User>,
    roles: seq<Role>,
    permissions: seq<Permission>,
    userRoles: seq<UserRole>,
    rolePermissions: seq<RolePermission>,
    refreshTokens: seq<RefreshToken>,
    resetTokens: seq<ResetToken>,
    attempts: seq<LoginAttempt>,
    accounts: seq<Account>)

  const Empty: Store := Store([], [], [], [], [], [], [], [], [])

  /** The outcome of a flow: the store after it (writes made before an error
      are kept, as in the source) and its result or error. */
  datatype Step<+T> = Step(store: Store, out: Result<T>)

  /** Errors the database client raises; the error handler reports any of
      them as a 500 internal error. */
  const UniqueViolation: AppError := Internal("Unique constraint failed")
  const ForeignKeyViolation: AppError := Internal("Foreign key constraint failed")
  const RecordMissing: AppError := Internal("Record to update or delete does not exist")

  // ---------------------------------------------------------------------
  // Keys

  function UserIdOf(u: User): Id { u.id }
  function EmailOf(u: User): string { u.email }
  function RoleIdOf(r: Role): Id { r.id }
  function RoleNameOf(r: Role): string { r.name }
  function PermissionIdOf(p: Permission): Id { p.id }
  function PermissionNameOf(p: Permission): string { p.name }
  function RefreshHashOf(t: RefreshToken): string { t.tokenHash }
  function ResetHashOf(t: ResetToken): string { t.tokenHash }
  function AccountKeyOf(a: Account): (string, string) { (a.provider, a.providerAccountId) }

  function UserIds(users: seq<User>): seq<Id> { Keys(users, UserIdOf) }
  function RoleIds(roles: seq<Role>): seq<Id> { Keys(roles, RoleIdOf) }
  function PermissionIds(ps: seq<Permission>): seq<Id> { Keys(ps, PermissionIdOf) }

  // ---------------------------------------------------------------------
  // Constraints

  predicate UsersValid(users: seq<User>) {
    UniqueBy(users, UserIdOf) && UniqueBy(users, EmailOf)
  }

  predicate RolesValid(roles: seq<Role>) {
    UniqueBy(roles, RoleIdOf) && UniqueBy(roles, RoleNameOf)
  }

  predicate PermissionsValid(ps: seq<Permission>) {
    UniqueBy(ps, PermissionIdOf) && UniqueBy(ps, PermissionNameOf)
  }

  predicate UserRolesValid(urs: seq<UserRole>, users: seq<User>, roles: seq<Role>) {
    && Distinct(urs)
    && (forall i :: 0 <= i < |urs| ==> urs[i].userId in UserIds(users))
    && (forall i :: 0 <= i < |urs| ==> urs[i].roleId in RoleIds(roles))
  }

  predicate RolePermissionsValid(rps: seq<RolePermission>, roles: seq<Role>, ps: seq<Permission>) {
    && Distinct(rps)
    && (forall i :: 0 <= i < |rps| ==> rps[i].roleId in RoleIds(roles))
    && (forall i :: 0 <= i < |rps| ==> rps[i].permissionId in PermissionIds(ps))
  }

  predicate RefreshTokensValid(ts: seq<RefreshToken>, users: seq<User>) {
    && UniqueBy(ts, RefreshHashOf)
    && (forall i :: 0 <= i < |ts| ==> ts[i].userId in UserIds(users))
  }

  predicate ResetTokensValid(ts: seq<ResetToken>, users: seq<User>) {
    && UniqueBy(ts, ResetHashOf)
    && (forall i :: 0 <= i < |ts| ==> ts[i].userId in UserIds(users))
  }

  predicate AccountsValid(accounts: seq<Account>, users: seq<User>) {
    && UniqueBy(accounts, AccountKeyOf)
    && (forall i :: 0 <= i < |accounts| ==> accounts[i].userId in UserIds(users))
  }

  /** Every unique and foreign-key constraint of the database holds. */
  predicate Valid(s: Store) {
    && UsersValid(s.users)
    && RolesValid(s.roles)
    && PermissionsValid(s.permissions)
    && UserRolesValid(s.userRoles, s.users, s.roles)
    && RolePermissionsValid(s.rolePermissions, s.roles, s.permissions)
    && RefreshTokensValid(s.refreshTokens, s.users)
    && ResetTokensValid(s.resetTokens, s.users)
    && AccountsValid(s.accounts, s.users)
  }

  // ---------------------------------------------------------------------
  // Lookups (`findUnique`)

  function UserIndex(users: seq<User>, id: Id): (r: Option<nat>)
    ensures r.Some? ==> r.value < |users| && users[r.value].id == id
    ensures r.None? <==> id !in UserIds(users)
  {
    Find(users, (u: User) => u.id == id)
  }

  function EmailIs(email: string): User -> bool { (u: User) => u.email == email }
  function RoleNamed(name: string): Role -> bool { (x: Role) => x.name == name }
  function PermissionNamed(name: string): Permission -> bool { (x: Permission) => x.name == name }

  function UserIndexByEmail(users: seq<User>, email: string): (r: Option<nat>)
    ensures r.Some? ==> r.value < |users| && users[r.value].email == email
    ensures r.None? <==> forall i :: 0 <= i < |users| ==> users[i].email != email
  {
    Find(users, EmailIs(email))
  }

  function RoleIndex(roles: seq<Role>, id: Id): (r: Option<nat>)
    ensures r.Some? ==> r.value < |roles| && roles[r.value].id == id
    ensures r.None? <==> id !in RoleIds(roles)
  {
    Find(roles, (x: Role) => x.id == id)
  }

  function RoleIndexByName(roles: seq<Role>, name: string): (r: Option<nat>)
    ensures r.Some? ==> r.value < |roles| && roles[r.value].name == name
    ensures r.None? <==> forall i :: 0 <= i < |roles| ==> roles[i].name != name
  {
    Find(roles, RoleNamed(name))
  }

  function PermissionIndexByName(ps: seq<Permission>, name: string): (r: Option<nat>)
    ensures r.Some? ==> r.value < |ps| && ps[r.value].name == name
    ensures r.None? <==> forall i :: 0 <= i < |ps| ==> ps[i].name != name
  {
    Find(ps, PermissionNamed(name))
  }

  function PermissionIndex(ps: seq<Permission>, id: Id): (r: Option<nat>)
    ensures r.Some? ==> r.value < |ps| && ps[r.value].id == id
    ensures r.None? <==> id !in PermissionIds(ps)
  {
    Find(ps, (x: Permission) => x.id == id)
  }

  function RefreshHashIs(hash: string): RefreshToken -> bool { (t: RefreshToken) => t.tokenHash == hash }

  function RefreshIndex(ts: seq<RefreshToken>, hash: string): (r: Option<nat>)
    ensures r.Some? ==> r.value < |ts| && ts[r.value].tokenHash == hash
    ensures r.None? <==> hash !in Keys(ts, RefreshHashOf)
  {
    Find(ts, RefreshHashIs(hash))
  }

  function ResetIndex(ts: seq<ResetToken>, hash: string): (r: Option<nat>)
    ensures r.Some? ==> r.value < |ts| && ts[r.value].tokenHash == hash
    ensures r.None? <==> hash !in Keys(ts, ResetHashOf)
  {
    Find(ts, (t: ResetToken) => t.tokenHash == hash)
  }

  function AccountIndex(accounts: seq<Account>, provider: string, providerAccountId: string): (r: Option<nat>)
    ensures r.Some? ==> r.value < |accounts| && AccountKeyOf(accounts[r.value]) == (provider, providerAccountId)
    ensures r.None? <==> (provider, providerAccountId) !in Keys(accounts, AccountKeyOf)
  {
    Find(accounts, (a: Account) => AccountKeyOf(a) == (provider, providerAccountId))
  }

  /** A newly linked identity is found at the end of the table. */
  lemma AccountIndexAppend(accounts: seq<Account>, link: Account)
    requires AccountIndex(accounts, link.provider, link.providerAccountId).None?
    ensures AccountIndex(accounts + [link], link.provider, link.providerAccountId) == Some(|accounts|)
  {
    var key := AccountKeyOf(link);
    var all := accounts + [link];
    forall j | 0 <= j < |accounts| ensures AccountKeyOf(all[j]) != key {
      KeysMember(accounts, j, AccountKeyOf);
    }
    assert AccountKeyOf(all[|accounts|]) == key;
  }

  function FindRole(roles: seq<Role>, id: Id): (r: Option<Role>)
    ensures r.Some? ==> r.value in roles && r.value.id == id
    ensures r.None? <==> id !in RoleIds(roles)
  {
    match RoleIndex(roles, id)
    case None => None
    case Some(k) => Some(roles[k])
  }

  function FindPermission(ps: seq<Permission>, id: Id): (r: Option<Permission>)
    ensures r.Some? ==> r.value in ps && r.value.id == id
    ensures r.None? <==> id !in PermissionIds(ps)
  {
    match PermissionIndex(ps, id)
    case None => None
    case Some(k) => Some(ps[k])
  }

  /** With unique ids, the role found for an id is the one holding it. */
  lemma FindRoleUnique(roles: seq<Role>, j: nat)
    requires UniqueBy(roles, RoleIdOf) && j < |roles|
    ensures FindRole(roles, roles[j].id) == Some(roles[j])
  {
    assert Keys(roles, RoleIdOf)[j] == roles[j].id;
    var k := RoleIndex(roles, roles[j].id).value;
    assert RoleIdOf(roles[k]) == RoleIdOf(roles[j]);
  }

  lemma FindPermissionUnique(ps: seq<Permission>, j: nat)
    requires UniqueBy(ps, PermissionIdOf) && j < |ps|
    ensures FindPermission(ps, ps[j].id) == Some(ps[j])
  {
    assert Keys(ps, PermissionIdOf)[j] == ps[j].id;
    var k := PermissionIndex(ps, ps[j].id).value;
    assert PermissionIdOf(ps[k]) == PermissionIdOf(ps[j]);
  }

  predicate UserExists(s: Store, id: Id) {
    id in UserIds(s.users)
  }

  predicate EmailTaken(s: Store, email: string) {
    UserIndexByEmail(s.users, email).Some?
  }

  // ---------------------------------------------------------------------
  // Role and permission resolution: the `userRoles -> role ->
  // rolePermissions -> permission` include the services load with a user.

  /** The roles assigned to `uid`, in assignment order. */
  function RolesVia(urs: seq<UserRole>, roles: seq<Role>, uid: Id): seq<Role> {
    if |urs| == 0 then []
    else
      var head := if urs[0].userId == uid then FindRole(roles, urs[0].roleId) else None;
      (if head.Some? then [head.value] else []) + RolesVia(urs[1..], roles, uid)
  }

  /** Names of the permissions granted to role `rid`, in grant order. */
  function PermissionNamesVia(rps: seq<RolePermission>, ps: seq<Permission>, rid: Id): seq<string> {
    if |rps| == 0 then []
    else
      var head := if rps[0].roleId == rid then FindPermission(ps, rps[0].permissionId) else None;
      (if head.Some? then [head.value.name] else []) + PermissionNamesVia(rps[1..], ps, rid)
  }

  /** `roles.flatMap(r => r.rolePermissions.map(rp => rp.permission.name))`. */
  function PermissionNamesOfRoles(rps: seq<RolePermission>, ps: seq<Permission>, rs: seq<Role>): seq<string> {
    if |rs| == 0 then []
    else PermissionNamesVia(rps, ps, rs[0].id) + PermissionNamesOfRoles(rps, ps, rs[1..])
  }

  function RoleNames(rs: seq<Role>): (names: seq<string>)
    ensures |names| == |rs|
    ensures forall i :: 0 <= i < |rs| ==> names[i] == rs[i].name
  {
    seq(|rs|, i requires 0 <= i < |rs| => rs[i].name)
  }

  function AssignedRoles(s: Store, uid: Id): seq<Role> {
    RolesVia(s.userRoles, s.roles, uid)
  }

  /** `user.userRoles.map(ur => ur.role.name)`. */
  function RoleNamesOf(s: Store, uid: Id): seq<string> {
    RoleNames(AssignedRoles(s, uid))
  }

  /** The user's permission names, duplicates included, before any
      de-duplication. */
  function PermissionNamesOf(s: Store, uid: Id): seq<string> {
    PermissionNamesOfRoles(s.rolePermissions, s.permissions, AssignedRoles(s, uid))
  }

  lemma {:induction false} RolesViaMember(urs: seq<UserRole>, roles: seq<Role>, uid: Id, r: Role)
    ensures r in RolesVia(urs, roles, uid) <==>
      exists i :: 0 <= i < |urs| && urs[i].userId == uid && FindRole(roles, urs[i].roleId) == Some(r)
  {
    if |urs| > 0 {
      RolesViaMember(urs[1..], roles, uid, r);
      if exists i :: 0 <= i < |urs[1..]| && urs[1..][i].userId == uid && FindRole(roles, urs[1..][i].roleId) == Some(r) {
        var i :| 0 <= i < |urs[1..]| && urs[1..][i].userId == uid && FindRole(roles, urs[1..][i].roleId) == Some(r);
        assert urs[i + 1] == urs[1..][i];
      }
      if exists i :: 0 <= i < |urs| && urs[i].userId == uid && FindRole(roles, urs[i].roleId) == Some(r) {
        var i :| 0 <= i < |urs| && urs[i].userId == uid && FindRole(roles, urs[i].roleId) == Some(r);
        if i > 0 {
          assert urs[1..][i - 1] == urs[i];
        }
      }
    }
  }

  lemma {:induction false} PermissionNamesViaMember(rps: seq<RolePermission>, ps: seq<Permission>, rid: Id, n: string)
    ensures n in PermissionNamesVia(rps, ps, rid) <==>
      exists k :: 0 <= k < |rps| && rps[k].roleId == rid && HoldsName(ps, rps[k].permissionId, n)
  {
    if |rps| > 0 {
      PermissionNamesViaMember(rps[1..], ps, rid, n);
      if exists k :: 0 <= k < |rps[1..]| && rps[1..][k].roleId == rid && HoldsName(ps, rps[1..][k].permissionId, n) {
        var k :| 0 <= k < |rps[1..]| && rps[1..][k].roleId == rid && HoldsName(ps, rps[1..][k].permissionId, n);
        assert rps[k + 1] == rps[1..][k];
      }
      if exists k :: 0 <= k < |rps| && rps[k].roleId == rid && HoldsName(ps, rps[k].permissionId, n) {
        var k :| 0 <= k < |rps| && rps[k].roleId == rid && HoldsName(ps, rps[k].permissionId, n);
        if k > 0 {
          assert rps[1..][k - 1] == rps[k];
        }
      }
    }
  }

  /** The permission with id `pid` exists and is named `n`. */
  predicate HoldsName(ps: seq<Permission>, pid: Id, n: string) {
    FindPermission(ps, pid).Some? && FindPermission(ps, pid).value.name == n
  }

  lemma {:induction false} PermissionNamesOfRolesMember(rps: seq<RolePermission>, ps: seq<Permission>, rs: seq<Role>, n: string)
    ensures n in PermissionNamesOfRoles(rps, ps, rs) <==>
      exists j :: 0 <= j < |rs| && n in PermissionNamesVia(rps, ps, rs[j].id)
  {
    if |rs| > 0 {
      PermissionNamesOfRolesMember(rps, ps, rs[1..], n);
      if exists j :: 0 <= j < |rs[1..]| && n in PermissionNamesVia(rps, ps, rs[1..][j].id) {
        var j :| 0 <= j < |rs[1..]| && n in PermissionNamesVia(rps, ps, rs[1..][j].id);
        assert rs[j + 1] == rs[1..][j];
      }
      if exists j :: 0 <= j < |rs| && n in PermissionNamesVia(rps, ps, rs[j].id) {
        var j :| 0 <= j < |rs| && n in PermissionNamesVia(rps, ps, rs[j].id);
        if j > 0 {
          assert rs[1..][j - 1] == rs[j];
        }
      }
    }
  }

  lemma {:induction false} RolesViaAppend(urs: seq<UserRole>, extra: seq<UserRole>, roles: seq<Role>, uid: Id)
    ensures RolesVia(urs + extra, roles, uid) == RolesVia(urs, roles, uid) + RolesVia(extra, roles, uid)
  {
    if |urs| == 0 {
      assert urs + extra == extra;
    } else {
      var all := urs + extra;
      assert all[0] == urs[0];
      assert all[1..] == urs[1..] + extra;
      RolesViaAppend(urs[1..], extra, roles, uid);
      var head := if urs[0].userId == uid then FindRole(roles, urs[0].roleId) else None;
      var h := if head.Some? then [head.value] else [];
      assert RolesVia(all, roles, uid) == h + RolesVia(all[1..], roles, uid);
      assert RolesVia(urs, roles, uid) == h + RolesVia(urs[1..], roles, uid);
    }
  }

  lemma {:induction false} RolesViaNone(urs: seq<UserRole>, roles: seq<Role>, uid: Id)
    requires forall i :: 0 <= i < |urs| ==> urs[i].userId != uid
    ensures RolesVia(urs, roles, uid) == []
  {
    if |urs| > 0 {
      RolesViaNone(urs[1..], roles, uid);
    }
  }

  /** A user id not on record has no role assignment. */
  lemma UnknownUserHasNoRoles(s: Store, uid: Id)
    requires Valid(s) && uid !in UserIds(s.users)
    ensures AssignedRoles(s, uid) == []
  {
    RolesViaNone(s.userRoles, s.roles, uid);
  }

  /** Resolution only reads the role, permission and join tables. */
  lemma ResolutionFrame(s: Store, t: Store, uid: Id)
    requires s.roles == t.roles && s.permissions == t.permissions
    requires s.userRoles == t.userRoles && s.rolePermissions == t.rolePermissions
    ensures RoleNamesOf(s, uid) == RoleNamesOf(t, uid)
    ensures PermissionNamesOf(s, uid) == PermissionNamesOf(t, uid)
  {
  }

  // ---------------------------------------------------------------------
  // Key-set facts used by the write primitives

  lemma KeysAppend<T, K>(xs: seq<T>, x: T, key: T -> K)
    ensures Keys(xs + [x], key) == Keys(xs, key) + [key(x)]
  {
  }

  lemma KeysMember<T, K>(xs: seq<T>, i: nat, key: T -> K)
    requires i < |xs|
    ensures key(xs[i]) in Keys(xs, key)
  {
    assert Keys(xs, key)[i] == key(xs[i]);
  }

  /** A record appended under a fresh hash is the one found by that hash. */
  lemma RefreshIndexFreshAppend(ts: seq<RefreshToken>, t: RefreshToken)
    requires t.tokenHash !in Keys(ts, RefreshHashOf)
    ensures RefreshIndex(ts + [t], t.tokenHash) == Some(|ts|)
  {
    KeysAppend(ts, t, RefreshHashOf);
    forall j | 0 <= j < |ts| ensures ts[j].tokenHash != t.tokenHash {
      KeysMember(ts, j, RefreshHashOf);
    }
  }

  /** A key of a kept element survives a filter. */
  lemma KeysFilter<T, K>(xs: seq<T>, p: T -> bool, key: T -> K, k: K)
    requires k in Keys(xs, key)
    requires forall x :: key(x) == k ==> p(x)
    ensures k in Keys(Filter(xs, p), key)
  {
    var i :| 0 <= i < |xs| && Keys(xs, key)[i] == k;
    assert xs[i] in Filter(xs, p);
    var j :| 0 <= j < |Filter(xs, p)| && Filter(xs, p)[j] == xs[i];
    KeysMember(Filter(xs, p), j, key);
  }

  /** Rewriting token records without touching their hashes or owners keeps
      the refresh-token constraints. */
  lemma RefreshTokensRewritten(ts: seq<RefreshToken>, ts': seq<RefreshToken>, users: seq<User>)
    requires |ts'| == |ts|
    requires forall i :: 0 <= i < |ts| ==> ts'[i].tokenHash == ts[i].tokenHash && ts'[i].userId == ts[i].userId
    requires RefreshTokensValid(ts, users)
    ensures RefreshTokensValid(ts', users)
  {
    assert Keys(ts', RefreshHashOf) == Keys(ts, RefreshHashOf);
  }

  lemma ResetTokensRewritten(ts: seq<ResetToken>, ts': seq<ResetToken>, users: seq<User>)
    requires |ts'| == |ts|
    requires forall i :: 0 <= i < |ts| ==> ts'[i].tokenHash == ts[i].tokenHash && ts'[i].userId == ts[i].userId
    requires ResetTokensValid(ts, users)
    ensures ResetTokensValid(ts', users)
  {
    assert Keys(ts', ResetHashOf) == Keys(ts, ResetHashOf);
  }

  /** Deleting refresh-token records keeps the constraints. */
  lemma RefreshTokensFiltered(ts: seq<RefreshToken>, p: RefreshToken -> bool, users: seq<User>)
    requires RefreshTokensValid(ts, users)
    ensures RefreshTokensValid(Filter(ts, p), users)
  {
    FilterUniqueBy(ts, p, RefreshHashOf);
    var r := Filter(ts, p);
    forall i | 0 <= i < |r| ensures r[i].userId in UserIds(users) {
      var j :| 0 <= j < |ts| && ts[j] == r[i];
    }
  }

  // ---------------------------------------------------------------------
  // Write primitives (`create`): each keeps `Valid`

  function InsertUser(s: Store, u: User): (r: Result<Store>)
    ensures r.Ok? <==> u.id !in UserIds(s.users) && !EmailTaken(s, u.email)
    ensures r.Ok? ==> r.value == s.(users := s.users + [u])
    ensures r.Err? ==> r.error == UniqueViolation
    ensures r.Ok? && Valid(s) ==> Valid(r.value)
  {
    if u.id in UserIds(s.users) || EmailTaken(s, u.email) then Err(UniqueViolation)
    else
      var t := s.(users := s.users + [u]);
      assert Valid(s) ==> Valid(t) by {
        if Valid(s) {
          UniqueByAppend(s.users, u, UserIdOf);
          KeysAppend(s.users, u, EmailOf);
          UniqueByAppend(s.users, u, EmailOf);
          KeysAppend(s.users, u, UserIdOf);
          assert forall x :: x in UserIds(s.users) ==> x in UserIds(t.users);
        }
      }
      Ok(t)
  }

  function InsertUserRole(s: Store, ur: UserRole): (r: Result<Store>)
    ensures r.Ok? <==>
      ur.userId in UserIds(s.users) && ur.roleId in RoleIds(s.roles) && ur !in s.userRoles
    ensures r.Ok? ==> r.value == s.(userRoles := s.userRoles + [ur])
    ensures r.Err? ==> r.error.Internal?
    ensures r.Ok? && Valid(s) ==> Valid(r.value)
  {
    if ur.userId !in UserIds(s.users) || ur.roleId !in RoleIds(s.roles) then Err(ForeignKeyViolation)
    else if ur in s.userRoles then Err(UniqueViolation)
    else Ok(s.(userRoles := s.userRoles + [ur]))
  }

  /** One assignment of user `uid` per role id, in order. */
  function Assignments(uid: Id, roleIds: seq<Id>): (urs: seq<UserRole>)
    ensures |urs| == |roleIds|
    ensures forall i :: 0 <= i < |roleIds| ==> urs[i] == UserRole(uid, roleIds[i])
  {
    seq(|roleIds|, i requires 0 <= i < |roleIds| => UserRole(uid, roleIds[i]))
  }

  lemma AssignmentsCons(uid: Id, roleIds: seq<Id>)
    requires |roleIds| > 0
    ensures Assignments(uid, roleIds) == [UserRole(uid, roleIds[0])] + Assignments(uid, roleIds[1..])
  {
    var a := Assignments(uid, roleIds);
    var b := [UserRole(uid, roleIds[0])] + Assignments(uid, roleIds[1..]);
    forall i | 0 <= i < |a| ensures a[i] == b[i] {
      if i > 0 { assert roleIds[1..][i - 1] == roleIds[i]; }
    }
  }

  /** The assignments of `roleIds` to `uid` can all be written: the user
      and every role exist, no role id repeats and none is assigned yet.
      An empty list writes nothing and needs nothing. */
  predicate Assignable(s: Store, uid: Id, roleIds: seq<Id>) {
    && (|roleIds| > 0 ==> uid in UserIds(s.users))
    && Distinct(roleIds)
    && (forall i :: 0 <= i < |roleIds| ==> roleIds[i] in RoleIds(s.roles))
    && (forall i :: 0 <= i < |roleIds| ==> UserRole(uid, roleIds[i]) !in s.userRoles)
  }

  /** A list is assignable exactly when its head can be inserted and its
      tail is assignable afterwards. */
  lemma AssignableCons(s: Store, uid: Id, roleIds: seq<Id>)
    requires |roleIds| > 0
    ensures var ur := UserRole(uid, roleIds[0]);
      Assignable(s, uid, roleIds) <==>
        InsertUserRole(s, ur).Ok? && Assignable(s.(userRoles := s.userRoles + [ur]), uid, roleIds[1..])
  {
    var ur := UserRole(uid, roleIds[0]);
    var s1 := s.(userRoles := s.userRoles + [ur]);
    var tail := roleIds[1..];
    if Assignable(s, uid, roleIds) {
      forall i | 0 <= i < |tail| ensures UserRole(uid, tail[i]) !in s1.userRoles {
        assert tail[i] == roleIds[i + 1] != roleIds[0];
      }
    }
    if InsertUserRole(s, ur).Ok? && Assignable(s1, uid, tail) {
      forall i, j | 0 <= i < j < |roleIds| ensures roleIds[i] != roleIds[j] {
        assert tail[j - 1] == roleIds[j];
        if i == 0 {
          assert UserRole(uid, tail[j - 1]) != ur;
        } else {
          assert tail[i - 1] == roleIds[i];
        }
      }
      forall i | 0 <= i < |roleIds| ensures UserRole(uid, roleIds[i]) !in s.userRoles {
        if i > 0 {
          assert tail[i - 1] == roleIds[i];
        }
      }
    }
  }

  /** A user id just added holds no assignment yet, so any list of
      distinct existing roles can be assigned to it. */
  lemma FreshUserAssignable(s: Store, s1: Store, uid: Id, roleIds: seq<Id>)
    requires Valid(s) && uid !in UserIds(s.users)
    requires s1.roles == s.roles && s1.userRoles == s.userRoles && uid in UserIds(s1.users)
    ensures Assignable(s1, uid, roleIds) <==>
      Distinct(roleIds) && forall i :: 0 <= i < |roleIds| ==> roleIds[i] in RoleIds(s.roles)
  {
  }

  /** Nested `userRoles: { create: roleIds.map(...) }`: all or nothing. */
  function InsertUserRoles(s: Store, uid: Id, roleIds: seq<Id>): (r: Result<Store>)
    ensures r.Ok? <==> Assignable(s, uid, roleIds)
    ensures r.Ok? ==> r.value == s.(userRoles := r.value.userRoles)
    ensures r.Ok? ==> r.value.userRoles == s.userRoles + Assignments(uid, roleIds)
    ensures r.Err? ==> r.error.Internal?
    ensures r.Ok? && Valid(s) ==> Valid(r.value)
    decreases |roleIds|
  {
    if |roleIds| == 0 then Ok(s)
    else
      AssignableCons(s, uid, roleIds);
      match InsertUserRole(s, UserRole(uid, roleIds[0]))
      case Err(e) => Err(e)
      case Ok(s1) =>
        match InsertUserRoles(s1, uid, roleIds[1..])
        case Err(e) => Err(e)
        case Ok(s2) =>
          AssignmentsCons(uid, roleIds);
          AppendAssoc(s.userRoles, [UserRole(uid, roleIds[0])], Assignments(uid, roleIds[1..]));
          assert s2 == s.(userRoles := s2.userRoles);
          Ok(s2)
  }

  function InsertRole(s: Store, role: Role): (r: Result<Store>)
    ensures r.Ok? <==>
      role.id !in RoleIds(s.roles) && RoleIndexByName(s.roles, role.name).None?
    ensures r.Ok? ==> r.value == s.(roles := s.roles + [role])
    ensures r.Err? ==> r.error == UniqueViolation
    ensures r.Ok? && Valid(s) ==> Valid(r.value)
  {
    if role.id in RoleIds(s.roles) || RoleIndexByName(s.roles, role.name).Some? then Err(UniqueViolation)
    else
      var t := s.(roles := s.roles + [role]);
      assert Valid(s) ==> Valid(t) by {
        if Valid(s) {
          UniqueByAppend(s.roles, role, RoleIdOf);
          KeysAppend(s.roles, role, RoleNameOf);
          UniqueByAppend(s.roles, role, RoleNameOf);
          KeysAppend(s.roles, role, RoleIdOf);
        }
      }
      Ok(t)
  }

  function InsertPermission(s: Store, p: Permission): (r: Result<Store>)
    ensures r.Ok? <==>
      p.id !in PermissionIds(s.permissions) && PermissionIndexByName(s.permissions, p.name).None?
    ensures r.Ok? ==> r.value == s.(permissions := s.permissions + [p])
    ensures r.Err? ==> r.error == UniqueViolation
    ensures r.Ok? && Valid(s) ==> Valid(r.value)
  {
    if p.id in PermissionIds(s.permissions) || PermissionIndexByName(s.permissions, p.name).Some? then Err(UniqueViolation)
    else
      var t := s.(permissions := s.permissions + [p]);
      assert Valid(s) ==> Valid(t) by {
        if Valid(s) {
          UniqueByAppend(s.permissions, p, PermissionIdOf);
          KeysAppend(s.permissions, p, PermissionNameOf);
          UniqueByAppend(s.permissions, p, PermissionNameOf);
          KeysAppend(s.permissions, p, PermissionIdOf);
        }
      }
      Ok(t)
  }

  function InsertRolePermission(s: Store, rp: RolePermission): (r: Result<Store>)
    ensures r.Ok? <==>
      rp.roleId in RoleIds(s.roles) && rp.permissionId in PermissionIds(s.permissions)
      && rp !in s.rolePermissions
    ensures r.Ok? ==> r.value == s.(rolePermissions := s.rolePermissions + [rp])
    ensures r.Err? ==> r.error.Internal?
    ensures r.Ok? && Valid(s) ==> Valid(r.value)
  {
    if rp.roleId !in RoleIds(s.roles) || rp.permissionId !in PermissionIds(s.permissions) then
      Err(ForeignKeyViolation)
    else if rp in s.rolePermissions then Err(UniqueViolation)
    else Ok(s.(rolePermissions := s.rolePermissions + [rp]))
  }

  /** One grant to role `rid` per permission id, in order. */
  function GrantList(rid: Id, pids: seq<Id>): (rps: seq<RolePermission>)
    ensures |rps| == |pids|
    ensures forall i :: 0 <= i < |pids| ==> rps[i] == RolePermission(rid, pids[i])
  {
    seq(|pids|, i requires 0 <= i < |pids| => RolePermission(rid, pids[i]))
  }

  lemma GrantListCons(rid: Id, pids: seq<Id>)
    requires |pids| > 0
    ensures GrantList(rid, pids) == [RolePermission(rid, pids[0])] + GrantList(rid, pids[1..])
  {
    var a := GrantList(rid, pids);
    var b := [RolePermission(rid, pids[0])] + GrantList(rid, pids[1..]);
    forall i | 0 <= i < |a| ensures a[i] == b[i] {
      if i > 0 { assert pids[1..][i - 1] == pids[i]; }
    }
  }

  /** The grants of `pids` to `rid` can all be written: the role and every
      permission exist, no permission id repeats and none is granted yet. */
  predicate Grantable(s: Store, rid: Id, pids: seq<Id>) {
    && (|pids| > 0 ==> rid in RoleIds(s.roles))
    && Distinct(pids)
    && (forall i :: 0 <= i < |pids| ==> pids[i] in PermissionIds(s.permissions))
    && (forall i :: 0 <= i < |pids| ==> RolePermission(rid, pids[i]) !in s.rolePermissions)
  }

  lemma GrantableCons(s: Store, rid: Id, pids: seq<Id>)
    requires |pids| > 0
    ensures var rp := RolePermission(rid, pids[0]);
      Grantable(s, rid, pids) <==>
        InsertRolePermission(s, rp).Ok? && Grantable(s.(rolePermissions := s.rolePermissions + [rp]), rid, pids[1..])
  {
    var rp := RolePermission(rid, pids[0]);
    var s1 := s.(rolePermissions := s.rolePermissions + [rp]);
    var tail := pids[1..];
    if Grantable(s, rid, pids) {
      forall i | 0 <= i < |tail| ensures RolePermission(rid, tail[i]) !in s1.rolePermissions {
        assert tail[i] == pids[i + 1] != pids[0];
      }
    }
    if InsertRolePermission(s, rp).Ok? && Grantable(s1, rid, tail) {
      forall i, j | 0 <= i < j < |pids| ensures pids[i] != pids[j] {
        assert tail[j - 1] == pids[j];
        if i == 0 {
          assert RolePermission(rid, tail[j - 1]) != rp;
        } else {
          assert tail[i - 1] == pids[i];
        }
      }
      forall i | 0 <= i < |pids| ensures RolePermission(rid, pids[i]) !in s.rolePermissions {
        if i > 0 {
          assert tail[i - 1] == pids[i];
        }
      }
    }
  }

  /** Nested `rolePermissions: { create: permissionIds.map(...) }`: all or
      nothing. */
  function InsertRolePermissions(s: Store, rid: Id, pids: seq<Id>): (r: Result<Store>)
    ensures r.Ok? <==> Grantable(s, rid, pids)
    ensures r.Ok? ==> r.value == s.(rolePermissions := r.value.rolePermissions)
    ensures r.Ok? ==> r.value.rolePermissions == s.rolePermissions + GrantList(rid, pids)
    ensures r.Err? ==> r.error.Internal?
    ensures r.Ok? && Valid(s) ==> Valid(r.value)
    decreases |pids|
  {
    if |pids| == 0 then Ok(s)
    else
      GrantableCons(s, rid, pids);
      match InsertRolePermission(s, RolePermission(rid, pids[0]))
      case Err(e) => Err(e)
      case Ok(s1) =>
        match InsertRolePermissions(s1, rid, pids[1..])
        case Err(e) => Err(e)
        case Ok(s2) =>
          GrantListCons(rid, pids);
          AppendAssoc(s.rolePermissions, [RolePermission(rid, pids[0])], GrantList(rid, pids[1..]));
          assert s2 == s.(rolePermissions := s2.rolePermissions);
          Ok(s2)
  }

  function InsertRefreshToken(s: Store, t: RefreshToken): (r: Result<Store>)
    ensures r.Ok? <==> t.userId in UserIds(s.users) && t.tokenHash !in Keys(s.refreshTokens, RefreshHashOf)
    ensures r.Ok? ==> r.value == s.(refreshTokens := s.refreshTokens + [t])
    ensures r.Err? ==> r.error.Internal?
    ensures r.Ok? && Valid(s) ==> Valid(r.value)
  {
    if t.userId !in UserIds(s.users) then Err(ForeignKeyViolation)
    else if t.tokenHash in Keys(s.refreshTokens, RefreshHashOf) then Err(UniqueViolation)
    else
      var s' := s.(refreshTokens := s.refreshTokens + [t]);
      assert Valid(s) ==> Valid(s') by {
        if Valid(s) {
          UniqueByAppend(s.refreshTokens, t, RefreshHashOf);
        }
      }
      Ok(s')
  }

  function InsertResetToken(s: Store, t: ResetToken): (r: Result<Store>)
    ensures r.Ok? <==> t.userId in UserIds(s.users) && t.tokenHash !in Keys(s.resetTokens, ResetHashOf)
    ensures r.Ok? ==> r.value == s.(resetTokens := s.resetTokens + [t])
    ensures r.Err? ==> r.error.Internal?
    ensures r.Ok? && Valid(s) ==> Valid(r.value)
  {
    if t.userId !in UserIds(s.users) then Err(ForeignKeyViolation)
    else if t.tokenHash in Keys(s.resetTokens, ResetHashOf) then Err(UniqueViolation)
    else
      var s' := s.(resetTokens := s.resetTokens + [t]);
      assert Valid(s) ==> Valid(s') by {
        if Valid(s) {
          UniqueByAppend(s.resetTokens, t, ResetHashOf);
        }
      }
      Ok(s')
  }

  function InsertAccount(s: Store, a: Account): (r: Result<Store>)
    ensures r.Ok? <==> a.userId in UserIds(s.users) && AccountKeyOf(a) !in Keys(s.accounts, AccountKeyOf)
    ensures r.Ok? ==> r.value == s.(accounts := s.accounts + [a])
    ensures r.Err? ==> r.error.Internal?
    ensures r.Ok? && Valid(s) ==> Valid(r.value)
  {
    if a.userId !in UserIds(s.users) then Err(ForeignKeyViolation)
    else if AccountKeyOf(a) in Keys(s.accounts, AccountKeyOf) then Err(UniqueViolation)
    else
      var s' := s.(accounts := s.accounts + [a]);
      assert Valid(s) ==> Valid(s') by {
        if Valid(s) {
          UniqueByAppend(s.accounts, a, AccountKeyOf);
        }
      }
      Ok(s')
  }

  /** The login-attempt log has no constraint: appending always succeeds. */
  function AppendAttempt(s: Store, a: LoginAttempt): (t: Store)
    ensures t == s.(attempts := s.attempts + [a])
    ensures Valid(s) ==> Valid(t)
  {
    s.(attempts := s.attempts + [a])
  }

  /** Replaces the user at index `k` by a record with the same id and email. */
  function SetUser(s: Store, k: nat, u: User): (t: Store)
    requires k < |s.users| && u.id == s.users[k].id && u.email == s.users[k].email
    ensures t == s.(users := s.users[k := u])
    ensures Valid(s) ==> Valid(t)
  {
    var t := s.(users := s.users[k := u]);
    assert Keys(t.users, UserIdOf) == Keys(s.users, UserIdOf);
    assert Keys(t.users, EmailOf) == Keys(s.users, EmailOf);
    assert forall i, j :: 0 <= i < j < |t.users| ==>
      UserIdOf(t.users[i]) == UserIdOf(s.users[i]) && EmailOf(t.users[j]) == EmailOf(s.users[j]);
    t
  }
  /** `role.update` of the record at index `k`: the new name must not be
      held by another role. */
  function UpdateRoleRecord(s: Store, k: nat, role: Role): (r: Result<Store>)
    requires k < |s.roles| && role.id == s.roles[k].id
    ensures r.Ok? <==> forall j :: 0 <= j < |s.roles| && j != k ==> s.roles[j].name != role.name
    ensures r.Ok? ==> r.value == s.(roles := s.roles[k := role])
    ensures r.Err? ==> r.error == UniqueViolation
    ensures r.Ok? && Valid(s) ==> Valid(r.value)
  {
    if exists j :: 0 <= j < |s.roles| && j != k && s.roles[j].name == role.name then Err(UniqueViolation)
    else
      var t := s.(roles := s.roles[k := role]);
      assert Keys(t.roles, RoleIdOf) == Keys(s.roles, RoleIdOf);
      Ok(t)
  }

  function RoleIdIsNot(id: Id): Role -> bool { (r: Role) => r.id != id }
  function UserRoleNotFor(roleId: Id): UserRole -> bool { (ur: UserRole) => ur.roleId != roleId }
  function RolePermissionNotFor(roleId: Id): RolePermission -> bool { (rp: RolePermission) => rp.roleId != roleId }

  /** `role.delete`: the role goes, and with it (by cascade) its user and
      permission assignments. */
  function DeleteRoleCascade(s: Store, id: Id): (t: Store)
    ensures t == s.(roles := Filter(s.roles, RoleIdIsNot(id)),
                    userRoles := Filter(s.userRoles, UserRoleNotFor(id)),
                    rolePermissions := Filter(s.rolePermissions, RolePermissionNotFor(id)))
    ensures Valid(s) ==> Valid(t)
  {
    var t := s.(roles := Filter(s.roles, RoleIdIsNot(id)),
                userRoles := Filter(s.userRoles, UserRoleNotFor(id)),
                rolePermissions := Filter(s.rolePermissions, RolePermissionNotFor(id)));
    assert Valid(s) ==> Valid(t) by {
      if Valid(s) {
        FilterUniqueBy(s.roles, RoleIdIsNot(id), RoleIdOf);
        FilterUniqueBy(s.roles, RoleIdIsNot(id), RoleNameOf);
        FilterDistinct(s.userRoles, UserRoleNotFor(id));
        FilterDistinct(s.rolePermissions, RolePermissionNotFor(id));
        forall i | 0 <= i < |t.userRoles|
          ensures t.userRoles[i].userId in UserIds(t.users) && t.userRoles[i].roleId in RoleIds(t.roles)
        {
          var j :| 0 <= j < |s.userRoles| && s.userRoles[j] == t.userRoles[i];
          KeysFilter(s.roles, RoleIdIsNot(id), RoleIdOf, t.userRoles[i].roleId);
        }
        forall i | 0 <= i < |t.rolePermissions|
          ensures t.rolePermissions[i].roleId in RoleIds(t.roles)
          ensures t.rolePermissions[i].permissionId in PermissionIds(t.permissions)
        {
          var j :| 0 <= j < |s.rolePermissions| && s.rolePermissions[j] == t.rolePermissions[i];
          KeysFilter(s.roles, RoleIdIsNot(id), RoleIdOf, t.rolePermissions[i].roleId);
        }
      }
    }
    t
  }

  function PairIsNot(rp: RolePermission): RolePermission -> bool { (x: RolePermission) => x != rp }

  /** `rolePermission.delete` by its composite key: fails when the pair is
      not on record. */
  function DeleteRolePermission(s: Store, rp: RolePermission): (r: Result<Store>)
    ensures r.Ok? <==> rp in s.rolePermissions
    ensures r.Ok? ==> r.value == s.(rolePermissions := Filter(s.rolePermissions, PairIsNot(rp)))
    ensures r.Err? ==> r.error == RecordMissing
    ensures r.Ok? && Valid(s) ==> Valid(r.value)
  {
    if rp !in s.rolePermissions then Err(RecordMissing)
    else
      var t := s.(rolePermissions := Filter(s.rolePermissions, PairIsNot(rp)));
      assert Valid(s) ==> Valid(t) by {
        if Valid(s) {
          FilterDistinct(s.rolePermissions, PairIsNot(rp));
          forall i | 0 <= i < |t.rolePermissions|
            ensures t.rolePermissions[i].roleId in RoleIds(t.roles)
            ensures t.rolePermissions[i].permissionId in PermissionIds(t.permissions)
          {
            var j :| 0 <= j < |s.rolePermissions| && s.rolePermissions[j] == t.rolePermissions[i];
          }
        }
      }
      Ok(t)
  }

  function AssignmentIsNot(ur: UserRole): UserRole -> bool { (x: UserRole) => x != ur }

  /** `userRole.delete` by its composite key: fails when the pair is not on
      record. */
  function DeleteUserRole(s: Store, ur: UserRole): (r: Result<Store>)
    ensures r.Ok? <==> ur in s.userRoles
    ensures r.Ok? ==> r.value == s.(userRoles := Filter(s.userRoles, AssignmentIsNot(ur)))
    ensures r.Err? ==> r.error == RecordMissing
    ensures r.Ok? && Valid(s) ==> Valid(r.value)
  {
    if ur !in s.userRoles then Err(RecordMissing)
    else
      var t := s.(userRoles := Filter(s.userRoles, AssignmentIsNot(ur)));
      assert Valid(s) ==> Valid(t) by {
        if Valid(s) {
          FilterDistinct(s.userRoles, AssignmentIsNot(ur));
          forall i | 0 <= i < |t.userRoles|
            ensures t.userRoles[i].userId in UserIds(t.users) && t.userRoles[i].roleId in RoleIds(t.roles)
          {
            var j :| 0 <= j < |s.userRoles| && s.userRoles[j] == t.userRoles[i];
          }
        }
      }
      Ok(t)
  }

  function UserIdIsNot(id: Id): User -> bool { (u: User) => u.id != id }
  function UserRoleNotOf(uid: Id): UserRole -> bool { (ur: UserRole) => ur.userId != uid }
  function RefreshTokenNotOf(uid: Id): RefreshToken -> bool { (t: RefreshToken) => t.userId != uid }
  function ResetTokenNotOf(uid: Id): ResetToken -> bool { (t: ResetToken) => t.userId != uid }
  function AccountNotOf(uid: Id): Account -> bool { (a: Account) => a.userId != uid }

  /** `user.delete`: the user goes, and with it (by cascade) their role
      assignments, refresh tokens, reset tokens and linked accounts. The
      login-attempt log is keyed by email and is kept. */
  function DeleteUserCascade(s: Store, id: Id): (t: Store)
    ensures t == s.(users := Filter(s.users, UserIdIsNot(id)),
                    userRoles := Filter(s.userRoles, UserRoleNotOf(id)),
                    refreshTokens := Filter(s.refreshTokens, RefreshTokenNotOf(id)),
                    resetTokens := Filter(s.resetTokens, ResetTokenNotOf(id)),
                    accounts := Filter(s.accounts, AccountNotOf(id)))
    ensures Valid(s) ==> Valid(t)
  {
    var t := s.(users := Filter(s.users, UserIdIsNot(id)),
                userRoles := Filter(s.userRoles, UserRoleNotOf(id)),
                refreshTokens := Filter(s.refreshTokens, RefreshTokenNotOf(id)),
                resetTokens := Filter(s.resetTokens, ResetTokenNotOf(id)),
                accounts := Filter(s.accounts, AccountNotOf(id)));
    if Valid(s) then
      FilterUniqueBy(s.users, UserIdIsNot(id), UserIdOf);
      FilterUniqueBy(s.users, UserIdIsNot(id), EmailOf);
      UserRolesAfterDelete(s, id);
      RefreshTokensAfterDelete(s, id);
      ResetTokensAfterDelete(s, id);
      AccountsAfterDelete(s, id);
      t
    else t
  }

  lemma UserRolesAfterDelete(s: Store, id: Id)
    requires Valid(s)
    ensures UserRolesValid(Filter(s.userRoles, UserRoleNotOf(id)), Filter(s.users, UserIdIsNot(id)), s.roles)
  {
    var urs := Filter(s.userRoles, UserRoleNotOf(id));
    FilterDistinct(s.userRoles, UserRoleNotOf(id));
    forall i | 0 <= i < |urs|
      ensures urs[i].userId in UserIds(Filter(s.users, UserIdIsNot(id))) && urs[i].roleId in RoleIds(s.roles)
    {
      var j :| 0 <= j < |s.userRoles| && s.userRoles[j] == urs[i];
      KeysFilter(s.users, UserIdIsNot(id), UserIdOf, urs[i].userId);
    }
  }

  lemma RefreshTokensAfterDelete(s: Store, id: Id)
    requires Valid(s)
    ensures RefreshTokensValid(Filter(s.refreshTokens, RefreshTokenNotOf(id)), Filter(s.users, UserIdIsNot(id)))
  {
    var ts := Filter(s.refreshTokens, RefreshTokenNotOf(id));
    FilterUniqueBy(s.refreshTokens, RefreshTokenNotOf(id), RefreshHashOf);
    forall i | 0 <= i < |ts| ensures ts[i].userId in UserIds(Filter(s.users, UserIdIsNot(id))) {
      var j :| 0 <= j < |s.refreshTokens| && s.refreshTokens[j] == ts[i];
      KeysFilter(s.users, UserIdIsNot(id), UserIdOf, ts[i].userId);
    }
  }

  lemma ResetTokensAfterDelete(s: Store, id: Id)
    requires Valid(s)
    ensures ResetTokensValid(Filter(s.resetTokens, ResetTokenNotOf(id)), Filter(s.users, UserIdIsNot(id)))
  {
    var ts := Filter(s.resetTokens, ResetTokenNotOf(id));
    FilterUniqueBy(s.resetTokens, ResetTokenNotOf(id), ResetHashOf);
    forall i | 0 <= i < |ts| ensures ts[i].userId in UserIds(Filter(s.users, UserIdIsNot(id))) {
      var j :| 0 <= j < |s.resetTokens| && s.resetTokens[j] == ts[i];
      KeysFilter(s.users, UserIdIsNot(id), UserIdOf, ts[i].userId);
    }
  }

  lemma AccountsAfterDelete(s: Store, id: Id)
    requires Valid(s)
    ensures AccountsValid(Filter(s.accounts, AccountNotOf(id)), Filter(s.users, UserIdIsNot(id)))
  {
    var acs := Filter(s.accounts, AccountNotOf(id));
    FilterUniqueBy(s.accounts, AccountNotOf(id), AccountKeyOf);
    forall i | 0 <= i < |acs| ensures acs[i].userId in UserIds(Filter(s.users, UserIdIsNot(id))) {
      var j :| 0 <= j < |s.accounts| && s.accounts[j] == acs[i];
      KeysFilter(s.users, UserIdIsNot(id), UserIdOf, acs[i].userId);
    }
  }
}

=== FILE: text.dfy ===
/** Character classes and the string primitives of JavaScript that the core
    relies on: `startsWith`, `trim` and (ASCII) `toLowerCase`. */
module Text {

  /** ECMAScript WhiteSpace and LineTerminator code points, the set that
      `String.prototype.trim` and `parseInt` skip. */
  predicate IsSpace(c: char) {
    var n := c as int;
    || n == 0x09 || n == 0x0A || n == 0x0B || n == 0x0C || n == 0x0D
    || n == 0x20 || n == 0xA0 || n == 0x1680
    || (0x2000 <= n <= 0x200A)
    || n == 0x2028 || n == 0x2029 || n == 0x202F || n == 0x205F
    || n == 0x3000 || n == 0xFEFF
  }

  predicate IsUpper(c: char) { 'A' <= c <= 'Z' }
  predicate IsLower(c: char) { 'a' <= c <= 'z' }
  predicate IsDigit(c: char) { '0' <= c <= '9' }
  predicate IsAlnum(c: char) { IsUpper(c) || IsLower(c) || IsDigit(c) }

  /** `s.startsWith(prefix)`. */
  predicate StartsWith(s: string, prefix: string) {
    |prefix| <= |s| && s[..|prefix|] == prefix
  }

  /** JavaScript `length`: the number of UTF-16 code units, two for a code
      point above the Basic Multilingual Plane. */
  function Utf16Length(s: string): (n: nat)
    ensures |s| <= n <= 2 * |s|
  {
    if |s| == 0 then 0 else (if s[0] as int >= 0x10000 then 2 else 1) + Utf16Length(s[1..])
  }

  /** A Dafny character is a Unicode scalar value: one character above the
      Basic Multilingual Plane is one element of the string but two UTF-16
      code units, as in JavaScript. */
  lemma Utf16LengthAstral()
    ensures |"\U{1F600}"| == 1 && Utf16Length("\U{1F600}") == 2
    ensures Utf16Length("a\U{1F600}") == 3
  {
    assert "a\U{1F600}"[1..] == "\U{1F600}";
  }

  /** Within the Basic Multilingual Plane the two lengths agree. */
  lemma {:induction false} Utf16LengthBmp(s: string)
    requires forall i :: 0 <= i < |s| ==> s[i] as int < 0x10000
    ensures Utf16Length(s) == |s|
  {
    if |s| > 0 {
      Utf16LengthBmp(s[1..]);
    }
  }

  function LowerChar(c: char): (d: char)
    ensures IsUpper(c) ==> IsLower(d)
    ensures !IsUpper(c) ==> d == c
    ensures IsSpace(d) == IsSpace(c)
  {
    if IsUpper(c) then (c as int - 'A' as int + 'a' as int) as char else c
  }

  /** `toLowerCase` restricted to the ASCII letters. */
  function Lower(s: string): (r: string)
    ensures |r| == |s|
    ensures forall i :: 0 <= i < |s| ==> r[i] == LowerChar(s[i])
  {
    seq(|s|, i requires 0 <= i < |s| => LowerChar(s[i]))
  }

  /** `trimStart`: drops the leading white space. */
  function TrimStart(s: string): (r: string)
    ensures |r| <= |s| && r == s[|s| - |r|..]
    ensures forall i :: 0 <= i < |s| - |r| ==> IsSpace(s[i])
    ensures |r| > 0 ==> !IsSpace(r[0])
  {
    if |s| > 0 && IsSpace(s[0]) then TrimStart(s[1..]) else s
  }

  /** `trimEnd`: drops the trailing white space. */
  function TrimEnd(s: string): (r: string)
    ensures |r| <= |s| && r == s[..|r|]
    ensures forall i :: |r| <= i < |s| ==> IsSpace(s[i])
    ensures |r| > 0 ==> !IsSpace(r[|r| - 1])
  {
    if |s| > 0 && IsSpace(s[|s| - 1]) then TrimEnd(s[..|s| - 1]) else s
  }

  /** `trim`. */
  function Trim(s: string): string {
    TrimEnd(TrimStart(s))
  }

  /** The three clauses of `TrimStart`'s contract single out its result. */
  lemma TrimStartUnique(s: string, r: string)
    requires |r| <= |s| && r == s[|s| - |r|..]
    requires forall i :: 0 <= i < |s| - |r| ==> IsSpace(s[i])
    requires |r| > 0 ==> !IsSpace(r[0])
    ensures r == TrimStart(s)
  {
    var t := TrimStart(s);
    assert |r| > 0 ==> r[0] == s[|s| - |r|];
    assert |t| > 0 ==> t[0] == s[|s| - |t|];
    assert |t| == |r|;
  }

  lemma TrimEndUnique(s: string, r: string)
    requires |r| <= |s| && r == s[..|r|]
    requires forall i :: |r| <= i < |s| ==> IsSpace(s[i])
    requires |r| > 0 ==> !IsSpace(r[|r| - 1])
    ensures r == TrimEnd(s)
  {
    var t := TrimEnd(s);
    assert |r| > 0 ==> r[|r| - 1] == s[|r| - 1];
    assert |t| > 0 ==> t[|t| - 1] == s[|t| - 1];
    assert |t| == |r|;
  }

  /** Trimming a trimmed string changes nothing. */
  lemma TrimIdempotent(s: string)
    ensures Trim(Trim(s)) == Trim(s)
  {
    var a := TrimStart(s);
    var b := TrimEnd(a);
    TrimStartUnique(b, b);
    TrimEndUnique(b, b);
  }

  lemma {:induction false} LowerTrimStart(s: string)
    ensures Lower(TrimStart(s)) == TrimStart(Lower(s))
  {
    var ls := Lower(s);
    if |s| > 0 {
      assert ls[0] == LowerChar(s[0]);
      if IsSpace(s[0]) {
        assert ls[1..] == Lower(s[1..]);
        LowerTrimStart(s[1..]);
      }
    }
  }

  lemma LowerTrimEnd(s: string)
    ensures Lower(TrimEnd(s)) == TrimEnd(Lower(s))
  {
    var b := TrimEnd(s);
    var lb := Lower(b);
    var ls := Lower(s);
    assert lb == ls[..|b|] by {
      forall i | 0 <= i < |b| ensures lb[i] == ls[i] {
        assert b[i] == s[i];
      }
    }
    forall i | |b| <= i < |s| ensures IsSpace(ls[i]) {
      assert ls[i] == LowerChar(s[i]);
    }
    assert |lb| > 0 ==> lb[|lb| - 1] == LowerChar(b[|b| - 1]);
    TrimEndUnique(ls, lb);
  }

  /** Lower-casing and trimming commute, since lower-casing maps white space
      to itself and nothing else to white space. */
  lemma LowerTrimCommute(s: string)
    ensures Lower(Trim(s)) == Trim(Lower(s))
  {
    LowerTrimStart(s);
    LowerTrimEnd(TrimStart(s));
  }

  lemma LowerIdempotent(s: string)
    ensures Lower(Lower(s)) == Lower(s)
  {
  }
}

=== FILE: tokens.dfy ===
/** The token service: access-token claims, refresh-token minting, one-time
    rotation, single and bulk revocation and the expiry sweep. The access
    token is a JWT (RFC 7519); signing it is not modelled, so a pair carries
    the claims that would be signed. The outcome of verifying a JWT is an
    input (`JwtOutcome`). */
module Tokens {
  import opened Common
  import opened Errors
  import opened Store
  import Crypto
  import Config

  datatype DeviceInfo = DeviceInfo(userAgent: Option<string>, ipAddress: Option<string>)

  const NoDevice: DeviceInfo := DeviceInfo(None, None)

  /** The registered and private claims of an access token; `iat` and `exp`
      are in seconds (RFC 7519 section 4.1). */
  datatype Claims = Claims(
    sub: Id, email: string, roles: seq<string>, permissions: seq<string>,
    iss: string, iat: int, exp: int)

  datatype TokenPair = TokenPair(access: Claims, refreshToken: string, expiresIn: nat)

  /** What the JWT library reports for a presented access token. */
  datatype JwtOutcome =
    | Verified(claims: Claims)
    | Expired
    | BadSignature
    | BadIssuer
    | Malformed

  /** `expiresIn`: the configured access lifetime in whole seconds. */
  function AccessExpiresIn(): (r: nat)
    ensures Crypto.ParseDuration(Config.AccessExpiration) == Some(r * 1000)
  {
    Config.ConfiguredLifetimes();
    Crypto.ParseDuration(Config.AccessExpiration).value / 1000
  }

  /** Expiry of a refresh token minted at `now`. */
  function RefreshExpiresAt(now: Time): (t: Time)
    ensures Crypto.CalculateExpiration(now, Config.RefreshExpiration) == Some(t)
    ensures t == now + Config.RefreshLifetimeMs
  {
    Config.ConfiguredLifetimes();
    Crypto.CalculateExpiration(now, Config.RefreshExpiration).value
  }

  /** The claims `generateAccessToken` signs at `now` (milliseconds). */
  function AccessClaims(uid: Id, email: string, roles: seq<string>, perms: seq<string>, now: Time): (c: Claims)
    ensures c.sub == uid && c.email == email && c.roles == roles && c.permissions == perms
    ensures c.iss == Config.Issuer
    ensures c.iat * 1000 <= now < (c.iat + 1) * 1000
    ensures c.exp == c.iat + AccessExpiresIn()
  {
    var iat := now / 1000;
    Claims(uid, email, roles, perms, Config.Issuer, iat, iat + AccessExpiresIn())
  }

  /** The stored record of a refresh token minted at `now`. */
  function NewRefreshRecord(uid: Id, hash: string, device: DeviceInfo, now: Time): RefreshToken {
    RefreshToken(uid, hash, device.userAgent, device.ipAddress, RefreshExpiresAt(now), false, None)
  }

  /** `generateRefreshToken`: draws a token from `random`, stores only its
      hash and returns the plaintext. */
  function GenerateRefreshToken(
    s: Store, sha: string -> string, random: seq<Crypto.Byte>, uid: Id, device: DeviceInfo, now: Time
  ): (st: Step<string>)
    requires |random| == Config.RefreshTokenBytes
    ensures st.out.Ok? ==>
      && |st.out.value| == 2 * Config.RefreshTokenBytes
      && Crypto.IsLowerHex(st.out.value)
      && Crypto.HexDecode(st.out.value) == Some(random)
      && st.store == s.(refreshTokens := s.refreshTokens + [NewRefreshRecord(uid, sha(st.out.value), device, now)])
    ensures st.out.Err? ==> st.store == s && st.out.error.Internal?
    ensures st.out.Ok? <==>
      uid in UserIds(s.users) && sha(Crypto.GenerateSecureToken(random)) !in Keys(s.refreshTokens, RefreshHashOf)
    ensures Valid(s) ==> Valid(st.store)
  {
    var token := Crypto.GenerateSecureToken(random);
    match InsertRefreshToken(s, NewRefreshRecord(uid, sha(token), device, now))
    case Err(e) => Step(s, Err(e))
    case Ok(s') => Step(s', Ok(token))
  }

  /** `generateTokenPair`: the access claims and a freshly stored refresh
      token. */
  function GenerateTokenPair(
    s: Store, sha: string -> string, random: seq<Crypto.Byte>,
    uid: Id, email: string, roles: seq<string>, perms: seq<string>, device: DeviceInfo, now: Time
  ): (st: Step<TokenPair>)
    requires |random| == Config.RefreshTokenBytes
    ensures st.out.Ok? ==>
      && st.out.value.access == AccessClaims(uid, email, roles, perms, now)
      && st.out.value.expiresIn == AccessExpiresIn()
      && st.store == s.(refreshTokens := s.refreshTokens + [NewRefreshRecord(uid, sha(st.out.value.refreshToken), device, now)])
      && Crypto.HexDecode(st.out.value.refreshToken) == Some(random)
    ensures st.out.Err? ==> st.store == s && st.out.error.Internal?
    ensures st.out.Ok? <==>
      uid in UserIds(s.users) && sha(Crypto.GenerateSecureToken(random)) !in Keys(s.refreshTokens, RefreshHashOf)
    ensures Valid(s) ==> Valid(st.store)
  {
    var access := AccessClaims(uid, email, roles, perms, now);
    var r := GenerateRefreshToken(s, sha, random, uid, device, now);
    match r.out
    case Err(e) => Step(r.store, Err(e))
    case Ok(token) => Step(r.store, Ok(TokenPair(access, token, AccessExpiresIn())))
  }

  /** `verifyAccessToken`: the library's expiry failure becomes the
      token-expired error, every other failure a uniform "Invalid token". */
  function VerifyAccessToken(v: JwtOutcome): (r: Result<Claims>)
    ensures r.Ok? <==> v.Verified?
    ensures r.Ok? ==> r.value == v.claims
    ensures r.Err? ==> r.error.StatusCode() == 401
    ensures r.Err? ==> (r.error == TokenExpired <==> v.Expired?)
    ensures r.Err? && !v.Expired? ==> r.error == Unauthorized("Invalid token")
  {
    match v
    case Verified(c) => Ok(c)
    case Expired => Err(TokenExpired)
    case _ => Err(Unauthorized("Invalid token"))
  }

  /** A record as left by a revocation at `now`. */
  function Revoked(t: RefreshToken, now: Time): (r: RefreshToken)
    ensures r.isRevoked && r.revokedAt == Some(now)
    ensures r.userId == t.userId && r.tokenHash == t.tokenHash && r.expiresAt == t.expiresAt
  {
    t.(isRevoked := true, revokedAt := Some(now))
  }

  /** `refreshTokens`: looks the presented token up by hash; refuses an
      unknown, then a revoked, then an expired record; otherwise revokes it
      and mints a new pair carrying the user's current roles and
      de-duplicated permissions. The revocation is kept even if minting
      then fails. */
  function RefreshTokens(
    s: Store, sha: string -> string, random: seq<Crypto.Byte>, presented: string, device: DeviceInfo, now: Time
  ): (st: Step<TokenPair>)
    requires |random| == Config.RefreshTokenBytes
    ensures RefreshIndex(s.refreshTokens, sha(presented)).None? ==>
      st == Step(s, Err(Unauthorized("Invalid refresh token")))
    ensures RefreshIndex(s.refreshTokens, sha(presented)).Some? ==>
      var k := RefreshIndex(s.refreshTokens, sha(presented)).value;
      var t := s.refreshTokens[k];
      && (t.isRevoked ==> st == Step(s, Err(TokenRevoked)))
      && (!t.isRevoked && t.expiresAt < now ==> st == Step(s, Err(TokenExpired)))
      && (!t.isRevoked && t.expiresAt >= now && st.out.Err? ==>
            st.out.error.Internal?
            && st.store.refreshTokens == s.refreshTokens[k := Revoked(t, now)])
      && (st.out.Ok? ==>
            && !t.isRevoked && now <= t.expiresAt
            && UserExists(s, t.userId)
            && st.store == s.(refreshTokens := s.refreshTokens[k := Revoked(t, now)]
                 + [NewRefreshRecord(t.userId, sha(st.out.value.refreshToken), device, now)])
            && st.out.value.access.sub == t.userId
            && st.out.value.access.email == s.users[UserIndex(s.users, t.userId).value].email
            && st.out.value.access.roles == RoleNamesOf(s, t.userId)
            && st.out.value.access.permissions == Dedup(PermissionNamesOf(s, t.userId)))
    ensures st.out.Ok? <==>
      && RefreshIndex(s.refreshTokens, sha(presented)).Some?
      && var t := s.refreshTokens[RefreshIndex(s.refreshTokens, sha(presented)).value];
      && !t.isRevoked && now <= t.expiresAt
      && UserExists(s, t.userId)
      && sha(Crypto.GenerateSecureToken(random)) !in Keys(s.refreshTokens, RefreshHashOf)
    ensures Valid(s) ==> Valid(st.store)
  {
    match RefreshIndex(s.refreshTokens, sha(presented))
    case None => Step(s, Err(Unauthorized("Invalid refresh token")))
    case Some(k) =>
      var t := s.refreshTokens[k];
      if t.isRevoked then Step(s, Err(TokenRevoked))
      else if t.expiresAt < now then Step(s, Err(TokenExpired))
      else
        var s1 := s.(refreshTokens := s.refreshTokens[k := Revoked(t, now)]);
        assert Keys(s1.refreshTokens, RefreshHashOf) == Keys(s.refreshTokens, RefreshHashOf);
        assert Valid(s) ==> Valid(s1) by {
          if Valid(s) {
            RefreshTokensRewritten(s.refreshTokens, s1.refreshTokens, s.users);
          }
        }
        match UserIndex(s.users, t.userId)
        case None => Step(s1, Err(RecordMissing))
        case Some(u) =>
          ResolutionFrame(s, s1, t.userId);
          GenerateTokenPair(s1, sha, random, t.userId, s.users[u].email,
            RoleNamesOf(s, t.userId), Dedup(PermissionNamesOf(s, t.userId)), device, now)
  }

  /** Rotation is one-time: presenting the old plaintext again, at any time
      and from any device, is refused as revoked. */
  lemma RotationIsOneTime(
    s: Store, sha: string -> string, random: seq<Crypto.Byte>, presented: string, device: DeviceInfo, now: Time,
    random': seq<Crypto.Byte>, device': DeviceInfo, now': Time)
    requires |random| == Config.RefreshTokenBytes && |random'| == Config.RefreshTokenBytes
    requires RefreshTokens(s, sha, random, presented, device, now).out.Ok?
    ensures
      var s1 := RefreshTokens(s, sha, random, presented, device, now).store;
      RefreshTokens(s1, sha, random', presented, device', now') == Step(s1, Err(TokenRevoked))
  {
    var h := sha(presented);
    var k := RefreshIndex(s.refreshTokens, h).value;
    var s1 := RefreshTokens(s, sha, random, presented, device, now).store;
    var ts := s1.refreshTokens;
    assert ts[k] == Revoked(s.refreshTokens[k], now);
    FindAgrees(s.refreshTokens, ts, RefreshHashIs(h), k);
  }

  /** The new record is active and expires one refresh lifetime after
      `now`. */
  lemma RotationMintsActiveToken(
    s: Store, sha: string -> string, random: seq<Crypto.Byte>, presented: string, device: DeviceInfo, now: Time)
    requires |random| == Config.RefreshTokenBytes
    requires RefreshTokens(s, sha, random, presented, device, now).out.Ok?
    ensures
      var st := RefreshTokens(s, sha, random, presented, device, now);
      var ts := st.store.refreshTokens;
      && |ts| == |s.refreshTokens| + 1
      && ts[|ts| - 1].tokenHash == sha(st.out.value.refreshToken)
      && !ts[|ts| - 1].isRevoked
      && ts[|ts| - 1].expiresAt == now + 7 * 24 * 60 * 60 * 1000
  {
  }

  /** `revokeToken`: every record with the presented hash is revoked at
      `now` (an already revoked one is re-stamped); nothing fails. */
  function RevokeToken(s: Store, sha: string -> string, presented: string, now: Time): (r: Store)
    ensures r == s.(refreshTokens := r.refreshTokens)
    ensures |r.refreshTokens| == |s.refreshTokens|
    ensures forall i :: 0 <= i < |s.refreshTokens| ==>
      r.refreshTokens[i] == (if s.refreshTokens[i].tokenHash == sha(presented)
                             then Revoked(s.refreshTokens[i], now) else s.refreshTokens[i])
    ensures Valid(s) ==> Valid(r)
  {
    var h := sha(presented);
    var ts := seq(|s.refreshTokens|, i requires 0 <= i < |s.refreshTokens| =>
      if s.refreshTokens[i].tokenHash == h then Revoked(s.refreshTokens[i], now) else s.refreshTokens[i]);
    var r := s.(refreshTokens := ts);
    assert Valid(s) ==> Valid(r) by {
      if Valid(s) {
        RefreshTokensRewritten(s.refreshTokens, ts, s.users);
      }
    }
    r
  }

  /** After logout with a token, presenting that token is refused: as
      revoked if it was on record, as invalid otherwise. */
  lemma RevokedTokenCannotRotate(
    s: Store, sha: string -> string, presented: string, now: Time,
    random: seq<Crypto.Byte>, device: DeviceInfo, now': Time)
    requires |random| == Config.RefreshTokenBytes
    ensures
      var r := RevokeToken(s, sha, presented, now);
      RefreshTokens(r, sha, random, presented, device, now') ==
        Step(r, Err(if sha(presented) in Keys(s.refreshTokens, RefreshHashOf)
                    then TokenRevoked else Unauthorized("Invalid refresh token")))
  {
    var r := RevokeToken(s, sha, presented, now);
    assert Keys(r.refreshTokens, RefreshHashOf) == Keys(s.refreshTokens, RefreshHashOf);
  }

  /** `revokeAllUserTokens`: revokes exactly the user's active records. */
  function RevokeAllUserTokens(s: Store, uid: Id, now: Time): (r: Store)
    ensures r == s.(refreshTokens := r.refreshTokens)
    ensures |r.refreshTokens| == |s.refreshTokens|
    ensures forall i :: 0 <= i < |s.refreshTokens| ==>
      r.refreshTokens[i] == (if s.refreshTokens[i].userId == uid && !s.refreshTokens[i].isRevoked
                             then Revoked(s.refreshTokens[i], now) else s.refreshTokens[i])
    ensures Valid(s) ==> Valid(r)
  {
    var ts := seq(|s.refreshTokens|, i requires 0 <= i < |s.refreshTokens| =>
      var t := s.refreshTokens[i];
      if t.userId == uid && !t.isRevoked then Revoked(t, now) else t);
    var r := s.(refreshTokens := ts);
    assert Valid(s) ==> Valid(r) by {
      if Valid(s) {
        RefreshTokensRewritten(s.refreshTokens, ts, s.users);
      }
    }
    r
  }

  /** After a bulk revocation the user has no active refresh token, and a
      second bulk revocation changes nothing (earlier stamps are kept). */
  lemma RevokeAllLeavesNoActiveToken(s: Store, uid: Id, now: Time, now': Time)
    ensures forall i :: 0 <= i < |RevokeAllUserTokens(s, uid, now).refreshTokens| ==>
      RevokeAllUserTokens(s, uid, now).refreshTokens[i].userId == uid ==>
      RevokeAllUserTokens(s, uid, now).refreshTokens[i].isRevoked
    ensures RevokeAllUserTokens(RevokeAllUserTokens(s, uid, now), uid, now') == RevokeAllUserTokens(s, uid, now)
  {
    var r := RevokeAllUserTokens(s, uid, now);
    var r2 := RevokeAllUserTokens(r, uid, now');
    assert r2.refreshTokens == r.refreshTokens;
  }

  function IsExpiredAt(now: Time): RefreshToken -> bool {
    (t: RefreshToken) => t.expiresAt < now
  }

  function IsLiveAt(now: Time): RefreshToken -> bool {
    (t: RefreshToken) => t.expiresAt >= now
  }

  /** `cleanupExpiredTokens`: deletes exactly the records whose expiry lies
      before `now`, revoked or not, and returns how many it deleted. */
  function CleanupExpiredTokens(s: Store, now: Time): (r: (Store, nat))
    ensures r.0 == s.(refreshTokens := r.0.refreshTokens)
    ensures forall i :: 0 <= i < |r.0.refreshTokens| ==>
      r.0.refreshTokens[i] in s.refreshTokens && r.0.refreshTokens[i].expiresAt >= now
    ensures forall i :: 0 <= i < |s.refreshTokens| && s.refreshTokens[i].expiresAt >= now ==>
      s.refreshTokens[i] in r.0.refreshTokens
    ensures r.1 == |s.refreshTokens| - |r.0.refreshTokens|
    ensures r.1 == Count(s.refreshTokens, IsExpiredAt(now))
    ensures Valid(s) ==> Valid(r.0)
  {
    var kept := Filter(s.refreshTokens, IsLiveAt(now));
    FilterSplit(s.refreshTokens, IsLiveAt(now), IsExpiredAt(now));
    assert Valid(s) ==> Valid(s.(refreshTokens := kept)) by {
      if Valid(s) {
        RefreshTokensFiltered(s.refreshTokens, IsLiveAt(now), s.users);
      }
    }
    (s.(refreshTokens := kept), |s.refreshTokens| - |kept|)
  }

  /** A second sweep at the same instant deletes nothing. */
  lemma CleanupIdempotent(s: Store, now: Time)
    ensures CleanupExpiredTokens(CleanupExpiredTokens(s, now).0, now) == (CleanupExpiredTokens(s, now).0, 0)
  {
    var kept := CleanupExpiredTokens(s, now).0.refreshTokens;
    FilterAll(kept, IsLiveAt(now));
  }
}

=== FILE: user_schemas.dfy ===
/** The request schemas of the user-management routes. The UUID syntax
    check of the validation library is the predicate parameter `isUuid`. */
module UserSchemas {
  import opened Common
  import opened Text
  import opened AuthSchemas

  /** An administrator-set password is only bounded in length. */
  predicate AdminPassword(p: string) {
    LengthWithin(p, PasswordMin, PasswordMax)
  }

  predicate UpdateProfileBody(firstName: Option<string>, lastName: Option<string>) {
    NameField(firstName) && NameField(lastName)
  }

  /** Every listed role id, if a list is given, is a UUID. */
  predicate RoleIdList(isUuid: string -> bool, roleIds: Option<seq<string>>) {
    roleIds.None? || forall i :: 0 <= i < |roleIds.value| ==> isUuid(roleIds.value[i])
  }

  /** `createUserSchema` (the two flags are booleans by type). */
  predicate CreateUserBody(
    isEmail: string -> bool, isUuid: string -> bool, email: string, password: string,
    firstName: Option<string>, lastName: Option<string>, roleIds: Option<seq<string>>)
  {
    isEmail(email) && AdminPassword(password) && NameField(firstName) && NameField(lastName)
    && RoleIdList(isUuid, roleIds)
  }

  /** `updateUserSchema`: the body can carry only the names and the two
      flags, which is exactly what the update operation reads. */
  predicate UpdateUserRequest(isUuid: string -> bool, id: string, firstName: Option<string>, lastName: Option<string>) {
    isUuid(id) && NameField(firstName) && NameField(lastName)
  }

  predicate GetUserParams(isUuid: string -> bool, id: string) { isUuid(id) }

  predicate AssignRoleRequest(isUuid: string -> bool, id: string, roleId: string) {
    isUuid(id) && isUuid(roleId)
  }

  predicate RemoveRoleParams(isUuid: string -> bool, id: string, roleId: string) {
    isUuid(id) && isUuid(roleId)
  }

  /** The administrator's password rule is strictly weaker than the
      self-registration policy: every policy-conforming password passes,
      and so does one made of a single character class. */
  lemma AdminPasswordIsWeaker(p: string)
    ensures PasswordPolicy(p) ==> AdminPassword(p)
    ensures AdminPassword("aaaaaaaa") && !PasswordPolicy("aaaaaaaa")
  {
    var weak := "aaaaaaaa";
    assert Utf16Length(weak) == 8;
    assert forall i :: 0 <= i < |weak| ==> !IsUpper(weak[i]);
  }

  /** Names are bounded the same way in every schema that takes them; an
      empty name is refused, an absent one accepted. */
  lemma NameFieldBounds(n: string)
    ensures NameField(Some(n)) <==> n != "" && Utf16Length(n) <= NameMax
    ensures NameField(None)
  {
  }
}

=== FILE: users.dfy ===
/** User management: lookup, paged listing, administrative creation,
    profile update, deletion and role assignment. Unlike registration,
    administrative creation assigns no default role. */
module Users {
  import opened Common
  import opened Errors
  import opened Store

  /** A user record with its assigned roles, as the lookups return it. */
  datatype UserWithRoles = UserWithRoles(user: User, roles: seq<Role>)

  /** `getById`. */
  function GetById(s: Store, id: Id): (r: Result<UserWithRoles>)
    ensures r.Ok? <==> id in UserIds(s.users)
    ensures r.Err? ==> r.error == NotFound("User")
    ensures r.Ok? ==> r.value.user in s.users && r.value.user.id == id
    ensures r.Ok? ==> r.value.roles == AssignedRoles(s, id)
  {
    match UserIndex(s.users, id)
    case None => Err(NotFound("User"))
    case Some(k) => Ok(UserWithRoles(s.users[k], AssignedRoles(s, id)))
  }

  // ---------------------------------------------------------------------
  // Paged listing, newest first

  /** Adjacent records are in non-increasing creation time. */
  predicate NewestFirstOrder(us: seq<User>) {
    forall i :: 0 <= i < |us| - 1 ==> us[i].createdAt >= us[i + 1].createdAt
  }

  predicate PairwiseNewestFirst(us: seq<User>) {
    forall i, j :: 0 <= i < j < |us| ==> us[i].createdAt >= us[j].createdAt
  }

  /** Inserts `u` into a newest-first sequence before the first record that
      is not newer than it. */
  function InsertByAge(u: User, us: seq<User>): (r: seq<User>)
    ensures multiset(r) == multiset(us) + multiset{u}
    ensures |r| == |us| + 1
    ensures r[0] == u || (|us| > 0 && r[0] == us[0])
    ensures NewestFirstOrder(us) ==> NewestFirstOrder(r)
  {
    if |us| == 0 then [u]
    else if u.createdAt >= us[0].createdAt then [u] + us
    else
      var rest := InsertByAge(u, us[1..]);
      assert us == [us[0]] + us[1..];
      [us[0]] + rest
  }

  /** `orderBy: { createdAt: 'desc' }`: the users, newest first. */
  function NewestFirst(us: seq<User>): (r: seq<User>)
    ensures multiset(r) == multiset(us)
    ensures |r| == |us|
    ensures NewestFirstOrder(r)
  {
    if |us| == 0 then []
    else
      assert us == [us[0]] + us[1..];
      InsertByAge(us[0], NewestFirst(us[1..]))
  }

  lemma {:induction false} NewestFirstPairwise(us: seq<User>)
    requires NewestFirstOrder(us)
    ensures PairwiseNewestFirst(us)
  {
    if |us| > 1 {
      NewestFirstPairwise(us[1..]);
      forall i, j | 0 <= i < j < |us| ensures us[i].createdAt >= us[j].createdAt {
        if i > 0 {
          assert us[i] == us[1..][i - 1] && us[j] == us[1..][j - 1];
        } else if j > 1 {
          assert us[1] == us[1..][0] && us[j] == us[1..][j - 1];
        }
      }
    }
  }

  /** No two different records share a creation time. */
  predicate CreationTimesDistinct(us: seq<User>) {
    forall x, y :: x in us && y in us && x.createdAt == y.createdAt ==> x == y
  }

  /** Ordering newest first leaves no choice when creation times are
      distinct: two such orderings of the same records are equal. */
  lemma {:induction false} NewestFirstUnique(a: seq<User>, b: seq<User>)
    requires multiset(a) == multiset(b)
    requires PairwiseNewestFirst(a) && PairwiseNewestFirst(b)
    requires CreationTimesDistinct(a)
    ensures a == b
    decreases |a|
  {
    assert |a| == |multiset(a)| == |multiset(b)| == |b|;
    if |a| > 0 {
      NewestHeadsAgree(a, b);
      MultisetTail(a, b);
      TailKeepsOrder(a);
      TailKeepsOrder(b);
      NewestFirstUnique(a[1..], b[1..]);
      HeadTailEqual(a, b);
    }
  }

  /** Sequences with the same first element and the same rest are equal. */
  lemma HeadTailEqual<T>(a: seq<T>, b: seq<T>)
    requires |a| > 0 && |b| > 0 && a[0] == b[0] && a[1..] == b[1..]
    ensures a == b
  {
    assert a == [a[0]] + a[1..] && b == [b[0]] + b[1..];
  }

  /** Dropping the first record keeps the order and the distinct times. */
  lemma TailKeepsOrder(a: seq<User>)
    requires |a| > 0
    ensures PairwiseNewestFirst(a) ==> PairwiseNewestFirst(a[1..])
    ensures CreationTimesDistinct(a) ==> CreationTimesDistinct(a[1..])
  {
    assert forall x :: x in a[1..] ==> x in a;
  }

  /** The newest record comes first in both orderings. */
  lemma NewestHeadsAgree(a: seq<User>, b: seq<User>)
    requires |a| > 0 && |b| > 0 && multiset(a) == multiset(b)
    requires PairwiseNewestFirst(a) && PairwiseNewestFirst(b)
    requires CreationTimesDistinct(a)
    ensures a[0] == b[0]
  {
    assert b[0] in multiset(a) && a[0] in multiset(b);
    var j :| 0 <= j < |a| && a[j] == b[0];
    var k :| 0 <= k < |b| && b[k] == a[0];
    assert a[0].createdAt >= b[0].createdAt >= a[0].createdAt;
    assert a[j] in a;
  }

  /** Removing the same first element keeps two sequences permutations of
      each other. */
  lemma MultisetTail<T>(a: seq<T>, b: seq<T>)
    requires |a| > 0 && |b| > 0 && a[0] == b[0] && multiset(a) == multiset(b)
    ensures multiset(a[1..]) == multiset(b[1..])
  {
    assert a == [a[0]] + a[1..] && b == [b[0]] + b[1..];
    assert multiset(a) == multiset{a[0]} + multiset(a[1..]);
    assert multiset(b) == multiset{b[0]} + multiset(b[1..]);
    assert multiset(a[1..]) == multiset(a) - multiset{a[0]};
    assert multiset(b[1..]) == multiset(b) - multiset{b[0]};
  }

  /** When no two users share a creation time, any newest-first listing of
      them, whatever order a database picks, is the model's listing. */
  lemma ListingIndependentOfTies(us: seq<User>, vs: seq<User>)
    requires multiset(vs) == multiset(us) && NewestFirstOrder(vs)
    requires CreationTimesDistinct(us)
    ensures vs == NewestFirst(us)
  {
    forall x | x in vs ensures x in us {
      assert x in multiset(vs);
    }
    NewestFirstPairwise(vs);
    NewestFirstPairwise(NewestFirst(us));
    NewestFirstUnique(vs, NewestFirst(us));
  }

  datatype UserPage = UserPage(users: seq<UserWithRoles>, total: nat)

  function WithRoles(s: Store, us: seq<User>): (r: seq<UserWithRoles>)
    ensures |r| == |us|
    ensures forall i :: 0 <= i < |us| ==> r[i] == UserWithRoles(us[i], AssignedRoles(s, us[i].id))
  {
    seq(|us|, i requires 0 <= i < |us| => UserWithRoles(us[i], AssignedRoles(s, us[i].id)))
  }

  /** The number of users a page skips. */
  function Offset(page: int, limit: int): (n: nat)
    requires page >= 1 && limit >= 1
  {
    (page - 1) * limit
  }

  /** `skip`/`take` on a sequence: at most `take` elements from `skip` on. */
  function Window<T>(xs: seq<T>, skip: nat, take: nat): (r: seq<T>)
    ensures |r| == if skip + take <= |xs| then take else if skip <= |xs| then |xs| - skip else 0
    ensures forall i :: 0 <= i < |r| ==> skip + i < |xs| && r[i] == xs[skip + i]
  {
    var from := if skip < |xs| then skip else |xs|;
    var to := if skip + take < |xs| then skip + take else |xs|;
    xs[from..to]
  }

  /** `getAll(page, limit)`: skips `(page - 1) * limit` users in newest-first
      order, takes at most `limit`, and counts all users. */
  function GetAll(s: Store, page: int, limit: int): (r: UserPage)
    requires page >= 1 && limit >= 1
    ensures r.total == |s.users|
    ensures |r.users| <= limit
    ensures forall i :: 0 <= i < |r.users| ==>
      Offset(page, limit) + i < |s.users| && r.users[i].user == NewestFirst(s.users)[Offset(page, limit) + i]
    ensures |r.users| == if Offset(page, limit) + limit <= |s.users| then limit
                         else if Offset(page, limit) <= |s.users| then |s.users| - Offset(page, limit)
                         else 0
    ensures forall i, j :: 0 <= i < j < |r.users| ==> r.users[i].user.createdAt >= r.users[j].user.createdAt
    ensures forall i :: 0 <= i < |r.users| ==> r.users[i].roles == AssignedRoles(s, r.users[i].user.id)
  {
    var ordered := NewestFirst(s.users);
    var w := Window(ordered, Offset(page, limit), limit);
    NewestFirstPairwise(ordered);
    assert forall i, j :: 0 <= i < j < |w| ==> w[i].createdAt >= w[j].createdAt by {
      forall i, j | 0 <= i < j < |w| ensures w[i].createdAt >= w[j].createdAt {
        assert w[i] == ordered[Offset(page, limit) + i] && w[j] == ordered[Offset(page, limit) + j];
      }
    }
    UserPage(WithRoles(s, w), |s.users|)
  }

  lemma DivModParts(i: nat, limit: int)
    requires limit >= 1
    ensures (i / limit) * limit + i % limit == i && 0 <= i % limit < limit
  {
  }

  /** The page (counted from zero) and the place on it of position `i`. */
  lemma PageAndPlace(i: nat, limit: int) returns (q: nat, r: nat)
    requires limit >= 1
    ensures q * limit + r == i && r < limit
    ensures q == i / limit && r == i % limit
  {
    DivModParts(i, limit);
    q, r := i / limit, i % limit;
  }

  /** The user of newest-first rank `q * limit + r` is at position `r` of
      page `q + 1`. */
  lemma OnPage(s: Store, limit: int, i: nat, q: nat, r: nat)
    requires limit >= 1 && i < |s.users| && r < limit && q * limit + r == i
    ensures r < |GetAll(s, q + 1, limit).users| && GetAll(s, q + 1, limit).users[r].user == NewestFirst(s.users)[i]
  {
    assert Offset(q + 1, limit) == q * limit;
  }

  /** Every user is listed, at position `i mod limit` of page
      `i / limit + 1`, where `i` is their newest-first rank. */
  lemma EveryUserOnItsPage(s: Store, limit: int, i: nat)
    requires limit >= 1 && i < |s.users|
    ensures var p := GetAll(s, i / limit + 1, limit);
      i % limit < |p.users| && p.users[i % limit].user == NewestFirst(s.users)[i]
  {
    var q, r := PageAndPlace(i, limit);
    OnPage(s, limit, i, q, r);
  }

  /** The newest-first rank of a user on record. */
  lemma RankOf(us: seq<User>, u: User) returns (i: nat)
    requires u in us
    ensures i < |us| && NewestFirst(us)[i] == u
  {
    var ordered := NewestFirst(us);
    assert multiset(us)[u] > 0;
    assert u in multiset(ordered);
    i :| 0 <= i < |ordered| && ordered[i] == u;
  }

  /** Paging with any limit reaches every user on some page. */
  lemma PagesCoverEveryUser(s: Store, limit: int, u: User) returns (page: int, j: nat)
    requires limit >= 1 && u in s.users
    ensures page >= 1 && j < |GetAll(s, page, limit).users| && GetAll(s, page, limit).users[j].user == u
  {
    var i := RankOf(s.users, u);
    var q, r := PageAndPlace(i, limit);
    OnPage(s, limit, i, q, r);
    page, j := q + 1, r;
  }

  // ---------------------------------------------------------------------
  // Administrative creation

  /** The record `create` writes: active and unverified by default (the
      `isActive`/`isVerified` input fields are not passed on). */
  function CreatedUser(id: Id, email: string, digest: string, firstName: Option<string>, lastName: Option<string>, now: Time): User {
    User(id, email, Some(digest), firstName, lastName, true, false, None, None, now)
  }

  /** The role ids a user is created with: none when absent. */
  function GivenRoleIds(roleIds: Option<seq<Id>>): seq<Id> {
    if roleIds.Some? then roleIds.value else []
  }

  /** `create`: refuses a registered email; otherwise writes the user and
      one assignment per given role id in one statement (all or nothing). */
  function Create(
    s: Store, newId: Id, digest: string, email: string, firstName: Option<string>,
    lastName: Option<string>, roleIds: Option<seq<Id>>, now: Time
  ): (st: Step<User>)
    ensures EmailTaken(s, email) ==> st == Step(s, Err(Conflict("Email already registered")))
    ensures st.out.Err? ==> st.store == s
    ensures st.out.Err? && !EmailTaken(s, email) ==> st.out.error.Internal?
    ensures st.out.Ok? ==>
      && st.out.value == CreatedUser(newId, email, digest, firstName, lastName, now)
      && st.store.users == s.users + [st.out.value]
      && st.store.userRoles == s.userRoles + Assignments(newId, GivenRoleIds(roleIds))
      && st.store == s.(users := st.store.users, userRoles := st.store.userRoles)
    ensures Valid(s) ==> (st.out.Ok? <==>
      && !EmailTaken(s, email)
      && newId !in UserIds(s.users)
      && Distinct(GivenRoleIds(roleIds))
      && forall i :: 0 <= i < |GivenRoleIds(roleIds)| ==> GivenRoleIds(roleIds)[i] in RoleIds(s.roles))
    ensures Valid(s) ==> Valid(st.store)
  {
    if EmailTaken(s, email) then Step(s, Err(Conflict("Email already registered")))
    else
      var u := CreatedUser(newId, email, digest, firstName, lastName, now);
      match InsertUser(s, u)
      case Err(e) => Step(s, Err(e))
      case Ok(s1) =>
        assert Valid(s) ==> (Assignable(s1, newId, GivenRoleIds(roleIds)) <==>
          Distinct(GivenRoleIds(roleIds))
          && forall i :: 0 <= i < |GivenRoleIds(roleIds)| ==> GivenRoleIds(roleIds)[i] in RoleIds(s.roles)) by {
          if Valid(s) {
            KeysMember(s1.users, |s.users|, UserIdOf);
            FreshUserAssignable(s, s1, newId, GivenRoleIds(roleIds));
          }
        }
        match InsertUserRoles(s1, newId, GivenRoleIds(roleIds))
        case Err(e) => Step(s, Err(e))
        case Ok(s2) => Step(s2, Ok(u))
  }

  /** A created user can be looked up, with exactly the roles given. */
  lemma CreateThenGet(s: Store, newId: Id, digest: string, email: string, firstName: Option<string>,
                      lastName: Option<string>, roleIds: Option<seq<Id>>, now: Time)
    requires Create(s, newId, digest, email, firstName, lastName, roleIds, now).out.Ok?
    ensures var st := Create(s, newId, digest, email, firstName, lastName, roleIds, now);
      && GetById(st.store, newId).Ok?
      && GetById(st.store, newId).value.user == st.out.value
  {
    var st := Create(s, newId, digest, email, firstName, lastName, roleIds, now);
    var u := st.out.value;
    KeysAppend(s.users, u, UserIdOf);
    KeysMember(st.store.users, |s.users|, UserIdOf);
    forall j | 0 <= j < |s.users| ensures s.users[j].id != newId {
      KeysMember(s.users, j, UserIdOf);
    }
  }

  // ---------------------------------------------------------------------
  // Update and delete

  /** `update`: only the names and the two flags; an absent field (an
      `undefined` value) leaves the stored one as it is. */
  function Update(
    s: Store, id: Id, firstName: Option<string>, lastName: Option<string>,
    isActive: Option<bool>, isVerified: Option<bool>
  ): (st: Step<User>)
    ensures st.out.Ok? <==> id in UserIds(s.users)
    ensures st.out.Err? ==> st == Step(s, Err(RecordMissing))
    ensures st.out.Ok? ==>
      var k := UserIndex(s.users, id).value;
      var old_ := s.users[k];
      && st.store == s.(users := s.users[k := st.out.value])
      && st.out.value.id == id && st.out.value.email == old_.email
      && st.out.value.passwordHash == old_.passwordHash
      && st.out.value.createdAt == old_.createdAt && st.out.value.lastLoginAt == old_.lastLoginAt
      && st.out.value.emailVerifiedAt == old_.emailVerifiedAt
      && st.out.value.firstName == (if firstName.Some? then firstName else old_.firstName)
      && st.out.value.lastName == (if lastName.Some? then lastName else old_.lastName)
      && st.out.value.isActive == (if isActive.Some? then isActive.value else old_.isActive)
      && st.out.value.isVerified == (if isVerified.Some? then isVerified.value else old_.isVerified)
    ensures Valid(s) ==> Valid(st.store)
  {
    match UserIndex(s.users, id)
    case None => Step(s, Err(RecordMissing))
    case Some(k) =>
      var u := s.users[k];
      var u' := u.(
        firstName := if firstName.Some? then firstName else u.firstName,
        lastName := if lastName.Some? then lastName else u.lastName,
        isActive := if isActive.Some? then isActive.value else u.isActive,
        isVerified := if isVerified.Some? then isVerified.value else u.isVerified);
      Step(SetUser(s, k, u'), Ok(u'))
  }

  /** An update never touches credentials, roles or tokens, and applying
      it twice is the same as applying it once. */
  lemma UpdateIsIdempotent(s: Store, id: Id, firstName: Option<string>, lastName: Option<string>,
                           isActive: Option<bool>, isVerified: Option<bool>)
    requires UniqueBy(s.users, UserIdOf)
    ensures var st := Update(s, id, firstName, lastName, isActive, isVerified);
      && st.store.userRoles == s.userRoles && st.store.refreshTokens == s.refreshTokens
      && RoleNamesOf(st.store, id) == RoleNamesOf(s, id)
      && Update(st.store, id, firstName, lastName, isActive, isVerified) == st
  {
    var st := Update(s, id, firstName, lastName, isActive, isVerified);
    ResolutionFrame(s, st.store, id);
    if st.out.Ok? {
      var k := UserIndex(s.users, id).value;
      KeysMember(st.store.users, k, UserIdOf);
      var k' := UserIndex(st.store.users, id).value;
      assert st.store.users[k].id == id;
    }
  }

  /** `delete`: fails for an unknown id; otherwise removes the user with
      everything that references them. */
  function Delete(s: Store, id: Id): (st: Step<User>)
    ensures st.out.Ok? <==> id in UserIds(s.users)
    ensures st.out.Err? ==> st == Step(s, Err(RecordMissing))
    ensures st.out.Ok? ==> st.out.value in s.users && st.out.value.id == id
    ensures st.out.Ok? ==> st.store == DeleteUserCascade(s, id)
    ensures Valid(s) ==> Valid(st.store)
  {
    match UserIndex(s.users, id)
    case None => Step(s, Err(RecordMissing))
    case Some(k) => Step(DeleteUserCascade(s, id), Ok(s.users[k]))
  }

  /** After a deletion the user is gone, holds no roles, owns no refresh
      or reset tokens and no linked accounts, and a second deletion fails. */
  lemma DeleteRemovesEverything(s: Store, id: Id)
    requires Valid(s)
    requires Delete(s, id).out.Ok?
    ensures var s1 := Delete(s, id).store;
      && GetById(s1, id) == Err(NotFound("User"))
      && AssignedRoles(s1, id) == []
      && (forall i :: 0 <= i < |s1.refreshTokens| ==> s1.refreshTokens[i].userId != id)
      && (forall i :: 0 <= i < |s1.resetTokens| ==> s1.resetTokens[i].userId != id)
      && (forall i :: 0 <= i < |s1.accounts| ==> s1.accounts[i].userId != id)
      && Delete(s1, id) == Step(s1, Err(RecordMissing))
  {
    var s1 := Delete(s, id).store;
    assert id !in UserIds(s1.users);
    UnknownUserHasNoRoles(s1, id);
    forall i | 0 <= i < |s1.refreshTokens| ensures s1.refreshTokens[i].userId != id {
      assert s1.refreshTokens[i] in Filter(s.refreshTokens, RefreshTokenNotOf(id));
    }
    forall i | 0 <= i < |s1.resetTokens| ensures s1.resetTokens[i].userId != id {
      assert s1.resetTokens[i] in Filter(s.resetTokens, ResetTokenNotOf(id));
    }
    forall i | 0 <= i < |s1.accounts| ensures s1.accounts[i].userId != id {
      assert s1.accounts[i] in Filter(s.accounts, AccountNotOf(id));
    }
  }

  // ---------------------------------------------------------------------
  // Role assignment

  /** `assignRole`: no check of its own, so an unknown user or role, or a
      pair already on record, is a database error. */
  function AssignRole(s: Store, userId: Id, roleId: Id): (st: Step<UserRole>)
    ensures st.out.Ok? <==>
      userId in UserIds(s.users) && roleId in RoleIds(s.roles) && UserRole(userId, roleId) !in s.userRoles
    ensures st.out.Ok? ==> st == Step(s.(userRoles := s.userRoles + [UserRole(userId, roleId)]), Ok(UserRole(userId, roleId)))
    ensures st.out.Err? ==> st.store == s && st.out.error.Internal?
    ensures Valid(s) ==> Valid(st.store)
  {
    match InsertUserRole(s, UserRole(userId, roleId))
    case Err(e) => Step(s, Err(e))
    case Ok(s1) => Step(s1, Ok(UserRole(userId, roleId)))
  }

  /** `removeRole`: deletes the pair by its composite key. */
  function RemoveRole(s: Store, userId: Id, roleId: Id): (st: Step<()>)
    ensures st.out.Ok? <==> UserRole(userId, roleId) in s.userRoles
    ensures st.out.Ok? ==> st.store == s.(userRoles := Filter(s.userRoles, AssignmentIsNot(UserRole(userId, roleId))))
    ensures st.out.Err? ==> st == Step(s, Err(RecordMissing))
    ensures Valid(s) ==> Valid(st.store)
  {
    match DeleteUserRole(s, UserRole(userId, roleId))
    case Err(e) => Step(s, Err(e))
    case Ok(s1) => Step(s1, Ok(()))
  }

  /** Assigning a role and removing it again restores the store; assigning
      it twice fails the second time. */
  lemma AssignThenRemoveRole(s: Store, userId: Id, roleId: Id)
    requires AssignRole(s, userId, roleId).out.Ok?
    ensures var s1 := AssignRole(s, userId, roleId).store;
      && AssignRole(s1, userId, roleId) == Step(s1, Err(UniqueViolation))
      && RemoveRole(s1, userId, roleId) == Step(s, Ok(()))
  {
    var ur := UserRole(userId, roleId);
    FilterAppend(s.userRoles, [ur], AssignmentIsNot(ur));
    FilterAll(s.userRoles, AssignmentIsNot(ur));
    assert Filter([ur], AssignmentIsNot(ur)) == [];
  }
}
